=== FILE: README.md ===
# Backup utility: a Dafny model of its decision and bookkeeping logic

This project models the core of a small C backup utility. Real file
operations are replaced by an abstract file system, a map from path strings to
entries. An entry is a regular file (bytes and mtime), a directory or a
special file; "." and "/" are always directories.

The model covers two generations of the program.

The main program (`src/`) has these parts:
- compression-kind naming and the copy/codec dispatch;
- the conflict step, with its bounded rename search;
- `backup_file` / `restore_file` and their statistics counters;
- the recursive directory walks;
- the integrity check run after a backup;
- the incremental change test;
- option and configuration parsing;
- the `backup` / `restore` commands.

The older single-file program (`src/backup_old_backup.c`) has these parts:
- a recursive `mkdir` that splits the path on '/';
- a copy that cleans up after itself;
- a byte-by-byte check;
- an error-counting walk;
- a hand-written argument scanner;
- its commands.

Alongside these are the two generations of the file helpers (`file_utils.c`,
`src/file_utils.c`) and the simpler front ends `backup_ops.c` / `restore_ops.c`
(each also in a near-identical copy under `src/`), including the
`.backup_index` text file.

How the pieces are represented:
- I/O failures the map cannot express come from a `Fault` carried by each source:
  - the source cannot be opened;
  - the destination cannot be opened;
  - a write or read fails after k bytes;
  - the codec fails.
- The tree a walk reads is an immutable `Node` snapshot. The tree it writes is the map.
- A change "under" a destination `dest` means at a path whose text starts with
  `dest`, and "on the way to" it means at a path whose text `dest` starts with.
  These are string prefixes, not path components: `dest.1` and `destX/y` count as
  under `dest`, as the rename candidates and compression extensions need.
- The clock, the process id, the operator's answer to a conflict prompt and
  `should_include_file` are parameters.
- Each module follows one source file or concern:
  - `Base`, `Strings`, `Paths`, `FileSystem`: vocabulary;
  - `Compression`: src/compression.c;
  - `Conflict`: both `handle_file_conflict`s and the rename search;
  - `Cli`: src/main.c parsing;
  - `Engine`: `backup_file` / `restore_file`;
  - `Traversal`: the directory walks;
  - `Commands`: the `main` dispatch, `verify_backup_integrity` and `detect_file_changes`;
  - `MakeDirs`: the old `create_directory_recursive`;
  - `Legacy`: the rest of the old program;
  - `FileUtils`, `BackupOps`, `RestoreOps`: the helper files.

Where the code and its documentation disagree, the model follows the code:
- A RENAME whose candidates `dest.1` … `dest.999` all exist stops at 999 and
  overwrites `dest.999`. No error is reported.
- Inside a walk, excluded entries are passed over without being counted as skipped.
  Only a top-level `backup_file` counts them.
- A directory's result is the code of its LAST failing entry, not the first.
- src/backup.c and src/restore.c increment `g_stats.directories_processed`, which
  `backup_stats_t` does not declare. The model counts it in `dirsProcessed`.
- `ERROR_FILE_READ`, `ERROR_FILE_WRITE` and `ERROR_INVALID_PARAMS` are used by
  src/compression.c but missing from the enumeration. Here they are distinct codes.
- restore_ops.c starts with a stray character before `#include`. It is ignored.

## Model

| member | source | states |
|---|---|---|
| `Compression.Extension` | src/compression.c:3-12 | ".gz"/".z" for the codecs, empty exactly for NONE and LZ4; a codec extension is one '.' followed by no '.' or '/' |
| `Compression.DetectKind` | src/compression.c:14-22 | the kind read from a name is never LZ4 |
| `Compression.DetectGzipIff` | src/compression.c:14-22 | a name is taken for gzip exactly when it ends in ".gz" |
| `Compression.DetectZlibIff` | src/compression.c:14-22 | a name is taken for zlib exactly when it ends in ".z" |
| `Compression.SuffixFromLastIsExtension` | src/compression.c:14-22 | the text from the last '.' equals an extension exactly when the name ends with it |
| `Compression.DetectKindOfExtension` | src/compression.c:3-22 | appending a codec's extension to any string makes it detected as that codec |
| `Compression.AppendExtension` | src/backup.c:27-37 | the backup name always ends with the extension and differs from `dest` only by appending it, and only when it was missing |
| `Compression.AppendExtensionIdempotent` | src/backup.c:27-37 | appending the extension twice equals appending it once |
| `Compression.DetectKindOfAppended` | src/backup.c:27-37 | a compressed backup's name is detected as its codec |
| `Compression.StripExtension` | src/restore.c:193-209 | the restored name is the entry name, or a non-empty name that plus the detected extension gives the entry name |
| `Compression.StripOfExtension` | src/restore.c:193-209 | stripping undoes appending a codec extension to a non-empty name |
| `Compression.StripOfPlainName` | src/restore.c:193-209 | names without ".gz"/".z" keep their name |
| `Compression.StripOfBareExtension` | src/restore.c:193-209 | for every codec, a name that is only its extension is detected as that codec yet kept whole: stripping needs a name longer than the extension |
| `Compression.NameRoundTrip` | src/backup.c:27-37 | restore-side stripping inverts backup-side naming for every non-empty name that does not already end in the extension; a name that does loses that extension on the way back |
| `Compression.Encode` | src/compression.c:73-246 | the stand-in encoding is the data behind the codec's header |
| `Compression.Decode` | src/compression.c:122-331 | gzip accepts any stream (plain data passes through), zlib rejects a non-empty stream without its header |
| `Compression.DecodeEncode` | src/compression.c:73-330 | decoding what a codec encoded gives the original bytes |
| `Compression.TransferCode` | src/compression.c:25-70 | a transfer reports SUCCESS exactly when it completed; a read, write or codec failure maps to one of the file or compression codes |
| `Compression.CopyFileSimple` | src/compression.c:25-70 | null arguments give INVALID_PARAMS; an unopenable source gives FILE_OPEN with nothing written; success leaves a byte-equal copy and happens exactly when the destination is writable and no fault strikes; short writes and read errors unlink the destination; nothing but the destination changes |
| `Compression.CompressFile` | src/compression.c:333-352 | NONE is the plain copy, LZ4 is COMPRESSION with no change, a codec success leaves the encoding of the source; the result is SUCCESS, FILE_OPEN, FILE_READ, FILE_WRITE or COMPRESSION; only the destination changes |
| `Compression.DecompressFile` | src/compression.c:354-373 | NONE is the plain copy, LZ4 is COMPRESSION, success leaves the decoding of the source, a stream zlib rejects or a source that cannot be opened never succeeds; the result is SUCCESS, FILE_OPEN, FILE_READ, FILE_WRITE or COMPRESSION |
| `Compression.CompressDecompressRoundTrip` | src/compression.c:333-373 | decompressing a file just compressed recreates the source bytes |
| `Compression.ToSizeT` | src/compression.c:385-390 | the -1 of a failed stat becomes a huge `size_t`; sizes that fit are kept |
| `Compression.OptimalLevel` | src/compression.c:385-407 | for a regular file, 1 below 1024 bytes, 6 below 1048576 bytes and 9 from there on; 6 for a directory (size 4096); 9 for a path that cannot be stat'ed |
| `Compression.LevelMonotone` | src/compression.c:393-407 | a larger file never gets a lower level |
| `Conflict.BackupCode` | src/backup.h:66-71 | the main program's enumeration values are 0..3 |
| `Conflict.ModeOfBackupCode` | src/backup.h:66-71 | decoding a value is defined exactly on 0..3 and inverts the encoding |
| `Conflict.RestoreOpsCode` | restore_ops.h:8-13 | the restore front end's enumeration values are 0..3 |
| `Conflict.ModeOfRestoreOpsCode` | restore_ops.h:8-13 | decoding is defined exactly on 0..3 and inverts the encoding |
| `Conflict.CodesRoundTrip` | restore_ops.h:8-13 | each mode survives encoding and decoding under both numberings |
| `Conflict.OrderingsDisagree` | src/backup.h:66-71 | no mode has the same number in the two enumerations |
| `Conflict.HandleConflictMain` | src/main.c:212-233 | 1 for OVERWRITE and RENAME, 0 for SKIP and unknown values, and for ASK 1 exactly when a 'y'/'Y' was read |
| `Conflict.HandleConflictRestoreOps` | restore_ops.c:117-145 | 0 for OVERWRITE, RENAME and unknown values, -1 for SKIP, for ASK 0 exactly on 'y'/'Y' (the src copy, src/restore_ops.c:90-109, lacks the RENAME case and answers it the same way) |
| `Conflict.ConventionsAgree` | src/main.c:212-233 | read in their own conventions, the two functions make the same decision for every mode and answer |
| `Conflict.UnknownModeDisagrees` | restore_ops.c:142-143 | an out-of-range mode skips in the main program but proceeds in the front end |
| `Conflict.RenameIndex` | src/backup.c:49-64 | the chosen counter is the first whose candidate is free, or 999 when all before it exist |
| `Conflict.RenameLoop` | src/backup.c:49-64 | the loop ends on the candidate with the first free counter (or the 999th) |
| `Conflict.RenameIndexStep` | src/backup.c:51-63 | an existing candidate passes the search on to the next counter |
| `Conflict.RenameTakesFirstFree` | src/restore.c:22-54 | if some candidate below the bound is free, the chosen one is free and no later than it |
| `Cli.ParseCompressionType` | src/main.c:281-287 | each kind's name maps to it; null and every other text give NONE |
| `Cli.ParseConflictMode` | src/main.c:289-295 | each mode's name maps to it; null and unknown text give ASK |
| `Cli.ParseLogLevel` | src/main.c:297-303 | each level's name maps to it; null gives ERROR, unknown text gives INFO |
| `Cli.ClampThreads` | src/main.c:408-411 | the thread count lies in [1, MAX_THREADS] and is kept when already inside |
| `Cli.AddExclude` | src/main.c:402-406 | a pattern is appended while fewer than MAX_EXCLUDE_PATTERNS are held, and dropped otherwise; nothing else changes |
| `Cli.ParseConfigLine` | src/main.c:322 | a parsed key is 1..255 characters without '=', the value 1..255 characters without a newline |
| `Cli.ParseConfigLineOfPair` | src/main.c:322 | a `key=value` line parses back to its key and (truncated) value |
| `Cli.ApplyConfigPair` | src/main.c:323-342 | options stay well formed; any key but "exclude" leaves the patterns alone, and "exclude" appends its value under the cap |
| `Cli.UnknownKeyIgnored` | src/main.c:323-342 | a key other than the eight recognised ones changes nothing |
| `Cli.FlagKeys` | src/main.c:325-330 | "recursive", "verbose" and "verify" set only their own flag, true exactly for "true" or "1" |
| `Cli.ValueKeys` | src/main.c:323-338 | "compression" and "log_level" set only their field by name (unknown names give NONE and INFO), "threads" only the clamped count, "log_file" only the file name |
| `Cli.ExcludeKey` | src/main.c:339-342 | "exclude" changes only the patterns, appending the value under the cap |
| `Cli.ApplyConfigLine` | src/main.c:315-343 | a skipped line (first character '#', '\n' or NUL, or empty) and a line that is no `key=value` change nothing; every line keeps the options well formed |
| `Cli.ConfigLineOfPair` | src/main.c:315-343 | a line `key=value` with a key not starting with '#', '\n' or NUL does what the pair does, the value cut to 255 characters |
| `Cli.ApplyConfigLines` | src/main.c:315-344 | a whole file keeps the options well formed |
| `Cli.ApplyConfigLinesAppend` | src/main.c:315-344 | lines apply one after another: a file made of two parts acts as the first part followed by the second |
| `Cli.LoadConfigFile` | src/main.c:305-348 | -1 exactly when the file cannot be opened (options unchanged); the patterns become the earlier ones followed by the file's, capped |
| `Cli.ApplyConfigLinesExcludes` | src/main.c:339-342 | the exclude list after a file is the capped concatenation of the earlier list and the file's exclude values in order |
| `Cli.IgnoredLineChangesNothing` | src/main.c:317-319 | a skipped line anywhere in a file changes nothing: the file acts as if it were absent |
| `Cli.Defaults` | src/main.c:373-381 | NONE, FULL, ASK, MAX_THREADS threads, LONG_MAX size limit, permissions and timestamps kept, INFO; every other field as before; well formed exactly when the pattern list fits |
| `Cli.ApplyOption` | src/main.c:384-448 | every option keeps the options well formed; only `-x` touches the patterns, appending under the cap |
| `Cli.ApplyOptions` | src/main.c:383-451 | the options parse exactly when neither `-h` nor an unknown option appears, and the result is well formed |
| `Cli.ApplyOptionsExcludes` | src/main.c:402-406 | the patterns are the `-x` arguments in order, capped |
| `Cli.ParseOptions` | src/main.c:350-452 | a parse yields well-formed options whose patterns are the capped `-x` arguments; no options give the defaults |
| `Cli.Configure` | src/main.c:491-498 | the configuration file never turns a successful parse into a failure, and keeps the options well formed |
| `FileSystem.Transfer` | src/compression.c:25-70 | the streaming loop: only the destination changes; success exactly when the destination is writable (a special file counts as writable and becomes a regular file, see "## Left out") and the fault is harmless, leaving the payload; a failure after opening unlinks or keeps a prefix depending on the cleanup |
| `MakeDirs.MkdirPrefixes` | src/backup_old_backup.c:124-137 | each prefix up to a later '/' is made left to right; only directories strictly on the way are added, and on success every such prefix exists |
| `MakeDirs.CreateDirectoryRecursive` | src/backup_old_backup.c:117-143 | only directories that are prefixes of the path are added; success leaves the path and every prefix at a '/' existing; the empty path fails |
| `MakeDirs.MkdirPrefixesIdle` | src/backup_old_backup.c:131-134 | when every prefix exists the loop changes nothing (EEXIST is no error) |
| `MakeDirs.CreateDirectoryRecursiveIdempotent` | src/backup_old_backup.c:117-143 | a second call after a successful one succeeds and changes nothing |
| `Paths.DirName` | file_utils.c:34-45 | `dirname` is ".", "/", or a strictly shorter prefix of the path |
| `Paths.DirNameOfJoin` | file_utils.c:34-45 | the parent of `dir/name` is `dir` |
| `Paths.DirNameOfPlainName` | file_utils.c:34-45 | a non-empty path with no '/' has parent "." |
| `Paths.AfterLastSlash` | src/restore.c:333-334 | the file name has no '/' and ends the path |
| `Paths.AfterLastSlashOfJoin` | src/restore.c:333-334 | the file name of `dir/name` is `name` |
| `Strings.LastIndexOf` | src/compression.c:15 | `strrchr` finds the last occurrence, or reports none |
| `Strings.AtolOfIntToString` | backup_ops.c:115 | `atol` reads back a `%ld`-printed number followed by a non-digit |
| `Strings.TextRoundTrip` | backup_ops.c:91-94 | byte text written to a file reads back unchanged |
| `Strings.LinesOfFirstLine` | backup_ops.c:113 | `fgets` returns the text up to and including the first newline as the first line |
| `FileUtils.CreateDirectory` | file_utils.c:27-54 | an existing directory succeeds unchanged; success leaves the path a directory, and so each `dirname` ancestor in turn until one that already was a directory, or "." or "/"; only directories are added and every entry is kept; a non-directory at the path fails; a failed allocation (src/file_utils.c:28-57) fails unchanged |
| `FileUtils.ChainMadeGrows` | file_utils.c:27-54 | the ancestors a creation made stay directories through later creations, which only add directories and keep every entry |
| `FileUtils.CreateDirectoryMakesParent` | file_utils.c:34-45 | success leaves both the path and its `dirname` directories |
| `FileUtils.CopyFile` | file_utils.c:56-99 | success exactly for a regular source, writable destination and harmless fault; success leaves a copy with the current time holding the source's bytes, or nothing when both paths are the same (the `O_TRUNC` open empties the source first); a failure leaves any partial copy in place; only the destination changes |
| `FileUtils.SelfCopyEmpties` | file_utils.c:56-99 | copying a regular file onto itself succeeds when no fault strikes and leaves it empty |
| `FileUtils.CopyFileWithMetadata` | file_utils.c:101-134 | succeeds exactly when the copy does; the destination then holds the source's bytes (nothing for a self-copy) and, for distinct paths, the source's mtime |
| `FileUtils.CompareFileTimes` | file_utils.c:166-176 | -1 when either file is missing; between existing files 1 exactly when the first is newer, 0 exactly when the times are equal, -1 exactly when it is older |
| `FileUtils.GetFileSize` | file_utils.c:178-186 | -1 exactly when `stat` fails, otherwise the size |
| `FileUtils.HasFileChanged` | file_utils.c:188-196 | changed exactly when the file is missing or its mtime is after the last backup time |
| `FileUtils.CompareFileTimesAntisymmetric` | src/file_utils.c:156-166 | between existing files, swapping the arguments negates the result |
| `FileUtils.HasFileChangedMatchesCompare` | src/file_utils.c:156-186 | for existing files, "changed since b's time" is "newer than b" |
| `FileUtils.MissingFileAmbiguity` | src/file_utils.c:156-186 | a missing file is "older" to the comparison yet "changed" to the change test |
| `Engine.ReadSource` | src/compression.c:31-43 | a regular file reads its bytes; a directory opens but cannot be read; a node `stat` fails on cannot be opened; a special file is taken as unopenable (a simplification, see "## Left out") |
| `Engine.ReadAt` | src/compression.c:34-40 | what a copy reads once its target is open: the node's bytes, or nothing when the target is the source path, with the same fault and time |
| `Engine.BackupWrite` | src/backup.c:93-127 | the write step onto the chosen target: one per-file counter rises, it fails exactly when `files_failed` rose, only the target changes and only when writable; on success the target holds the encoding of what was read, or of nothing for a self-copy |
| `Engine.BackupDecided` | src/backup.c:39-86 | after the conflict step: a declined conflict counts a skip and writes nothing; a dry run writes nothing; a new target leaves every existing entry as it was |
| `Engine.RestoreWrite` | src/restore.c:71-101 | the write step of a restore: the same accounting; on success the target holds the decoding of what was read and the compressed-bytes counter adds its size |
| `Engine.RestoreDecided` | src/restore.c:22-63 | after the conflict step of a restore: a declined conflict counts a skip; a dry run writes nothing; a new target leaves every existing entry as it was |
| `Engine.Resolve` | src/backup.c:40-76 | a free destination proceeds unchanged; the file is declined exactly for SKIP or an ASK without a yes; RENAME takes the first free candidate; otherwise the destination is kept |
| `Engine.KeepMetadata` | src/backup.c:110-112 | only the target's time changes, and only when a preserve option is set |
| `Engine.BackupFile` | src/backup.c:5-136 | a source that cannot be stat'ed gives FILE_OPEN, uncounted; otherwise exactly one per-file counter rises; the result fails exactly when `files_failed` rose; exclusion skips without writing; a dry run writes nothing; at most the target changes and it was writable; SKIP preserves every entry; a processed file holds the encoding of the source's bytes, or of nothing when the target is the source itself (its "wb" open truncates it before the read); the compressed-bytes counter adds the encoding's size for a distinct target and the source's stat'ed size for a plain copy |
| `Engine.RestoreFile` | src/restore.c:5-110 | the same accounting; the codec comes from the source name; a processed file holds the decoded source, or the decoding of nothing when restored onto itself |
| `Traversal.ChildDest` | src/restore.c:193-209 | an entry's destination starts with the directory's destination |
| `Traversal.PrepareDir` | src/backup.c:138-152 | SUCCESS exactly when the destination existed or could be made, then counted once; only directories are added; backup never alters an entry |
| `Traversal.FileStep` | src/backup.c:237-251 | a regular file is counted once and its changes stay under the destination |
| `Traversal.OneChangeConfined` | src/backup.c:247 | a change at one path under the destination is confined to it |
| `Traversal.ConfinedWiden` | src/backup.c:229-236 | a subdirectory's changes are confined to its parent's destination |
| `Traversal.SoundTrans` | src/backup.c:207-255 | the walk's invariants compose across entries |
| `Traversal.SoundWiden` | src/backup.c:229-236 | a sub-walk's invariants hold for the enclosing walk |
| `Traversal.BackupFileSound` | src/backup.c:5-136 | one backed-up file keeps every walk invariant |
| `Traversal.RestoreFileSound` | src/restore.c:5-110 | one restored file keeps every walk invariant |
| `Traversal.TargetUnder` | src/backup.c:27-64 | the written target (extension or rename) lies under the destination |
| `Traversal.Walk` | src/backup.c:154-265 | counters never fall, directories stay, changes stay on the way to or under the destination, dry runs add only directories; a failed creation gives FILE_WRITE with nothing visited; an unreadable source gives FILE_OPEN; otherwise the result is the last failure among the codes the walk collects |
| `Traversal.WalkKids` | src/backup.c:207-255 | the loop keeps the walk invariants, only extends the codes collected so far, and reports the last failure among them |
| `Traversal.Visited` | src/backup.c:218-237 | each entry a walk does not pass over is a subdirectory or regular file that is not excluded, and there are no more of them than entries |
| `Traversal.ChildStep` | src/backup.c:229-251 | one visited entry's step keeps the walk invariants and counts a regular file exactly once |
| `Traversal.Steps` | src/backup.c:207-255 | the reference run: one code per visited entry, each step starting from the state the previous one left |
| `Traversal.WalkKidsSteps` | src/backup.c:207-255 | the loop yields exactly the reference run's codes after the earlier ones, and ends in its state |
| `Traversal.LastFailureAppend` | src/backup.c:233-236 | a new failure becomes the result; a success keeps it |
| `Traversal.LastFailureIsSuccess` | src/backup.c:207-264 | the result is SUCCESS exactly when every visited entry succeeded |
| `Traversal.LastFailureIsAFailure` | src/backup.c:207-264 | a failing result is the code of some visited entry, and every entry after it succeeded |
| `Traversal.IgnoredEntriesChangeNothing` | src/backup.c:218-227 | a run of excluded entries, entries that cannot be stat'ed and special files, anywhere in a directory, is passed over as if absent: no code, no change |
| `Traversal.IgnoredEntrySkipped` | src/backup.c:218-227 | one excluded, unstat-able or special entry moves the loop to the next entry with nothing changed |
| `Traversal.WalkSuccess` | src/backup.c:193-264 | SUCCESS exactly when the destination could be made, the source opened, and the step of every visited entry (each from the state the previous ones left) succeeded |
| `Traversal.WalkSteps` | src/backup.c:193-264 | a walk that made its destination and opened its source returns the reference run's codes and state, and the last failure among those codes |
| `Traversal.EntryCodes` | src/backup.c:207-255 | a directory's walk yields one code per visited entry |
| `Traversal.WalkLastFailure` | src/backup.c:233-236 | a failing walk that opened its source reports the code of a visited entry after which every visited entry succeeded |
| `Traversal.BackupDirectoryRecursive` | src/backup.c:154-265 | the walk's invariants, and SUCCESS exactly when preparation, opening and every visited entry's step succeed |
| `Traversal.RestoreDirectoryRecursive` | src/restore.c:133-253 | the same for restore, with compression extensions stripped from entry names and no exclusion |
| `Commands.TempPath` | src/backup.c:279-281 | the temporary file of the check lives in "/tmp" |
| `Commands.CheckBackup` | src/backup.c:267-303 | no check without `--verify`; only the temporary file may change; SUCCESS guarantees the checked file decodes to the bytes the source now holds, and such a file (with a writable temporary path) always passes; a compressed backup file that is missing gives COMPRESSION |
| `Commands.CheckedPath` | src/backup.c:272-276 | the checked path starts with the destination and ends with the extension; corrected, a destination already ending in it is checked as is, otherwise the extension is added once; as written the extension is always added, so a destination already ending in a codec extension is checked under a different name than `backup_file` gives it |
| `Commands.VerifyBackupIntegrity` | src/backup.c:267-303 | a passing check means the checked file decodes to the bytes the source now holds |
| `Commands.RunBackup` | src/main.c:537-559 | a missing source gives FILE_NOT_FOUND and a directory without `-r` GENERAL, both unchanged; without `--verify` the walk or file backup is the result; a verified success means the checked file decodes to what the source holds after the backup: its own bytes, or, for a backup written onto the source itself, what that backup wrote |
| `Commands.MainBackupAsWritten` | src/main.c:556-559 | as written, a verified success means `dest`+extension decodes to what the source holds after the backup |
| `Commands.MainBackup` | src/main.c:556-559 | corrected, a verified success means `dest` with the extension appended only when missing decodes to what the source holds after the backup |
| `Commands.MainRestore` | src/main.c:572-586 | FILE_NOT_FOUND and GENERAL as for backup; a directory restore keeps the walk invariants; a single file is counted once |
| `Commands.BackupOperands` | src/main.c:519-527 | `backup` takes the first two operands and needs two |
| `Commands.RestoreOperands` | src/main.c:562-568 | `restore` takes the last two arguments; fewer than two gives none (the C test `argc < 4` also counts options, which the option list here does not) |
| `Commands.OperandsDisagree` | src/main.c:526-568 | with three operands the two commands pick different pairs |
| `Commands.DetectFileChanges` | src/restore.c:321-360 | a missing source gives FILE_NOT_FOUND and "needs backup"; no backup is needed exactly when the source exists, the mode is not FULL, and the copy under the source's file name exists and is not older |
| `Commands.DetectMatchesHasFileChanged` | src/restore.c:343-356 | for incremental runs the change test agrees with `has_file_changed` against the copy's time |
| `Commands.BackupFileWrites` | src/backup.c:94-127 | a clean backup of a regular file to a free path writes the encoding there (of nothing, when that path is the source) and counts it processed |
| `Commands.RestoreFileWrites` | src/restore.c:73-101 | a clean restore to a free path writes the decoded bytes (the decoding of nothing, when that path is the source) |
| `Commands.BackupRestoreRoundTrip` | src/restore.c:73-77 | restoring a gzip/zlib backup made to another path recreates the original bytes |
| `Commands.BackupThenVerifySucceeds` | src/backup.c:272-293 | with the corrected path, a clean compressed backup to a free path other than the source always passes its check |
| `Commands.VerifyAsWrittenMissesBackup` | src/backup.c:272-285 | as written, a destination already ending in the extension makes the check fail with COMPRESSION after a successful backup |
| `Commands.BackupLeavesSourceSeen` | src/backup.c:94-99 | a successful backup written onto its own source leaves there exactly what the check then expects to find |
| `Commands.SelfBackupEmpties` | src/backup.c:94-99 | `backup --conflict=overwrite a a` without compression succeeds, with or without `--verify`, and leaves `a` empty |
| `Commands.ExamplePaths` | src/main.c:266 | in the example, the destination already ends in ".gz", it and the name with ".gz" appended both lie in ".", and the temporary file is another path |
| `Commands.ExampleAsWrittenFails` | src/main.c:266 | as written, the example's backup succeeds but its check reports COMPRESSION |
| `Commands.ExampleCorrectedSucceeds` | src/main.c:266 | corrected, the example's backup and check succeed |
| `Commands.VerifyExample` | src/main.c:266 | `backup -c gzip --verify data.txt backup.txt.gz` fails as written and passes when corrected |
| `Legacy.CopyCore` | src/backup_old_backup.c:159-233 | success exactly when the source was stat'ed, the destination is writable and no fault strikes, leaving a byte-equal copy (with the source's time under `-m`); a failure leaves the destination untouched or removed |
| `Legacy.CopyFileWithMetadata` | src/backup_old_backup.c:146-234 | a missing source fails unchanged; success exactly for a regular source, writable destination and harmless fault, leaving the source's bytes (nothing for a self-copy) with the source's time under `-m` |
| `Legacy.VerifyEntries` | src/backup_old_backup.c:236-280 | 0 needs both entries with equal sizes; for two regular files 0 exactly when the contents are equal |
| `Legacy.VerifyBackup` | src/backup_old_backup.c:236-280 | a missing side fails; between regular files 0 exactly for equal contents |
| `Legacy.CopyThenVerify` | src/backup_old_backup.c:146-280 | a successful copy always passes the check, a copy onto itself included |
| `Legacy.VerifyAfterCopyOld` | src/backup_old_backup.c:320-324 | inside the walk the check after a successful copy never fails |
| `Legacy.NodeEntry` | src/backup_old_backup.c:95-103 | `stat` fails exactly for a dangling entry, and sees a regular file's bytes |
| `Legacy.BackupFileOld` | src/backup_old_backup.c:318-329 | one file of the walk succeeds exactly when its copy can be made, leaving the bytes |
| `Legacy.ErrorCountZero` | src/backup_old_backup.c:337 | no error was counted exactly when every entry succeeded |
| `Legacy.MakeDirsConfined` | src/backup_old_backup.c:117-143 | directory creation changes nothing away from its path |
| `Legacy.WalkOld` | src/backup_old_backup.c:282-338 | an unreadable source fails before anything is made; a failed creation fails with no entry visited; otherwise the result is 0 exactly when every flag the walk collects is set; directories stay and changes stay on the way to or under the destination |
| `Legacy.WalkOldKids` | src/backup_old_backup.c:303-331 | the loop only extends the flags collected so far, by at most one per entry, and keeps confinement and directories |
| `Legacy.Counted` | src/backup_old_backup.c:311-318 | each entry the old walk acts on is a subdirectory or regular file, and there are no more of them than entries |
| `Legacy.OldStep` | src/backup_old_backup.c:311-329 | one counted entry's step keeps directories and stays under the destination |
| `Legacy.OldSteps` | src/backup_old_backup.c:303-331 | the reference run: one flag per counted entry, each step starting from the file system the previous one left |
| `Legacy.WalkOldKidsSteps` | src/backup_old_backup.c:303-331 | the loop returns 0, yields exactly the reference run's flags after the earlier ones, and ends in its file system |
| `Legacy.OldFlags` | src/backup_old_backup.c:303-331 | a directory's old walk yields one flag per counted entry |
| `Legacy.WalkOldSuccess` | src/backup_old_backup.c:282-338 | 0 exactly when the source opened, the destination was made and every counted entry's step succeeded; then the walk's flags and file system are the reference run's |
| `Legacy.OnlyIgnoredEntries` | src/backup_old_backup.c:311-331 | a run of entries that are neither directories nor regular files, anywhere in a directory, is passed over as if absent |
| `Legacy.ScanOld` | src/backup_old_backup.c:423-446 | the operand index is the default or an argument that is no recognised flag |
| `Legacy.ParseOptionsOld` | src/backup_old_backup.c:419-449 | the operand index is 2 or the first unrecognised argument |
| `Legacy.ScanOldStopsAtOperand` | src/backup_old_backup.c:423-446 | after flags the scan records the first operand and `-r` was seen exactly when set |
| `Legacy.ScanOldAllFlags` | src/backup_old_backup.c:421-422 | when every argument is a flag the index keeps its default |
| `Legacy.OldOperands` | src/backup_old_backup.c:485-491 | two operands are needed after the index; they are the last two arguments |
| `Legacy.FlagsTakenAsOperands` | src/backup_old_backup.c:485-491 | `backup -v -r` takes `-v` and `-r` as source and destination |
| `Legacy.MainBackupOld` | src/backup_old_backup.c:494-516 | a missing or special source, or a directory without `-r`, fails unchanged; a regular file succeeds exactly when its copy can be made, leaving its bytes, or nothing when copied onto itself (the check under `-c` then compares the emptied file with itself) |
| `Legacy.OldSelfBackupEmpties` | src/backup_old_backup.c:494-516 | `backup a a` with the old program exits 0 and leaves `a` empty |
| `Legacy.MainRestoreOld` | src/backup_old_backup.c:526-538 | a missing backup fails unchanged; otherwise the command succeeds exactly when the copy does, leaving the backup's bytes (nothing when restored onto itself) |
| `BackupOps.InitBackupOptions` | backup_ops.c:8-14 | full, non-recursive, quiet, metadata kept, no patterns |
| `BackupOps.BackupFile` | backup_ops.c:16-30 | a missing source fails unchanged; success leaves the source's bytes (nothing for a self-copy), with the source's time when metadata is kept and the paths differ |
| `BackupOps.BackupDirectory` | backup_ops.c:32-42 | only the destination directory is made, and success leaves it a directory |
| `BackupOps.PerformBackup` | backup_ops.c:44-79 | counters cleared; a directory without `-r` fails unchanged; a directory counts nothing; a single file counts one, as copied exactly on success, leaving the source's bytes (nothing for a self-copy) and recording the copy's size; nothing is ever skipped |
| `BackupOps.CreateBackupIndex` | backup_ops.c:81-99 | the index is written exactly when its path is writable; nothing else changes |
| `BackupOps.IndexText` | backup_ops.c:91-94 | the index is byte text whose lines are `backup_time`, `total_files`, `copied_files`, `total_size` in that order |
| `BackupOps.LinesOfConcat` | backup_ops.c:113-118 | lines joined together read back as the same lines |
| `BackupOps.FirstBackupTime` | backup_ops.c:113-118 | no value means that no line starts with `backup_time=` |
| `BackupOps.FirstBackupTimeFinds` | backup_ops.c:113-118 | the first line starting with `backup_time=` gives the value `atol` reads after those 12 characters |
| `BackupOps.LoadBackupIndex` | backup_ops.c:101-123 | always 0; no index gives time 0; a readable index gives the value after its first `backup_time=` line, or leaves the caller's value when there is none |
| `BackupOps.IndexRoundTrip` | src/backup_ops.c:68-106 | loading an index just created yields the end time it recorded |
| `RestoreOps.InitRestoreOptions` | restore_ops.c:8-15 | ASK, metadata restored, everything else off, latest backup |
| `RestoreOps.VerifyRestoredFile` | restore_ops.c:101-115 | 0 exactly when `get_file_size` agrees, so two missing files pass and one missing file fails |
| `RestoreOps.RestoreFile` | restore_ops.c:17-49 | a missing backup fails unchanged; 1 exactly when the destination exists and the conflict answer is non-zero, writing nothing; success leaves the backup's bytes (nothing for a self-copy), with its time when metadata is restored and the paths differ; the check only warns after a success |
| `RestoreOps.RestoreNeverWarns` | restore_ops.c:41-46 | the check after a restore never warns, so result and files are the same with or without it (src/restore_ops.c:17-36 has none) |
| `RestoreOps.RestoreDirectory` | restore_ops.c:51-61 | only the destination directory is made |
| `RestoreOps.PerformRestore` | restore_ops.c:63-99 | counters cleared; a directory without `-r` fails unchanged; a single file counts once as restored, skipped or failed according to 0, 1 or anything else; a restore leaves the backup's bytes (nothing for a self-copy) and records their size; a failure records no size |
| `RestoreOps.SkipKeepsDestination` | src/restore_ops.c:22-26 | with SKIP an existing destination is untouched and the file is counted skipped |

## Left out

- The gzip and zlib codecs are replaced by a header-plus-data stand-in. It keeps the
  dispatch, the failure shapes and decode∘encode = id. The byte format, LZ4 and
  `calculate_compression_ratio` are not modelled.
- Logging, progress display, signal handling, the pthread mutexes and the floating-point
  ratio/throughput reporting are not modelled. They do not affect results.
- `should_include_file`, `compare_files` and `copy_file_metadata` are declared but
  defined in no file of this model:
  - exclusion is a parameter;
  - `compare_files` is byte equality of regular files, so checking a directory backup gives CHECKSUM;
  - metadata means the modification time only. Permission bits and ownership are not modelled.
- `create_directory_recursive` of the main program is defined in no file of this
  model. The one of src/backup_old_backup.c is used.
- Paths are compared as written. The kernel's folding of "a//b" and of trailing '/'s is not modelled.
- MAX_PATH truncation by `snprintf`/`strncpy` is not modelled, except the old program's
  `-l` argument (4095) and the 255-character `sscanf` fields.
- `fgets` splitting lines longer than its buffer is not modelled. Lines split at '\n'.
- Embedded NUL characters are not modelled: a string ends where its text ends. The one
  exception is a configuration line whose first character is NUL, which is skipped like an
  empty line. Undefined behaviour on the empty path is not modelled either: `mkdir("")`
  simply fails.
- The `atoi`/`atol` overflow and the `int`/`long` width of the counters are not
  modelled. Values are unbounded.
- getopt_long tokenisation and argument permutation are not modelled. The options
  arrive as a list of recognised items.
- I/O faults during the integrity check (the check reads with no fault) are not modelled.
- The source tree read by a walk never overlaps the destination tree.
- `Commands.MainBackup`: the corrected check reads `dest` with the extension appended only when
  missing. Under RENAME the backup went to `dest.N` plus the extension, and under SKIP or a
  declined ASK nothing was written. The check follows neither, as in the source.
- `list_backup_contents`, `verify_backup` of src/main.c, `verify_backup_chain`,
  `read/write_backup_metadata` and `create_backup_index` of src/restore.c are left out:
  they print, or dump binary structs and `ctime` text.
- The old program's `list` command, `print_backup_status` / `print_restore_status` and
  `list_available_backups` only print.
- `Engine.ReadSource`: a special file given as a source is taken as one that cannot be opened
  (FILE_OPEN). The real `fopen(path, "rb")` succeeds on a character device such as /dev/null
  and reads nothing, blocks on a FIFO and fails on a socket. Only the single-file commands
  reach this, because the walks pass special files over.
- `FileSystem.OpenSource`: the same simplification for a special file found by path: it
  cannot be opened, where a device would open and read nothing and a FIFO would block.
- `FileSystem.Transfer`: a special file as the destination counts as writable and is
  replaced by a regular file holding the payload. The real `fopen(dest, "wb")` on a device
  keeps the device and discards the bytes, blocks on a FIFO and fails on a socket.
- `Legacy.VerifyEntries`: a special file on either side fails. The real `fopen` of a
  FIFO could block instead.
- `Legacy.WalkOld`: a subdirectory that is unreadable or cannot be created counts one error.
  The destination's contents after the walk are stated through the reference run
  (`Legacy.OldSteps`) and confinement, not file by file, because two entries of a snapshot
  may share a name.
- `Traversal.PrepareDir`: the success case promises `dest` or `dest` without one trailing
  '/' exists, since paths are not normalised.
- `Compression.OptimalLevel`: only the path's size is used. The extension test after the
  size test cannot be reached.

## Findings

| source | as written | input that shows it | evidently intended | confidence | as-written member | corrected member |
|---|---|---|---|---|---|---|
| src/backup.c:272-276 | `verify_backup_integrity` checks `backup + ext` even when `backup_file` (src/backup.c:27-37) did not append the extension because the destination already ended with it | `backup -c gzip --verify data.txt backup.txt.gz` (the usage example's shape): the backup is written to `backup.txt.gz`, the check opens `backup.txt.gz.gz` and reports ERROR_COMPRESSION | check `dest` under the name `backup_file` gives it before any conflict, i.e. append the extension only when missing | high; not executed | `Commands.MainBackupAsWritten`, `Commands.VerifyAsWrittenMissesBackup`, `Commands.ExampleAsWrittenFails` | `Commands.MainBackup`, `Commands.BackupThenVerifySucceeds`, `Commands.ExampleCorrectedSucceeds` |

=== FILE: backup_ops.dfy ===
/** The simpler backup front end of backup_ops.c and its copy
    src/backup_ops.c (the two differ only in logging): defaults, a
    single-file or single-directory backup with its status record, and
    the `.backup_index` text file. */
module BackupOps {
  import opened Base
  import opened Strings
  import opened Paths
  import opened FileSystem
  import opened FileUtils

  /** `BackupOptions` of backup_ops.h.  The pattern table is never read
      by these functions; only its count is kept. */
  datatype BackupOptions = BackupOptions(
    incremental: bool,
    recursive: bool,
    preserveMetadata: bool,
    verbose: bool,
    excludeCount: int)

  /** `BackupStatus` of backup_ops.h; the two times come from the clock. */
  datatype BackupStatus = BackupStatus(
    totalFiles: int,
    copiedFiles: int,
    skippedFiles: int,
    errorFiles: int,
    totalSize: int,
    copiedSize: int,
    startTime: int,
    endTime: int)

  /** `init_backup_options`: a full, non-recursive, quiet backup that
      keeps metadata and excludes nothing. */
  function InitBackupOptions(): (r: BackupOptions)
    ensures !r.incremental && !r.recursive && !r.verbose
    ensures r.preserveMetadata
    ensures r.excludeCount == 0
  {
    BackupOptions(false, false, true, false, 0)
  }

  /** `backup_file`: a missing source fails; otherwise the copy keeps
      the source's time exactly when metadata is to be kept. */
  function BackupFile(fs: FS, source: Path, destination: Path, o: BackupOptions, fault: Fault, now: int): (r: (int, FS))
    ensures r.0 == 0 || r.0 == -1
    ensures !Exists(fs, source) ==> r == (-1, fs)
    ensures r.1 - {destination} == fs - {destination}
    ensures r.0 == 0 <==> IsFile(fs, source) && Writable(fs, destination)
                          && Harmless(fault, |CopyPayload(fs, source, destination)|, false)
    ensures r.0 == 0 ==> destination in r.1 && r.1[destination].File?
                         && r.1[destination].data == (if source == destination then [] else fs[source].data)
    ensures r.0 == 0 && source != destination ==>
              r.1[destination].mtime == if o.preserveMetadata then fs[source].mtime else now
  {
    if !Exists(fs, source) then (-1, fs)
    else if o.preserveMetadata then CopyFileWithMetadata(fs, source, destination, fault, now)
    else CopyFile(fs, source, destination, fault, now)
  }

  /** `backup_directory`: only the destination directory is made.
      `allocFails` stands for the scratch allocation inside
      `create_directory`. */
  function BackupDirectory(fs: FS, backupDir: Path, now: int, allocFails: bool): (r: (int, FS))
    ensures r.0 == 0 || r.0 == -1
    ensures r.0 == 0 ==> IsDir(r.1, backupDir)
    ensures Preserves(fs, r.1) && AddsOnlyDirs(fs, r.1)
    ensures IsDir(fs, backupDir) ==> r == (0, fs)
  {
    CreateDirectory(fs, backupDir, now, allocFails)
  }

  /** The status with every counter cleared and the start time set. */
  function Cleared(prev: BackupStatus, start: int): BackupStatus {
    prev.(totalFiles := 0, copiedFiles := 0, skippedFiles := 0, errorFiles := 0,
          totalSize := 0, copiedSize := 0, startTime := start)
  }

  /** `perform_backup`: clear the counters, then back up a directory
      (only with `recursive`, and without counting anything) or a single
      file (counting it as copied or as failed).  The early return for a
      directory without `recursive` leaves the end time as it was. */
  function PerformBackup(fs: FS, source: Path, destination: Path, o: BackupOptions, prev: BackupStatus,
                         fault: Fault, allocFails: bool, start: int, end: int)
    : (r: (int, BackupStatus, FS))
    ensures r.0 == 0 || r.0 == -1
    ensures r.1.skippedFiles == 0 && r.1.startTime == start
    ensures IsDir(fs, source) ==>
              r.1.totalFiles == 0 && r.1.copiedFiles == 0 && r.1.errorFiles == 0
              && r.1.totalSize == 0 && r.1.copiedSize == 0
    ensures IsDir(fs, source) && !o.recursive ==> r.0 == -1 && r.2 == fs && r.1.endTime == prev.endTime
    ensures IsDir(fs, source) && o.recursive ==>
              r.1.endTime == end && Preserves(fs, r.2) && AddsOnlyDirs(fs, r.2)
              && (r.0 == 0 ==> IsDir(r.2, destination))
    ensures !IsDir(fs, source) ==>
              r.1.endTime == end && r.1.totalFiles == 1 && r.1.copiedFiles + r.1.errorFiles == 1
              && (r.1.copiedFiles == 1 <==> r.0 == 0)
    ensures !IsDir(fs, source) && r.0 == 0 ==>
              IsFile(fs, source) && destination in r.2 && r.2[destination].File?
              && r.2[destination].data == (if source == destination then [] else fs[source].data)
              && r.1.totalSize == r.1.copiedSize == |r.2[destination].data|
    ensures !IsDir(fs, source) && r.0 != 0 ==> r.1.totalSize == 0 && r.1.copiedSize == 0
  {
    var s := Cleared(prev, start);
    if IsDir(fs, source) then
      if !o.recursive then (-1, s, fs)
      else
        var (c, fs1) := BackupDirectory(fs, destination, start, allocFails);
        (c, s.(endTime := end), fs1)
    else
      var (c, fs1) := BackupFile(fs, source, destination, o, fault, start);
      if c == 0 then
        var size := GetFileSize(fs1, source);
        (c, s.(totalFiles := 1, copiedFiles := 1, totalSize := size, copiedSize := size, endTime := end), fs1)
      else
        (c, s.(totalFiles := 1, errorFiles := 1, endTime := end), fs1)
  }

  /** Where the index of a backup directory lives. */
  function IndexPath(backupDir: Path): Path {
    Join(backupDir, ".backup_index")
  }

  /** One printed `key=value` line. */
  function Line(key: string, n: int): string {
    key + IntToString(n) + "\n"
  }

  /** The four lines `create_backup_index` prints, in order. */
  function IndexLines(st: BackupStatus): seq<string> {
    [Line("backup_time=", st.endTime), Line("total_files=", st.totalFiles),
     Line("copied_files=", st.copiedFiles), Line("total_size=", st.totalSize)]
  }

  function Concat(lines: seq<string>): string {
    if |lines| == 0 then "" else lines[0] + Concat(lines[1..])
  }

  /** A line as `fgets` returns it: one newline, at its end. */
  predicate IsLine(l: string) {
    |l| > 0 && l[|l| - 1] == '\n' && forall i :: 0 <= i < |l| - 1 ==> l[i] != '\n'
  }

  lemma ByteTextAppend(a: string, b: string)
    requires IsByteText(a) && IsByteText(b)
    ensures IsByteText(a + b)
  {
    assert forall i :: 0 <= i < |a + b| ==> (a + b)[i] == if i < |a| then a[i] else b[i - |a|];
  }

  /** A printed number is byte text without newlines. */
  lemma LineShape(key: string, n: int)
    requires IsByteText(key) && forall i :: 0 <= i < |key| ==> key[i] != '\n'
    ensures IsLine(Line(key, n)) && IsByteText(Line(key, n))
  {
    var t := IntToString(n);
    var d := if n < 0 then NatToString(-n) else NatToString(n);
    assert forall i :: 0 <= i < |d| ==> IsDigit(d[i]);
    assert IsByteText(t);
    ByteTextAppend(key, t);
    ByteTextAppend(key + t, "\n");
    var l := Line(key, n);
    assert forall i :: 0 <= i < |l| - 1 ==> l[i] == (key + t)[i];
  }

  lemma IndexLinesShape(st: BackupStatus)
    ensures forall k :: 0 <= k < |IndexLines(st)| ==> IsLine(IndexLines(st)[k]) && IsByteText(IndexLines(st)[k])
  {
    var ls := IndexLines(st);
    forall k | 0 <= k < 4
      ensures IsLine(ls[k]) && IsByteText(ls[k])
    {
      var key := ["backup_time=", "total_files=", "copied_files=", "total_size="][k];
      var n := [st.endTime, st.totalFiles, st.copiedFiles, st.totalSize][k];
      assert ls[k] == Line(key, n);
      PlainKey(key);
      LineShape(key, n);
    }
  }

  lemma PlainKey(key: string)
    requires key in ["backup_time=", "total_files=", "copied_files=", "total_size="]
    ensures IsByteText(key) && forall i :: 0 <= i < |key| ==> key[i] != '\n'
  {
  }

  lemma {:induction false} ConcatByteText(ls: seq<string>)
    requires forall k :: 0 <= k < |ls| ==> IsByteText(ls[k])
    ensures IsByteText(Concat(ls))
  {
    if |ls| > 0 {
      ConcatByteText(ls[1..]);
      ByteTextAppend(ls[0], Concat(ls[1..]));
    }
  }

  /** Lines joined together split back into the same lines. */
  lemma {:induction false} LinesOfConcat(ls: seq<string>)
    requires forall k :: 0 <= k < |ls| ==> IsLine(ls[k])
    ensures Lines(Concat(ls)) == ls
  {
    if |ls| > 0 {
      var l := ls[0];
      var body := l[..|l| - 1];
      assert l == body + "\n";
      LinesOfConcat(ls[1..]);
      LinesOfFirstLine(body, Concat(ls[1..]));
      assert Concat(ls) == body + "\n" + Concat(ls[1..]);
    }
  }

  /** The text of the index file. */
  function IndexText(st: BackupStatus): (r: string)
    ensures IsByteText(r)
    ensures Lines(r) == IndexLines(st)
  {
    IndexLinesShape(st);
    ConcatByteText(IndexLines(st));
    LinesOfConcat(IndexLines(st));
    Concat(IndexLines(st))
  }

  /** `create_backup_index`: -1 when the file cannot be created;
      otherwise the index replaces whatever was at its path. */
  function CreateBackupIndex(fs: FS, backupDir: Path, st: BackupStatus, now: int): (r: (int, FS))
    ensures r.0 == 0 || r.0 == -1
    ensures r.0 == 0 <==> Writable(fs, IndexPath(backupDir))
    ensures r.0 != 0 ==> r.1 == fs
    ensures r.1 - {IndexPath(backupDir)} == fs - {IndexPath(backupDir)}
    ensures r.0 == 0 ==> IndexPath(backupDir) in r.1 && r.1[IndexPath(backupDir)].File?
  {
    var p := IndexPath(backupDir);
    if !Writable(fs, p) then (-1, fs)
    else (0, fs[p := File(TextToBytes(IndexText(st)), now)])
  }

  /** The first line that starts with `backup_time=`, as a number. */
  function FirstBackupTime(lines: seq<string>): (r: Option<int>)
    ensures r.None? ==> forall i :: 0 <= i < |lines| ==> !StartsWith(lines[i], "backup_time=")
  {
    if |lines| == 0 then None
    else if StartsWith(lines[0], "backup_time=") then Some(Atol(lines[0][12..]))
    else FirstBackupTime(lines[1..])
  }

  /** Whichever line is the first to start with `backup_time=`, its
      remainder read by `atol` is the time found. */
  lemma {:induction false} FirstBackupTimeFinds(lines: seq<string>, i: nat)
    requires i < |lines| && StartsWith(lines[i], "backup_time=")
    requires forall j :: 0 <= j < i ==> !StartsWith(lines[j], "backup_time=")
    ensures FirstBackupTime(lines) == Some(Atol(lines[i][12..]))
    decreases i
  {
    if i > 0 {
      assert lines[1..][i - 1] == lines[i];
      assert forall j :: 0 <= j < i - 1 ==> lines[1..][j] == lines[j + 1];
      FirstBackupTimeFinds(lines[1..], i - 1);
    }
  }

  /** `load_backup_index`: (result, last backup time).  A missing index
      gives 0; an index without a `backup_time=` line leaves the caller's
      `prev` untouched.  A directory opens for reading but yields no
      line; a special file is taken as one that cannot be opened. */
  function LoadBackupIndex(fs: FS, backupDir: Path, prev: int): (r: (int, int))
    ensures r.0 == 0
    ensures !IsFile(fs, IndexPath(backupDir)) && !IsDir(fs, IndexPath(backupDir)) ==> r.1 == 0
    ensures IsDir(fs, IndexPath(backupDir)) ==> r.1 == prev
    ensures IsFile(fs, IndexPath(backupDir)) ==>
              var t := FirstBackupTime(Lines(BytesToText(Stat(fs, IndexPath(backupDir)).value.data)));
              r.1 == (if t.Some? then t.value else prev)
  {
    match Stat(fs, IndexPath(backupDir))
    case Some(File(data, _)) =>
      (match FirstBackupTime(Lines(BytesToText(data)))
       case Some(t) => (0, t)
       case None => (0, prev))
    case Some(Dir(_)) => (0, prev)
    case _ => (0, 0)
  }

  /** Loading an index just created yields the end time it recorded. */
  lemma IndexRoundTrip(fs: FS, backupDir: Path, st: BackupStatus, now: int, prev: int)
    requires CreateBackupIndex(fs, backupDir, st, now).0 == 0
    ensures LoadBackupIndex(CreateBackupIndex(fs, backupDir, st, now).1, backupDir, prev) == (0, st.endTime)
  {
    var text := IndexText(st);
    TextRoundTrip(text);
    var l0 := IndexLines(st)[0];
    assert StartsWith(l0, "backup_time=");
    assert l0[12..] == IntToString(st.endTime) + "\n";
    AtolOfIntToString(st.endTime, "\n");
  }
}

=== FILE: base.dfy ===
/** Shared vocabulary of the backup utility: result codes, bytes, the
    Option type, and the numeric limits of src/backup.h. */
module Base {

  /** A value that may be absent (a C null pointer, a failed lookup). */
  datatype Option<+T> = None | Some(value: T)

  newtype byte = b: int | 0 <= b < 256

  type Bytes = seq<byte>

  /** The result codes of src/backup.h.  The last three are used by
      src/compression.c but never declared in the header; here they are
      distinct variants like the others. */
  datatype ErrorCode =
    | Success
    | GeneralError
    | FileNotFound
    | FileOpenError
    | MemoryError
    | CompressionError
    | ChecksumError
    | Interrupted
    | FileReadError
    | FileWriteError
    | InvalidParams

  const MAX_THREADS: int := 8
  const MAX_EXCLUDE_PATTERNS: nat := 100
  const LONG_MAX: int := 0x7fff_ffff_ffff_ffff

  /** The first `n` elements of `s`, or all of it when it is shorter. */
  function Take<T>(s: seq<T>, n: nat): (r: seq<T>)
    ensures |r| <= n && |r| <= |s|
    ensures r <= s
    ensures |s| <= n ==> r == s
  {
    if |s| <= n then s else s[..n]
  }

  function Min(a: int, b: int): int { if a <= b then a else b }

  /** Concatenation regroups; stated once so that proofs about
      accumulated sequences need not rediscover it. */
  lemma AppendAssoc<T>(a: seq<T>, b: seq<T>, c: seq<T>)
    ensures a + (b + c) == a + b + c
  {
  }
}

=== FILE: cli.dfy ===
/** The option record of src/backup.h and how src/main.c fills it: the
    string-to-enum parsers, `key=value` configuration lines, and the
    command-line options as `getopt_long` hands them over. */
module Cli {
  import opened Base
  import opened Strings
  import opened Compression
  import opened Conflict

  datatype BackupMode = Full | Incremental | Differential

  datatype LogLevel = LogError | LogWarning | LogInfo | LogDebug

  /** `backup_options_t`; `excludes` holds the first `exclude_count`
      patterns. */
  datatype BackupOptions = BackupOptions(
    sourcePath: string,
    destPath: string,
    configFile: string,
    logFile: string,
    excludes: seq<string>,
    compression: Kind,
    mode: BackupMode,
    conflict: Mode,
    recursive: bool,
    verbose: bool,
    progress: bool,
    verify: bool,
    preservePermissions: bool,
    preserveTimestamps: bool,
    dryRun: bool,
    threads: int,
    maxFileSize: int,
    logging: bool,
    logLevel: LogLevel)

  /** The zero-initialised global the options start from. */
  function ZeroOptions(): BackupOptions {
    BackupOptions("", "", "", "", [], NoCompression, Full, Ask,
                  false, false, false, false, false, false, false, 0, 0, false, LogError)
  }

  /** The bounds every consumer of the options may rely on. */
  predicate WellFormed(o: BackupOptions) {
    1 <= o.threads <= MAX_THREADS && |o.excludes| <= MAX_EXCLUDE_PATTERNS
  }

  function KindName(k: Kind): string {
    match k
    case NoCompression => "none"
    case Gzip => "gzip"
    case Zlib => "zlib"
    case Lz4 => "lz4"
  }

  function ModeName(m: Mode): string {
    match m
    case Ask => "ask"
    case Overwrite => "overwrite"
    case Skip => "skip"
    case Rename => "rename"
  }

  function LevelName(l: LogLevel): string {
    match l
    case LogError => "error"
    case LogWarning => "warning"
    case LogInfo => "info"
    case LogDebug => "debug"
  }

  /** `parse_compression_type`; None is a null pointer. */
  function ParseCompressionType(s: Option<string>): (r: Kind)
    ensures forall k :: s == Some(KindName(k)) ==> r == k
    ensures (forall k :: s != Some(KindName(k))) ==> r == NoCompression
  {
    if s.None? then NoCompression
    else if s.value == "none" then assert s == Some(KindName(NoCompression)); NoCompression
    else if s.value == "gzip" then assert s == Some(KindName(Gzip)); Gzip
    else if s.value == "zlib" then assert s == Some(KindName(Zlib)); Zlib
    else if s.value == "lz4" then assert s == Some(KindName(Lz4)); Lz4
    else NoCompression
  }

  /** `parse_conflict_mode`: unknown text means ASK. */
  function ParseConflictMode(s: Option<string>): (r: Mode)
    ensures forall m :: s == Some(ModeName(m)) ==> r == m
    ensures (forall m :: s != Some(ModeName(m))) ==> r == Ask
  {
    if s.None? then Ask
    else if s.value == "ask" then assert s == Some(ModeName(Ask)); Ask
    else if s.value == "overwrite" then assert s == Some(ModeName(Overwrite)); Overwrite
    else if s.value == "skip" then assert s == Some(ModeName(Skip)); Skip
    else if s.value == "rename" then assert s == Some(ModeName(Rename)); Rename
    else Ask
  }

  /** `parse_log_level`: a null pointer means ERROR, unknown text INFO. */
  function ParseLogLevel(s: Option<string>): (r: LogLevel)
    ensures s.None? ==> r == LogError
    ensures forall l :: s == Some(LevelName(l)) ==> r == l
    ensures s.Some? && (forall l :: s != Some(LevelName(l))) ==> r == LogInfo
  {
    if s.None? then LogError
    else if s.value == "error" then assert s == Some(LevelName(LogError)); LogError
    else if s.value == "warning" then assert s == Some(LevelName(LogWarning)); LogWarning
    else if s.value == "info" then assert s == Some(LevelName(LogInfo)); LogInfo
    else if s.value == "debug" then assert s == Some(LevelName(LogDebug)); LogDebug
    else LogInfo
  }

  /** The thread count `atoi` gives, forced into [1, MAX_THREADS]. */
  function ClampThreads(n: int): (r: int)
    ensures 1 <= r <= MAX_THREADS
    ensures 1 <= n <= MAX_THREADS ==> r == n
    ensures n < 1 ==> r == 1
    ensures n > MAX_THREADS ==> r == MAX_THREADS
  {
    if n < 1 then 1 else if n > MAX_THREADS then MAX_THREADS else n
  }

  /** An exclude pattern is kept only while there is room for it. */
  function AddExclude(o: BackupOptions, pattern: string): (r: BackupOptions)
    requires |o.excludes| <= MAX_EXCLUDE_PATTERNS
    ensures r.excludes == Take(o.excludes + [pattern], MAX_EXCLUDE_PATTERNS)
    ensures r == o.(excludes := r.excludes)
  {
    if |o.excludes| < MAX_EXCLUDE_PATTERNS then o.(excludes := o.excludes + [pattern]) else o
  }

  /** Boolean configuration values. */
  predicate IsTrue(v: string) {
    v == "true" || v == "1"
  }

  const FIELD_WIDTH: nat := 255

  /** `sscanf(line, "%255[^=]=%255[^\n]", key, value) == 2`: a key of 1 to
      255 characters other than '=', then '=', then at least one
      character before the newline; the value keeps at most 255 of them. */
  function ParseConfigLine(line: string): (r: Option<(string, string)>)
    ensures r.Some? ==> 1 <= |r.value.0| <= FIELD_WIDTH && 1 <= |r.value.1| <= FIELD_WIDTH
    ensures r.Some? ==> forall i :: 0 <= i < |r.value.0| ==> r.value.0[i] != '='
    ensures r.Some? ==> forall i :: 0 <= i < |r.value.1| ==> r.value.1[i] != '\n'
  {
    match IndexOf(line, '=')
    case None => None
    case Some(i) =>
      if i == 0 || i > FIELD_WIDTH then None
      else
        var rest := line[i + 1..];
        var n := match IndexOf(rest, '\n') case None => |rest| case Some(j) => j;
        if n == 0 then None else Some((line[..i], Take(rest[..n], FIELD_WIDTH)))
  }

  /** A well-formed `key=value` line parses back to its key and value. */
  lemma ParseConfigLineOfPair(key: string, value: string)
    requires 1 <= |key| <= FIELD_WIDTH && forall i :: 0 <= i < |key| ==> key[i] != '='
    requires 1 <= |value| && forall i :: 0 <= i < |value| ==> value[i] != '\n'
    ensures ParseConfigLine(key + "=" + value + "\n") == Some((key, Take(value, FIELD_WIDTH)))
  {
    var line := key + "=" + value + "\n";
    assert line[|key|] == '=';
    assert forall j :: 0 <= j < |key| ==> line[j] == key[j];
    assert IndexOf(line, '=') == Some(|key|);
    var rest := line[|key| + 1..];
    assert rest == value + "\n";
    assert rest[|value|] == '\n';
    assert forall j :: 0 <= j < |value| ==> rest[j] == value[j];
    assert IndexOf(rest, '\n') == Some(|value|);
    assert line[..|key|] == key;
    assert rest[..|value|] == value;
  }

  /** Lines `load_config_file` skips before parsing: empty (a NUL first
      byte ends the C string), a comment, or a blank line. */
  predicate IgnoredLine(line: string) {
    |line| == 0 || line[0] == '#' || line[0] == '\n' || line[0] == '\0'
  }

  /** The keys a configuration file may set. */
  const CONFIG_KEYS: set<string> :=
    {"compression", "recursive", "verbose", "verify", "threads", "log_file", "log_level", "exclude"}

  /** One recognised `key=value` pair; unknown keys change nothing. */
  function ApplyConfigPair(o: BackupOptions, key: string, value: string): (r: BackupOptions)
    requires WellFormed(o)
    ensures WellFormed(r)
    ensures key != "exclude" ==> r.excludes == o.excludes
    ensures key == "exclude" ==> r.excludes == Take(o.excludes + [value], MAX_EXCLUDE_PATTERNS)
  {
    if key == "compression" then o.(compression := ParseCompressionType(Some(value)))
    else if key == "recursive" then o.(recursive := IsTrue(value))
    else if key == "verbose" then o.(verbose := IsTrue(value))
    else if key == "verify" then o.(verify := IsTrue(value))
    else if key == "threads" then o.(threads := ClampThreads(Atol(value)))
    else if key == "log_file" then o.(logFile := value)
    else if key == "log_level" then o.(logLevel := ParseLogLevel(Some(value)))
    else if key == "exclude" then AddExclude(o, value)
    else o
  }

  /** A key the configuration file does not know changes nothing. */
  lemma UnknownKeyIgnored(o: BackupOptions, key: string, value: string)
    requires WellFormed(o)
    requires key !in CONFIG_KEYS
    ensures ApplyConfigPair(o, key, value) == o
  {
  }

  /** The yes/no keys set their own flag, to true exactly for the values
      "true" and "1", and nothing else. */
  lemma FlagKeys(o: BackupOptions, value: string)
    requires WellFormed(o)
    ensures ApplyConfigPair(o, "recursive", value) == o.(recursive := value == "true" || value == "1")
    ensures ApplyConfigPair(o, "verbose", value) == o.(verbose := value == "true" || value == "1")
    ensures ApplyConfigPair(o, "verify", value) == o.(verify := value == "true" || value == "1")
  {
  }

  /** The keys with a parsed value set their own field, and nothing else:
      compression and log level by name (an unknown name gives no
      compression and INFO), the thread count clamped, the log file as
      written. */
  lemma ValueKeys(o: BackupOptions, value: string)
    requires WellFormed(o)
    ensures var r := ApplyConfigPair(o, "compression", value);
            r == o.(compression := r.compression)
            && (forall k :: value == KindName(k) ==> r.compression == k)
            && ((forall k :: value != KindName(k)) ==> r.compression == NoCompression)
    ensures var r := ApplyConfigPair(o, "log_level", value);
            r == o.(logLevel := r.logLevel)
            && (forall l :: value == LevelName(l) ==> r.logLevel == l)
            && ((forall l :: value != LevelName(l)) ==> r.logLevel == LogInfo)
    ensures ApplyConfigPair(o, "threads", value) == o.(threads := ClampThreads(Atol(value)))
    ensures ApplyConfigPair(o, "log_file", value) == o.(logFile := value)
  {
  }

  /** An `exclude` pair appends its pattern while there is room, and
      changes nothing else. */
  lemma ExcludeKey(o: BackupOptions, value: string)
    requires WellFormed(o)
    ensures ApplyConfigPair(o, "exclude", value) == o.(excludes := Take(o.excludes + [value], MAX_EXCLUDE_PATTERNS))
  {
  }

  /** One line of the configuration file: skipped, not a `key=value`
      pair, or applied as one. */
  function ApplyConfigLine(o: BackupOptions, line: string): (r: BackupOptions)
    requires WellFormed(o)
    ensures WellFormed(r)
    ensures IgnoredLine(line) || ParseConfigLine(line).None? ==> r == o
  {
    if IgnoredLine(line) then o
    else match ParseConfigLine(line)
      case None => o
      case Some((k, v)) => ApplyConfigPair(o, k, v)
  }

  /** A line written as `key=value` sets what the pair sets, with the
      value cut to the scanner's width. */
  lemma ConfigLineOfPair(o: BackupOptions, key: string, value: string)
    requires WellFormed(o)
    requires 1 <= |key| <= FIELD_WIDTH && forall i :: 0 <= i < |key| ==> key[i] != '='
    requires key[0] != '#' && key[0] != '\n' && key[0] != '\0'
    requires 1 <= |value| && forall i :: 0 <= i < |value| ==> value[i] != '\n'
    ensures ApplyConfigLine(o, key + "=" + value + "\n") == ApplyConfigPair(o, key, Take(value, FIELD_WIDTH))
  {
    ParseConfigLineOfPair(key, value);
    assert (key + "=" + value + "\n")[0] == key[0];
  }

  function ApplyConfigLines(o: BackupOptions, lines: seq<string>): (r: BackupOptions)
    requires WellFormed(o)
    ensures WellFormed(r)
    decreases |lines|
  {
    if |lines| == 0 then o else ApplyConfigLines(ApplyConfigLine(o, lines[0]), lines[1..])
  }

  /** `load_config_file`: `content` is the file's text, None when it
      cannot be opened. */
  function LoadConfigFile(content: Option<string>, o: BackupOptions): (r: (int, BackupOptions))
    requires WellFormed(o)
    ensures WellFormed(r.1)
    ensures r.0 == -1 <==> content.None?
    ensures content.None? ==> r.1 == o
    ensures content.Some? ==> r.1.excludes == Take(o.excludes + ExcludeValues(Lines(content.value)), MAX_EXCLUDE_PATTERNS)
  {
    match content
    case None => (-1, o)
    case Some(text) =>
      ApplyConfigLinesExcludes(o, Lines(text));
      (0, ApplyConfigLines(o, Lines(text)))
  }

  /** The exclude values of the configuration lines, in order. */
  function ExcludeValues(lines: seq<string>): seq<string>
  {
    if |lines| == 0 then []
    else
      var here := if !IgnoredLine(lines[0]) && ParseConfigLine(lines[0]).Some? && ParseConfigLine(lines[0]).value.0 == "exclude"
                  then [ParseConfigLine(lines[0]).value.1] else [];
      here + ExcludeValues(lines[1..])
  }

  /** Appending to a capped list and capping the whole list again is the
      same as capping once. */
  lemma TakeAppend<T>(a: seq<T>, b: seq<T>, c: seq<T>, n: nat)
    requires |a| <= n
    ensures Take(Take(a + b, n) + c, n) == Take(a + b + c, n)
  {
    if |a + b| <= n {
    } else {
      assert (a + b + c)[..n] == (a + b)[..n];
    }
  }

  /** The configured patterns are the earlier ones followed by those of the
      file, cut at MAX_EXCLUDE_PATTERNS. */
  lemma {:induction false} ApplyConfigLinesExcludes(o: BackupOptions, lines: seq<string>)
    requires WellFormed(o)
    ensures ApplyConfigLines(o, lines).excludes == Take(o.excludes + ExcludeValues(lines), MAX_EXCLUDE_PATTERNS)
    decreases |lines|
  {
    if |lines| == 0 {
      assert o.excludes + [] == o.excludes;
    } else {
      var o1 := ApplyConfigLine(o, lines[0]);
      var here := if !IgnoredLine(lines[0]) && ParseConfigLine(lines[0]).Some? && ParseConfigLine(lines[0]).value.0 == "exclude"
                  then [ParseConfigLine(lines[0]).value.1] else [];
      assert o1.excludes == Take(o.excludes + here, MAX_EXCLUDE_PATTERNS);
      ApplyConfigLinesExcludes(o1, lines[1..]);
      TakeAppend(o.excludes, here, ExcludeValues(lines[1..]), MAX_EXCLUDE_PATTERNS);
      assert ExcludeValues(lines) == here + ExcludeValues(lines[1..]);
      AppendAssoc(o.excludes, here, ExcludeValues(lines[1..]));
    }
  }

  /** The file is read line by line: the lines after a prefix start from
      the options the prefix left. */
  lemma {:induction false} ApplyConfigLinesAppend(o: BackupOptions, a: seq<string>, b: seq<string>)
    requires WellFormed(o)
    ensures ApplyConfigLines(o, a + b) == ApplyConfigLines(ApplyConfigLines(o, a), b)
    decreases |a|
  {
    if |a| == 0 {
      assert a + b == b;
    } else {
      ApplyConfigLinesAppend(ApplyConfigLine(o, a[0]), a[1..], b);
      assert (a + b)[0] == a[0];
      assert (a + b)[1..] == a[1..] + b;
    }
  }

  /** A skipped line changes nothing wherever it stands in the file. */
  lemma IgnoredLineChangesNothing(o: BackupOptions, a: seq<string>, line: string, b: seq<string>)
    requires WellFormed(o)
    requires IgnoredLine(line)
    ensures ApplyConfigLines(o, a + [line] + b) == ApplyConfigLines(o, a + b)
  {
    ApplyConfigLinesAppend(o, a + [line], b);
    ApplyConfigLinesAppend(o, a, [line]);
    ApplyConfigLinesAppend(o, a, b);
    var x := ApplyConfigLines(o, a);
    assert ApplyConfigLines(x, [line]) == x by {
      assert [line][1..] == [];
    }
  }

  /** The options `getopt_long` reports, with their arguments. */
  datatype CliOption =
    | RecursiveOpt
    | VerboseOpt
    | ProgressOpt
    | CompressionOpt(arg: string)
    | ModeOpt(arg: string)
    | ExcludeOpt(arg: string)
    | JobsOpt(arg: string)
    | VerifyOpt
    | PreservePermissionsOpt
    | PreserveTimestampsOpt
    | DryRunOpt
    | ConflictOpt(arg: string)
    | ConfigOpt(arg: string)
    | LogOpt(arg: string)
    | LogLevelOpt(arg: string)
    | MaxSizeOpt(arg: string)
    | HelpOpt
    | UnknownOpt

  datatype CliResult = Parsed(opts: BackupOptions) | HelpExit | Invalid

  /** The defaults `parse_options` sets before reading any option: no
      compression, a full backup, ask on conflicts, MAX_THREADS threads,
      no size limit, both preserve options on, INFO logging; every other
      field is left as it was. */
  function Defaults(o: BackupOptions): (r: BackupOptions)
    ensures r.compression == NoCompression && r.mode == Full && r.conflict == Ask
    ensures r.threads == MAX_THREADS && r.maxFileSize == LONG_MAX
    ensures r.preservePermissions && r.preserveTimestamps && r.logLevel == LogInfo
    ensures r.(compression := o.compression, mode := o.mode, conflict := o.conflict, threads := o.threads,
               maxFileSize := o.maxFileSize, preservePermissions := o.preservePermissions,
               preserveTimestamps := o.preserveTimestamps, logLevel := o.logLevel) == o
    ensures WellFormed(r) <==> |o.excludes| <= MAX_EXCLUDE_PATTERNS
  {
    o.(compression := NoCompression, mode := Full, conflict := Ask, threads := MAX_THREADS,
       maxFileSize := LONG_MAX, preservePermissions := true, preserveTimestamps := true,
       logLevel := LogInfo)
  }

  function ApplyOption(o: BackupOptions, opt: CliOption): (r: BackupOptions)
    requires WellFormed(o)
    ensures WellFormed(r)
    ensures opt.ExcludeOpt? ==> r.excludes == Take(o.excludes + [opt.arg], MAX_EXCLUDE_PATTERNS)
    ensures !opt.ExcludeOpt? ==> r.excludes == o.excludes
  {
    match opt
    case RecursiveOpt => o.(recursive := true)
    case VerboseOpt => o.(verbose := true)
    case ProgressOpt => o.(progress := true)
    case CompressionOpt(a) => o.(compression := ParseCompressionType(Some(a)))
    case ModeOpt(a) =>
      if a == "full" then o.(mode := Full)
      else if a == "incremental" then o.(mode := Incremental)
      else if a == "differential" then o.(mode := Differential)
      else o
    case ExcludeOpt(a) => AddExclude(o, a)
    case JobsOpt(a) => o.(threads := ClampThreads(Atol(a)))
    case VerifyOpt => o.(verify := true)
    case PreservePermissionsOpt => o.(preservePermissions := true)
    case PreserveTimestampsOpt => o.(preserveTimestamps := true)
    case DryRunOpt => o.(dryRun := true)
    case ConflictOpt(a) => o.(conflict := ParseConflictMode(Some(a)))
    case ConfigOpt(a) => o.(configFile := a)
    case LogOpt(a) => o.(logFile := a, logging := true)
    case LogLevelOpt(a) => o.(logLevel := ParseLogLevel(Some(a)))
    case MaxSizeOpt(a) => o.(maxFileSize := Atol(a))
    case HelpOpt => o
    case UnknownOpt => o
  }

  /** The option loop: `-h` ends the program, an unknown option makes
      `parse_options` return -1. */
  function ApplyOptions(o: BackupOptions, opts: seq<CliOption>): (r: CliResult)
    requires WellFormed(o)
    ensures r.Parsed? ==> WellFormed(r.opts)
    ensures r.Parsed? <==> forall i :: 0 <= i < |opts| ==> opts[i] != HelpOpt && opts[i] != UnknownOpt
    decreases |opts|
  {
    if |opts| == 0 then Parsed(o)
    else if opts[0] == HelpOpt then HelpExit
    else if opts[0] == UnknownOpt then Invalid
    else
      var r := ApplyOptions(ApplyOption(o, opts[0]), opts[1..]);
      assert forall i :: 1 <= i < |opts| ==> opts[i] == opts[1..][i - 1];
      r
  }

  /** The arguments of the `-x` options, in order. */
  function ExcludeArgs(opts: seq<CliOption>): seq<string> {
    if |opts| == 0 then []
    else (if opts[0].ExcludeOpt? then [opts[0].arg] else []) + ExcludeArgs(opts[1..])
  }

  lemma {:induction false} ApplyOptionsExcludes(o: BackupOptions, opts: seq<CliOption>)
    requires WellFormed(o)
    requires ApplyOptions(o, opts).Parsed?
    ensures ApplyOptions(o, opts).opts.excludes == Take(o.excludes + ExcludeArgs(opts), MAX_EXCLUDE_PATTERNS)
    decreases |opts|
  {
    if |opts| == 0 {
      assert o.excludes + [] == o.excludes;
    } else {
      var o1 := ApplyOption(o, opts[0]);
      var here := if opts[0].ExcludeOpt? then [opts[0].arg] else [];
      assert o1.excludes == Take(o.excludes + here, MAX_EXCLUDE_PATTERNS);
      ApplyOptionsExcludes(o1, opts[1..]);
      TakeAppend(o.excludes, here, ExcludeArgs(opts[1..]), MAX_EXCLUDE_PATTERNS);
      assert ExcludeArgs(opts) == here + ExcludeArgs(opts[1..]);
      AppendAssoc(o.excludes, here, ExcludeArgs(opts[1..]));
    }
  }

  /** `parse_options` on the zeroed global. */
  function ParseOptions(opts: seq<CliOption>): (r: CliResult)
    ensures r.Parsed? ==> WellFormed(r.opts)
    ensures r.Parsed? ==> r.opts.excludes == Take(ExcludeArgs(opts), MAX_EXCLUDE_PATTERNS)
    ensures opts == [] ==> r == Parsed(Defaults(ZeroOptions()))
  {
    var r := ApplyOptions(Defaults(ZeroOptions()), opts);
    if r.Parsed? then
      ApplyOptionsExcludes(Defaults(ZeroOptions()), opts);
      assert [] + ExcludeArgs(opts) == ExcludeArgs(opts);
      r
    else r
  }

  /** What `main` runs before dispatching: the options, then the
      configuration file named by `--config`, whose lines override them.
      `config` is the file's text (None when it cannot be opened). */
  function Configure(opts: seq<CliOption>, config: Option<string>): (r: CliResult)
    ensures r.Parsed? ==> WellFormed(r.opts)
    ensures r.Parsed? <==> ParseOptions(opts).Parsed?
  {
    match ParseOptions(opts)
    case Parsed(o) => if |o.configFile| > 0 then Parsed(LoadConfigFile(config, o).1) else Parsed(o)
    case other => other
  }
}

=== FILE: commands.dfy ===
/** The `backup` and `restore` commands of src/main.c, the integrity
    check run after a backup (`verify_backup_integrity`, src/backup.c),
    and the change test of src/restore.c (`detect_file_changes`). */
module Commands {
  import opened Base
  import opened Strings
  import opened Paths
  import opened FileSystem
  import opened Compression
  import opened Conflict
  import opened Cli
  import opened Engine
  import opened Traversal
  import FileUtils

  /** `compare_files(source, p)` (declared in src/backup.h, defined in no
      file of this model), taken to hold when the source is a regular file
      whose bytes are now `seen` and `p` is a regular file with the same
      bytes. */
  predicate SameContents(node: Node, seen: Bytes, fs: FS, p: Path) {
    node.Reg? && p in fs && fs[p].File? && fs[p].data == seen
  }

  /** The bytes the check finds at `source` after a single-file backup:
      the file's own, unless the backup was written onto `source` itself,
      which then holds what the copy made of the truncated file. */
  function SourceAfterBackup(st: State, node: Node, source: Path, dest: Path, o: BackupOptions, env: Env): Bytes
    requires node.Reg?
  {
    if env.included(source) && !o.dryRun && BackupTarget(st.fs, dest, o, env) == Proceed(source)
    then Encode(o.compression, [])
    else node.src.data
  }

  /** After a successful single-file backup, `source` holds what the check
      expects to find there: a backup onto a different path leaves it
      alone, and one onto `source` itself leaves what it wrote. */
  lemma BackupLeavesSourceSeen(st: State, node: Node, source: Path, dest: Path, o: BackupOptions, env: Env)
    requires node.Reg? && env.included(source) && !o.dryRun
    requires BackupTarget(st.fs, dest, o, env) == Proceed(source)
    requires BackupFile(st, node, source, dest, o, env).0 == Success
    ensures var r := BackupFile(st, node, source, dest, o, env);
            source in r.1.fs && r.1.fs[source].File?
            && r.1.fs[source].data == SourceAfterBackup(st, node, source, dest, o, env)
  {
  }

  /** `"/tmp/backup_verify_%d"` with the process id. */
  function TempPath(pid: nat): (r: Path)
    ensures DirName(r) == "/tmp"
  {
    var name := "backup_verify_" + NatToString(pid);
    assert forall i :: 0 <= i < |name| ==> name[i] != '/' by {
      assert forall i :: 0 <= i < |name| - 14 ==> name[14 + i] == NatToString(pid)[i];
    }
    DirNameOfJoin("/tmp", name);
    Join("/tmp", name)
  }

  /** The check of `verify_backup_integrity` once it knows which file
      holds the backup: decode that file into the temporary file and
      compare, or compare the uncompressed backup directly. */
  function CheckBackup(fs: FS, node: Node, seen: Bytes, actual: Path, o: BackupOptions, pid: nat, now: int)
    : (r: (ErrorCode, FS))
    ensures r.0 in {Success, CompressionError, ChecksumError}
    ensures !o.verify ==> r == (Success, fs)
    ensures r.1 - {TempPath(pid)} == fs - {TempPath(pid)}
    ensures r.0 == Success && o.verify ==>
              node.Reg? && actual in fs && fs[actual].File?
              && Decode(o.compression, fs[actual].data) == Some(seen)
    ensures o.verify && node.Reg? && actual in fs && fs[actual].File?
            && Decode(o.compression, fs[actual].data) == Some(seen)
            && o.compression != Lz4 && (o.compression != NoCompression ==> Writable(fs, TempPath(pid)))
            ==> r.0 == Success
    ensures o.verify && o.compression != NoCompression && !Exists(fs, actual) ==> r.0 == CompressionError
  {
    var k := o.compression;
    if !o.verify then (Success, fs)
    else if k != NoCompression then
      var tmp := TempPath(pid);
      var (c, fs1) := DecompressFile(OpenSource(fs, actual, NoFault), tmp, k, fs, now);
      if c != Success then (CompressionError, fs1)
      else
        var same := SameContents(node, seen, fs1, tmp);
        var fs2 := Unlink(fs1, tmp);
        if !same then (ChecksumError, fs2) else (Success, fs2)
    else if !SameContents(node, seen, fs, actual) then (ChecksumError, fs)
    else (Success, fs)
  }

  /** The file `verify_backup_integrity` checks for the destination
      `backup`: as written (`fixed` false) the compression extension is
      appended unconditionally; `fixed` appends it the way `backup_file`
      does, only when the destination lacks it. */
  function CheckedPath(backup: Path, k: Kind, fixed: bool): (r: Path)
    ensures |backup| <= |r| && r[..|backup|] == backup && EndsWith(r, Extension(k))
    ensures fixed && EndsWith(backup, Extension(k)) ==> r == backup
    ensures !fixed || !EndsWith(backup, Extension(k)) ==> |r| == |backup| + |Extension(k)|
    ensures !fixed && Extension(k) != "" && EndsWith(backup, Extension(k)) ==> r != AppendExtension(backup, k)
  {
    if fixed then AppendExtension(backup, k) else backup + Extension(k)
  }

  /** `verify_backup_integrity`. */
  function VerifyBackupIntegrity(fs: FS, node: Node, seen: Bytes, backup: Path, o: BackupOptions, pid: nat, now: int,
                                 fixed: bool)
    : (r: (ErrorCode, FS))
    ensures r.0 in {Success, CompressionError, ChecksumError}
    ensures !o.verify ==> r == (Success, fs)
    ensures r.0 == Success && o.verify ==>
              var b := CheckedPath(backup, o.compression, fixed);
              node.Reg? && b in fs && fs[b].File? && Decode(o.compression, fs[b].data) == Some(seen)
  {
    CheckBackup(fs, node, seen, CheckedPath(backup, o.compression, fixed), o, pid, now)
  }

  /** The work of the `backup` command once its operands are known:
      missing source, directory without `-r`, directory walk or single
      file, then the integrity check when the backup succeeded and
      `--verify` is set.  The check compares the backup with `source` as
      it is afterwards, which a backup onto itself has rewritten. */
  function RunBackup(st: State, node: Node, source: Path, dest: Path, o: BackupOptions, env: Env, pid: nat, fixed: bool)
    : (r: (ErrorCode, State))
    ensures node.Dangling? ==> r == (FileNotFound, st)
    ensures node.Folder? && !o.recursive ==> r == (GeneralError, st)
    ensures !o.verify && node.Folder? && o.recursive ==> r == BackupDirectoryRecursive(st, node, source, dest, o, env)
    ensures !o.verify && (node.Reg? || node.Other?) ==> r == BackupFile(st, node, source, dest, o, env)
    ensures r.0 == Success && o.verify ==>
              var b := CheckedPath(dest, o.compression, fixed);
              node.Reg? && (b != TempPath(pid) ==>
                b in r.1.fs && r.1.fs[b].File?
                && Decode(o.compression, r.1.fs[b].data) == Some(SourceAfterBackup(st, node, source, dest, o, env)))
  {
    var (res, st1) :=
      if node.Dangling? then (FileNotFound, st)
      else if node.Folder? then
        if !o.recursive then (GeneralError, st) else BackupDirectoryRecursive(st, node, source, dest, o, env)
      else BackupFile(st, node, source, dest, o, env);
    if res == Success && o.verify then
      var seen := if node.Reg? then SourceAfterBackup(st, node, source, dest, o, env) else [];
      var (v, fs2) := VerifyBackupIntegrity(st1.fs, node, seen, dest, o, pid, env.now, fixed);
      var b := CheckedPath(dest, o.compression, fixed);
      assert fs2 - {TempPath(pid)} == st1.fs - {TempPath(pid)};
      assert b != TempPath(pid) && v == Success ==> b in fs2 && fs2[b] == (fs2 - {TempPath(pid)})[b] == st1.fs[b];
      (v, st1.(fs := fs2))
    else (res, st1)
  }

  /** The `backup` command as written. */
  function MainBackupAsWritten(st: State, node: Node, source: Path, dest: Path, o: BackupOptions, env: Env, pid: nat)
    : (r: (ErrorCode, State))
    ensures r.0 == Success && o.verify && dest + Extension(o.compression) != TempPath(pid) ==>
              var b := dest + Extension(o.compression);
              node.Reg? && b in r.1.fs && r.1.fs[b].File?
              && Decode(o.compression, r.1.fs[b].data) == Some(SourceAfterBackup(st, node, source, dest, o, env))
  {
    RunBackup(st, node, source, dest, o, env, pid, false)
  }

  /** The `backup` command with the integrity check reading `dest` with
      the extension appended only when missing, the name `backup_file`
      gives the file before any conflict. */
  function MainBackup(st: State, node: Node, source: Path, dest: Path, o: BackupOptions, env: Env, pid: nat)
    : (r: (ErrorCode, State))
    ensures r.0 == Success && o.verify && AppendExtension(dest, o.compression) != TempPath(pid) ==>
              var b := AppendExtension(dest, o.compression);
              node.Reg? && b in r.1.fs && r.1.fs[b].File?
              && Decode(o.compression, r.1.fs[b].data) == Some(SourceAfterBackup(st, node, source, dest, o, env))
  {
    RunBackup(st, node, source, dest, o, env, pid, true)
  }

  /** The `restore` command once its operands are known. */
  function MainRestore(st: State, node: Node, source: Path, dest: Path, o: BackupOptions, env: Env): (r: (ErrorCode, State))
    ensures node.Dangling? ==> r == (FileNotFound, st)
    ensures node.Folder? && !o.recursive ==> r == (GeneralError, st)
    ensures node.Folder? && o.recursive ==> r == RestoreDirectoryRecursive(st, node, source, dest, o, env)
    ensures node.Reg? || node.Other? ==> r == RestoreFile(st, node, source, dest, o, env)
    ensures node.Folder? ==> Sound(Restore, st, r.1, dest, o)
    ensures node.Reg? || node.Other? ==> CountedOnce(st.stats, r.1.stats)
  {
    if node.Dangling? then (FileNotFound, st)
    else if node.Folder? then
      if !o.recursive then (GeneralError, st) else RestoreDirectoryRecursive(st, node, source, dest, o, env)
    else RestoreFile(st, node, source, dest, o, env)
  }

  /** The operands `backup` uses: the first two after the options. */
  function BackupOperands(operands: seq<string>): (r: Option<(Path, Path)>)
    ensures r.None? <==> |operands| < 2
    ensures r.Some? ==> r.value == (operands[0], operands[1])
  {
    if |operands| < 2 then None else Some((operands[0], operands[1]))
  }

  /** The operands `restore` uses: the last two arguments. */
  function RestoreOperands(operands: seq<string>): (r: Option<(Path, Path)>)
    ensures r.None? <==> |operands| < 2
    ensures r.Some? ==> r.value == (operands[|operands| - 2], operands[|operands| - 1])
  {
    if |operands| < 2 then None else Some((operands[|operands| - 2], operands[|operands| - 1]))
  }

  /** With more than two operands the commands disagree on which to use. */
  lemma OperandsDisagree(a: string, b: string, c: string)
    requires a != c
    ensures BackupOperands([a, b, c]) != RestoreOperands([a, b, c])
  {
  }

  /** `detect_file_changes`: the code, and whether the file needs a
      backup.  The backup copy is looked up under the source's last path
      component. */
  function DetectFileChanges(fs: FS, sourcePath: Path, backupPath: Path, mode: BackupMode): (r: (ErrorCode, bool))
    ensures !Exists(fs, sourcePath) ==> r == (FileNotFound, true)
    ensures r.0 == Success || r.0 == FileNotFound
    ensures !r.1 <==> Exists(fs, sourcePath) && mode != Full
                      && var b := Join(backupPath, AfterLastSlash(sourcePath));
                         Exists(fs, b) && Stat(fs, sourcePath).value.mtime <= Stat(fs, b).value.mtime
  {
    match Stat(fs, sourcePath)
    case None => (FileNotFound, true)
    case Some(s) =>
      match Stat(fs, Join(backupPath, AfterLastSlash(sourcePath)))
      case None => (Success, true)
      case Some(b) =>
        if mode == Full then (Success, true) else (Success, s.mtime > b.mtime)
  }

  /** For an incremental or differential run, a source file whose copy
      exists needs a backup exactly when `has_file_changed` says it
      changed since that copy's time. */
  lemma DetectMatchesHasFileChanged(fs: FS, dir: Path, name: string, backupDir: Path, mode: BackupMode)
    requires IsName(name) && mode != Full
    requires Exists(fs, Join(dir, name)) && Exists(fs, Join(backupDir, name))
    ensures DetectFileChanges(fs, Join(dir, name), backupDir, mode).1
            == FileUtils.HasFileChanged(fs, Join(dir, name), Stat(fs, Join(backupDir, name)).value.mtime)
  {
    AfterLastSlashOfJoin(dir, name);
  }

  /** A regular file with no fault, not excluded, whose target is free
      and writable, is written to that target as its encoding (of nothing,
      when the target is the file itself). */
  lemma BackupFileWrites(st: State, data: Bytes, m: int, source: Path, dest: Path, o: BackupOptions, env: Env)
    requires env.included(source) && !o.dryRun && o.compression != Lz4
    requires !Exists(st.fs, AppendExtension(dest, o.compression))
    requires Writable(st.fs, AppendExtension(dest, o.compression))
    ensures var r := BackupFile(st, Reg(Source(data, m, NoFault)), source, dest, o, env);
            var b := AppendExtension(dest, o.compression);
            r.0 == Success && b in r.1.fs && r.1.fs[b].File?
            && r.1.fs[b].data == Encode(o.compression, if source == b then [] else data)
            && r.1.fs - {b} == st.fs - {b} && KeepsDirs(st.fs, r.1.fs)
  {
    var b := AppendExtension(dest, o.compression);
    assert BackupTarget(st.fs, dest, o, env) == Proceed(b);
  }

  /** A backup file with no fault, restored to a free writable path, is
      written there decoded (as nothing, when the path is the file
      itself). */
  lemma RestoreFileWrites(st: State, data: Bytes, m: int, source: Path, dest: Path, o: BackupOptions, env: Env)
    requires !o.dryRun && !Exists(st.fs, dest) && Writable(st.fs, dest)
    requires Decode(DetectKind(source), data).Some?
    ensures var r := RestoreFile(st, Reg(Source(data, m, NoFault)), source, dest, o, env);
            r.0 == Success && dest in r.1.fs && r.1.fs[dest].File?
            && r.1.fs[dest].data == Decode(DetectKind(source), if source == dest then [] else data).value
  {
    assert RestoreTarget(st.fs, dest, o, env) == Proceed(dest);
  }

  /** Backing a file up with gzip or zlib to another path and restoring
      the backup gives the original bytes back. */
  lemma BackupRestoreRoundTrip(st: State, data: Bytes, m: int, source: Path, dest: Path, o: BackupOptions, env: Env,
                               m2: int, out: Path, o2: BackupOptions, env2: Env)
    requires o.compression == Gzip || o.compression == Zlib
    requires source != AppendExtension(dest, o.compression)
    requires env.included(source) && !o.dryRun && !o2.dryRun
    requires !Exists(st.fs, AppendExtension(dest, o.compression))
    requires Writable(st.fs, AppendExtension(dest, o.compression))
    requires var st1 := BackupFile(st, Reg(Source(data, m, NoFault)), source, dest, o, env).1;
             !Exists(st1.fs, out) && Writable(st1.fs, out)
    ensures var st1 := BackupFile(st, Reg(Source(data, m, NoFault)), source, dest, o, env).1;
            var b := AppendExtension(dest, o.compression);
            b in st1.fs && st1.fs[b].File? &&
            var r := RestoreFile(st1, Reg(Source(st1.fs[b].data, m2, NoFault)), b, out, o2, env2);
            r.0 == Success && out in r.1.fs && r.1.fs[out].File? && r.1.fs[out].data == data
  {
    var k := o.compression;
    var b := AppendExtension(dest, k);
    BackupFileWrites(st, data, m, source, dest, o, env);
    var st1 := BackupFile(st, Reg(Source(data, m, NoFault)), source, dest, o, env).1;
    DetectKindOfAppended(dest, k);
    DecodeEncode(k, data);
    RestoreFileWrites(st1, st1.fs[b].data, m2, b, out, o2, env2);
  }

  /** With the check reading the file the backup wrote, backing up a
      regular file to a free, writable target other than itself
      verifies. */
  lemma BackupThenVerifySucceeds(st: State, data: Bytes, m: int, source: Path, dest: Path, o: BackupOptions,
                                 env: Env, pid: nat)
    requires o.verify && !o.dryRun && o.compression != Lz4 && env.included(source)
    requires source != AppendExtension(dest, o.compression)
    requires !Exists(st.fs, AppendExtension(dest, o.compression))
    requires Writable(st.fs, AppendExtension(dest, o.compression))
    requires IsDir(st.fs, "/tmp") && !IsDir(st.fs, TempPath(pid)) && AppendExtension(dest, o.compression) != TempPath(pid)
    ensures MainBackup(st, Reg(Source(data, m, NoFault)), source, dest, o, env, pid).0 == Success
  {
    var k := o.compression;
    var b := AppendExtension(dest, k);
    var node := Reg(Source(data, m, NoFault));
    BackupFileWrites(st, data, m, source, dest, o, env);
    var st1 := BackupFile(st, node, source, dest, o, env).1;
    DecodeEncode(k, data);
    assert "/tmp" != b;
    assert IsDir(st1.fs, "/tmp");
    assert !IsDir(st1.fs, TempPath(pid)) by {
      if TempPath(pid) in st.fs {
        assert st1.fs[TempPath(pid)] == (st1.fs - {b})[TempPath(pid)] == st.fs[TempPath(pid)];
      }
    }
    assert SourceAfterBackup(st, node, source, dest, o, env) == data;
    assert CheckBackup(st1.fs, node, data, b, o, pid, env.now).0 == Success;
  }

  /** As written, the check misses the backup whenever the destination
      already ends with the compression extension: the file went to the
      destination itself, the check opens the destination plus a second
      extension, finds nothing there, and the command reports a
      compression error although the backup succeeded. */
  lemma VerifyAsWrittenMissesBackup(st: State, data: Bytes, m: int, source: Path, dest: Path, o: BackupOptions,
                                    env: Env, pid: nat)
    requires o.verify && !o.dryRun && env.included(source)
    requires o.compression == Gzip || o.compression == Zlib
    requires EndsWith(dest, Extension(o.compression))
    requires !Exists(st.fs, dest) && Writable(st.fs, dest)
    requires !Exists(st.fs, dest + Extension(o.compression))
    ensures BackupFile(st, Reg(Source(data, m, NoFault)), source, dest, o, env).0 == Success
    ensures MainBackupAsWritten(st, Reg(Source(data, m, NoFault)), source, dest, o, env, pid).0 == CompressionError
  {
    var k := o.compression;
    var node := Reg(Source(data, m, NoFault));
    assert AppendExtension(dest, k) == dest;
    BackupFileWrites(st, data, m, source, dest, o, env);
    var st1 := BackupFile(st, node, source, dest, o, env).1;
    var a := dest + Extension(k);
    assert a != dest;
    assert !Exists(st1.fs, a) by {
      assert a !in st1.fs - {dest};
    }
    assert VerifyBackupIntegrity(st1.fs, node, SourceAfterBackup(st, node, source, dest, o, env), dest, o, pid,
                                 env.now, false).0 == CompressionError;
  }

  /** `backup --conflict=overwrite a a` without compression: the copy
      truncates `a` before reading it, so the command succeeds, with or
      without `--verify`, and leaves `a` empty. */
  lemma SelfBackupEmpties(st: State, data: Bytes, m: int, source: Path, o: BackupOptions, env: Env, pid: nat)
    requires env.included(source) && !o.dryRun && o.compression == NoCompression && o.conflict == Overwrite
    requires Writable(st.fs, source) && source != TempPath(pid)
    ensures var r := MainBackup(st, Reg(Source(data, m, NoFault)), source, source, o, env, pid);
            r.0 == Success && source in r.1.fs && r.1.fs[source].File? && r.1.fs[source].data == []
  {
    var node := Reg(Source(data, m, NoFault));
    CodesRoundTrip(Overwrite);
    assert BackupTarget(st.fs, source, o, env) == Proceed(source);
    var st1 := BackupFile(st, node, source, source, o, env).1;
    assert st1.fs[source].data == [];
    assert SourceAfterBackup(st, node, source, source, o, env) == [];
  }

  /** The facts about the usage example's paths both halves need. */
  lemma ExamplePaths()
    ensures EndsWith("backup.txt.gz", Extension(Gzip))
    ensures DirName("backup.txt.gz") == "." && DirName("backup.txt.gz" + ".gz") == "."
    ensures TempPath(1) != "backup.txt.gz"
  {
    var dest := "backup.txt.gz";
    assert dest[|dest| - 3..] == ".gz";
    DirNameOfPlainName(dest);
    var a := dest + ".gz";
    assert forall i :: 0 <= i < |a| ==> a[i] != '/' by {
      assert forall i :: 0 <= i < |dest| ==> a[i] == dest[i];
    }
    DirNameOfPlainName(a);
  }

  /** The usage example as written: the check looks for the file with the
      extension appended twice and reports a failure. */
  lemma ExampleAsWrittenFails()
    ensures var st := State(map["/tmp" := Dir(0)], NO_STATS);
            var node := Reg(Source([7], 0, NoFault));
            var o := Defaults(ZeroOptions()).(compression := Gzip, verify := true);
            var env := Env(p => true, p => None, 0);
            MainBackupAsWritten(st, node, "data.txt", "backup.txt.gz", o, env, 1).0 == CompressionError
  {
    var st := State(map["/tmp" := Dir(0)], NO_STATS);
    var o := Defaults(ZeroOptions()).(compression := Gzip, verify := true);
    var env := Env(p => true, p => None, 0);
    assert o.verify && !o.dryRun && o.compression == Gzip;
    ExamplePaths();
    VerifyAsWrittenMissesBackup(st, [7], 0, "data.txt", "backup.txt.gz", o, env, 1);
  }

  /** The usage example corrected: the check finds the backup and it
      matches. */
  lemma ExampleCorrectedSucceeds()
    ensures var st := State(map["/tmp" := Dir(0)], NO_STATS);
            var node := Reg(Source([7], 0, NoFault));
            var o := Defaults(ZeroOptions()).(compression := Gzip, verify := true);
            var env := Env(p => true, p => None, 0);
            MainBackup(st, node, "data.txt", "backup.txt.gz", o, env, 1).0 == Success
  {
    var st := State(map["/tmp" := Dir(0)], NO_STATS);
    var o := Defaults(ZeroOptions()).(compression := Gzip, verify := true);
    var env := Env(p => true, p => None, 0);
    assert o.verify && !o.dryRun && o.compression == Gzip;
    ExamplePaths();
    BackupThenVerifySucceeds(st, [7], 0, "data.txt", "backup.txt.gz", o, env, 1);
  }

  /** The usage example's shape, `backup -c gzip --verify <file> backup.txt.gz`:
      the as-written command fails where the corrected one succeeds. */
  lemma VerifyExample()
    ensures var st := State(map["/tmp" := Dir(0)], NO_STATS);
            var node := Reg(Source([7], 0, NoFault));
            var o := Defaults(ZeroOptions()).(compression := Gzip, verify := true);
            var env := Env(p => true, p => None, 0);
            MainBackupAsWritten(st, node, "data.txt", "backup.txt.gz", o, env, 1).0 == CompressionError
            && MainBackup(st, node, "data.txt", "backup.txt.gz", o, env, 1).0 == Success
  {
    ExampleAsWrittenFails();
    ExampleCorrectedSucceeds();
  }
}

=== FILE: compression.dfy ===
/** Compression kinds, their file-name extensions, and the copy/codec
    dispatch of src/compression.c.  The DEFLATE codecs themselves are
    replaced by an injective framing (a two-byte magic header in front
    of the data) that keeps the failure behaviour of the two zlib
    front ends: gzip reads header-less data through unchanged, raw zlib
    rejects it. */
module Compression {
  import opened Base
  import opened Strings
  import opened Paths
  import opened FileSystem
  import FileUtils

  datatype Kind = NoCompression | Gzip | Zlib | Lz4

  /** `get_compression_extension`. */
  function Extension(k: Kind): (r: string)
    ensures r == "" <==> k == NoCompression || k == Lz4
    ensures r != "" ==> r[0] == '.' && forall i :: 1 <= i < |r| ==> r[i] != '.' && r[i] != '/'
  {
    match k
    case Gzip => ".gz"
    case Zlib => ".z"
    case _ => ""
  }

  /** `get_compression_type`: only the text from the last '.' on is
      looked at. */
  function DetectKind(name: string): (r: Kind)
    ensures r != Lz4
  {
    match SuffixFromLast(name, '.')
    case None => NoCompression
    case Some(e) => if e == ".gz" then Gzip else if e == ".z" then Zlib else NoCompression
  }

  /** The extension appended on backup (src/backup.c): only when the
      destination does not already end with it. */
  function AppendExtension(dest: string, k: Kind): (r: string)
    ensures EndsWith(r, Extension(k))
    ensures r == dest || r == dest + Extension(k)
    ensures EndsWith(dest, Extension(k)) ==> r == dest
  {
    if k != NoCompression && !EndsWith(dest, Extension(k)) then dest + Extension(k) else dest
  }

  /** The extension removed on restore (src/restore.c): the detected
      extension, and only from a name strictly longer than it. */
  function StripExtension(name: string): (r: string)
    ensures r == name || (|r| > 0 && name == r + Extension(DetectKind(name)) && DetectKind(name) != NoCompression)
  {
    var k := DetectKind(name);
    if k != NoCompression then
      var ext := Extension(k);
      if |name| > |ext| && EndsWith(name, ext) then name[..|name| - |ext|] else name
    else name
  }

  /** For a '.'-led extension with no further '.', the text from the last
      '.' is that extension exactly when the string ends with it. */
  lemma SuffixFromLastIsExtension(s: string, e: string)
    requires |e| > 0 && e[0] == '.' && forall i :: 1 <= i < |e| ==> e[i] != '.'
    ensures SuffixFromLast(s, '.') == Some(e) <==> EndsWith(s, e)
  {
    if EndsWith(s, e) {
      var i := |s| - |e|;
      assert s[i] == e[0];
      assert forall j :: i < j < |s| ==> s[j] == e[j - i];
      var last := LastIndexOf(s, '.');
      assert last.Some?;
      assert last.value == i;
    }
  }

  /** `get_compression_type` answers GZIP exactly for names ending in
      ".gz". */
  lemma DetectGzipIff(name: string)
    ensures DetectKind(name) == Gzip <==> EndsWith(name, ".gz")
  {
    SuffixFromLastIsExtension(name, ".gz");
  }

  /** ... and ZLIB exactly for names ending in ".z". */
  lemma DetectZlibIff(name: string)
    ensures DetectKind(name) == Zlib <==> EndsWith(name, ".z")
  {
    SuffixFromLastIsExtension(name, ".z");
  }

  /** The extension of a codec kind names that kind again. */
  lemma DetectKindOfExtension(s: string, k: Kind)
    requires k == Gzip || k == Zlib
    ensures DetectKind(s + Extension(k)) == k
  {
    var t := s + Extension(k);
    assert t[|t| - |Extension(k)|..] == Extension(k);
    DetectGzipIff(t);
    DetectZlibIff(t);
  }

  /** Appending twice is appending once. */
  lemma AppendExtensionIdempotent(dest: string, k: Kind)
    ensures AppendExtension(AppendExtension(dest, k), k) == AppendExtension(dest, k)
  {
  }

  /** The name a compressed backup is stored under is detected as that
      kind. */
  lemma DetectKindOfAppended(dest: string, k: Kind)
    requires k == Gzip || k == Zlib
    ensures DetectKind(AppendExtension(dest, k)) == k
  {
    var r := AppendExtension(dest, k);
    if r == dest {
      assert r == r[..|r| - |Extension(k)|] + Extension(k);
      DetectKindOfExtension(r[..|r| - |Extension(k)|], k);
    } else {
      DetectKindOfExtension(dest, k);
    }
  }

  /** Stripping undoes appending a codec extension to a non-empty name. */
  lemma StripOfExtension(s: string, k: Kind)
    requires k == Gzip || k == Zlib
    requires |s| > 0
    ensures StripExtension(s + Extension(k)) == s
  {
    DetectKindOfExtension(s, k);
    var t := s + Extension(k);
    assert t[..|t| - |Extension(k)|] == s;
  }

  /** A name with no recognised extension is kept. */
  lemma StripOfPlainName(name: string)
    requires !EndsWith(name, ".gz") && !EndsWith(name, ".z")
    ensures StripExtension(name) == name
  {
    DetectGzipIff(name);
    DetectZlibIff(name);
  }

  /** A name that is nothing but a codec's extension is recognised as
      that codec, yet too short to strip: it comes back whole. */
  lemma StripOfBareExtension(k: Kind)
    requires Extension(k) != ""
    ensures DetectKind(Extension(k)) == k
    ensures StripExtension(Extension(k)) == Extension(k)
  {
    if k == Gzip {
      DetectGzipIff(".gz");
    } else {
      DetectZlibIff(".z");
    }
  }

  /** The backup-side naming and the restore-side stripping are inverse
      for a name that does not already carry the extension; a name that
      does loses it on the way back. */
  lemma NameRoundTrip(s: string, k: Kind)
    requires k == Gzip || k == Zlib
    requires |s| > 0
    ensures !EndsWith(s, Extension(k)) ==> StripExtension(AppendExtension(s, k)) == s
    ensures EndsWith(s, Extension(k)) && |s| > |Extension(k)| ==>
              StripExtension(AppendExtension(s, k)) == s[..|s| - |Extension(k)|]
  {
    if !EndsWith(s, Extension(k)) {
      StripOfExtension(s, k);
    } else if |s| > |Extension(k)| {
      var b := s[..|s| - |Extension(k)|];
      assert s == b + Extension(k);
      StripOfExtension(b, k);
    }
  }

  // The codec stand-in.

  const GZIP_MAGIC: Bytes := [0x1f, 0x8b]
  const ZLIB_HEADER: Bytes := [0x78, 0xda]

  function Header(k: Kind): (r: Bytes)
    ensures |r| == 2 || r == []
  {
    match k
    case Gzip => GZIP_MAGIC
    case Zlib => ZLIB_HEADER
    case _ => []
  }

  /** What a compressor writes for `data`. */
  function Encode(k: Kind, data: Bytes): (r: Bytes)
    ensures |r| == |data| + |Header(k)|
  {
    Header(k) + data
  }

  /** What a decompressor produces from `e`, or None for a stream it
      rejects.  `gzread` passes a stream without the gzip magic through
      unchanged; raw `inflate` rejects one without its header, except an
      empty input, on which the loop stops before inflating. */
  function Decode(k: Kind, e: Bytes): (r: Option<Bytes>)
    ensures k != Zlib ==> r.Some?
    ensures k == Zlib && e == [] ==> r == Some([])
  {
    match k
    case Gzip => if |e| >= 2 && e[..2] == GZIP_MAGIC then Some(e[2..]) else Some(e)
    case Zlib =>
      if |e| == 0 then Some([])
      else if |e| >= 2 && e[..2] == ZLIB_HEADER then Some(e[2..])
      else None
    case _ => Some(e)
  }

  lemma DecodeEncode(k: Kind, data: Bytes)
    ensures Decode(k, Encode(k, data)) == Some(data)
  {
    var e := Encode(k, data);
    if k == Gzip || k == Zlib {
      assert e[..2] == Header(k);
      assert e[2..] == data;
    } else {
      assert e == data;
    }
  }

  /** The code a failed transfer reports; `codecCode` is what the codec
      in use reports for its own failure. */
  function TransferCode(t: Transferred, codecCode: ErrorCode): (r: ErrorCode)
    ensures r == Success <==> t == Done
    ensures codecCode in {FileReadError, FileWriteError, CompressionError} ==>
              r in {Success, FileOpenError, FileReadError, FileWriteError, CompressionError}
  {
    match t
    case Done => Success
    case SrcOpenFailed => FileOpenError
    case DstOpenFailed => FileOpenError
    case WriteFailed => FileWriteError
    case ReadFailed => FileReadError
    case CodecFailed => if codecCode == Success then GeneralError else codecCode
  }

  /** `copy_file_simple`; None stands for a null pointer. */
  function CopyFileSimple(src: Option<Source>, dest: Option<Path>, fs: FS, now: int): (r: (ErrorCode, FS))
    ensures src.None? || dest.None? ==> r == (InvalidParams, fs)
    ensures src.Some? && src.value.fault == SrcOpenFails && dest.Some? ==> r == (FileOpenError, fs)
    ensures r.0 == FileOpenError ==> r.1 == fs
    ensures r.0 == Success ==> src.Some? && dest.Some? && r.1 == fs[dest.value := File(src.value.data, now)]
    ensures r.0 == Success <==> src.Some? && dest.Some? && Writable(fs, dest.value)
                                && Harmless(src.value.fault, |src.value.data|, false)
    ensures r.0 == FileWriteError || r.0 == FileReadError ==> dest.Some? && r.1 == fs - {dest.value}
    ensures r.0 in {Success, InvalidParams, FileOpenError, FileWriteError, FileReadError}
    ensures dest.Some? ==> r.1 - {dest.value} == fs - {dest.value}
    ensures r.1 != fs ==> dest.Some? && Writable(fs, dest.value)
  {
    if src.None? || dest.None? then (InvalidParams, fs)
    else
      var (t, fs') := Transfer(src.value, src.value.data, false, dest.value, fs, now, RemoveOnFailure);
      (TransferCode(t, GeneralError), fs')
  }

  /** `compress_file`: NONE copies, GZIP and ZLIB encode, any other kind
      is refused before a file is touched.  A failure never leaves a
      destination behind. */
  function CompressFile(src: Source, dest: Path, k: Kind, fs: FS, now: int): (r: (ErrorCode, FS))
    ensures k == Lz4 ==> r == (CompressionError, fs)
    ensures k == NoCompression ==> r == CopyFileSimple(Some(src), Some(dest), fs, now)
    ensures r.0 == Success ==> r.1 == fs[dest := File(Encode(k, src.data), now)]
    ensures r.0 == Success <==> k != Lz4 && Writable(fs, dest) && Harmless(src.fault, |Encode(k, src.data)|, k != NoCompression)
    ensures r.0 != Success ==> r.1 == fs || r.1 == fs - {dest}
    ensures r.1 - {dest} == fs - {dest}
    ensures r.1 != fs ==> Writable(fs, dest)
    ensures r.0 in {Success, FileOpenError, FileReadError, FileWriteError, CompressionError}
  {
    match k
    case NoCompression =>
      assert Encode(k, src.data) == src.data;
      CopyFileSimple(Some(src), Some(dest), fs, now)
    case Lz4 => (CompressionError, fs)
    case _ =>
      var (t, fs') := Transfer(src, Encode(k, src.data), true, dest, fs, now, RemoveOnFailure);
      // gzip's codec failure surfaces at gzclose as a write error
      (TransferCode(t, if k == Gzip then FileWriteError else CompressionError), fs')
  }

  /** `decompress_file`.  A stream the codec rejects is found only after
      both files are open, so it costs the destination. */
  function DecompressFile(src: Source, dest: Path, k: Kind, fs: FS, now: int): (r: (ErrorCode, FS))
    ensures k == Lz4 ==> r == (CompressionError, fs)
    ensures k == NoCompression ==> r == CopyFileSimple(Some(src), Some(dest), fs, now)
    ensures r.0 == Success ==> Decode(k, src.data).Some? && r.1 == fs[dest := File(Decode(k, src.data).value, now)]
    ensures k == Zlib && Decode(k, src.data).None? ==> r.0 != Success
    ensures src.fault == SrcOpenFails ==> r.0 != Success
    ensures r.0 != Success ==> r.1 == fs || r.1 == fs - {dest}
    ensures r.1 - {dest} == fs - {dest}
    ensures r.1 != fs ==> Writable(fs, dest)
    ensures r.0 in {Success, FileOpenError, FileReadError, FileWriteError, CompressionError}
  {
    match k
    case NoCompression => CopyFileSimple(Some(src), Some(dest), fs, now)
    case Lz4 => (CompressionError, fs)
    case _ =>
      // gzread reports its failures as read errors, inflate as data errors
      var codecCode := if k == Gzip then FileReadError else CompressionError;
      match Decode(k, src.data)
      case None =>
        var f := if src.fault == SrcOpenFails || src.fault == DstOpenFails || src.fault.ReadFails? then src.fault
                 else CodecFails;
        var (t, fs') := Transfer(src.(fault := f), [], true, dest, fs, now, RemoveOnFailure);
        (TransferCode(t, codecCode), fs')
      case Some(d) =>
        var (t, fs') := Transfer(src, d, true, dest, fs, now, RemoveOnFailure);
        (TransferCode(t, codecCode), fs')
  }

  /** Compressing a source and decompressing the result gives the source
      bytes back. */
  lemma CompressDecompressRoundTrip(src: Source, dest: Path, out: Path, k: Kind, fs: FS, now: int, later: int)
    requires k != Lz4
    requires CompressFile(src, dest, k, fs, now).0 == Success
    requires Writable(CompressFile(src, dest, k, fs, now).1, out)
    ensures var fs1 := CompressFile(src, dest, k, fs, now).1;
            var r := DecompressFile(Source(fs1[dest].data, now, NoFault), out, k, fs1, later);
            r.0 == Success && r.1[out] == File(src.data, later)
  {
    DecodeEncode(k, src.data);
  }

  /** `size_t file_size = get_file_size(path)`: the -1 of a failed stat
      wraps to the largest 64-bit value. */
  function ToSizeT(n: int): (r: nat)
    requires -0x1_0000_0000_0000_0000 <= n < 0x1_0000_0000_0000_0000
    ensures r < 0x1_0000_0000_0000_0000
    ensures n >= 0 ==> r == n
  {
    if n < 0 then n + 0x1_0000_0000_0000_0000 else n
  }

  function LevelForSize(size: nat): int {
    if size < 1024 then 1 else if size < 1024 * 1024 then 6 else 9
  }

  /** `get_optimal_compression_level`: the extension test after the
      size ladder is never reached. */
  function OptimalLevel(fs: FS, path: Path): (r: int)
    requires forall p :: p in fs && fs[p].File? ==> |fs[p].data| < 0x8000_0000_0000_0000
    ensures r == 1 || r == 6 || r == 9
    ensures !Exists(fs, path) ==> r == 9
    ensures IsFile(fs, path) ==>
              var size := |Stat(fs, path).value.data|;
              r == (if size < 1024 then 1 else if size < 1048576 then 6 else 9)
    ensures IsDir(fs, path) ==> r == 6
  {
    var n := FileUtils.GetFileSize(fs, path);
    LevelForSize(ToSizeT(n))
  }

  /** Larger files never get a lower level. */
  lemma LevelMonotone(a: nat, b: nat)
    requires a <= b
    ensures LevelForSize(a) <= LevelForSize(b)
  {
  }
}

=== FILE: conflict.dfy ===
/** What happens when a destination already exists: the per-mode answer
    of the two `handle_file_conflict` functions, which use opposite
    return conventions and opposite enum orderings, and the bounded
    search for a free `dest.N` name. */
module Conflict {
  import opened Base
  import opened Strings
  import opened Paths
  import opened FileSystem

  datatype Mode = Ask | Overwrite | Skip | Rename

  /** `conflict_mode_t` numbering of src/backup.h. */
  function BackupCode(m: Mode): (r: int)
    ensures 0 <= r < 4
  {
    match m
    case Ask => 0
    case Overwrite => 1
    case Skip => 2
    case Rename => 3
  }

  function ModeOfBackupCode(c: int): (r: Option<Mode>)
    ensures r.Some? <==> 0 <= c < 4
    ensures r.Some? ==> BackupCode(r.value) == c
  {
    if c == 0 then Some(Ask)
    else if c == 1 then Some(Overwrite)
    else if c == 2 then Some(Skip)
    else if c == 3 then Some(Rename)
    else None
  }

  /** `ConflictResolution` numbering of restore_ops.h. */
  function RestoreOpsCode(m: Mode): (r: int)
    ensures 0 <= r < 4
  {
    match m
    case Overwrite => 0
    case Skip => 1
    case Rename => 2
    case Ask => 3
  }

  function ModeOfRestoreOpsCode(c: int): (r: Option<Mode>)
    ensures r.Some? <==> 0 <= c < 4
    ensures r.Some? ==> RestoreOpsCode(r.value) == c
  {
    if c == 0 then Some(Overwrite)
    else if c == 1 then Some(Skip)
    else if c == 2 then Some(Rename)
    else if c == 3 then Some(Ask)
    else None
  }

  lemma CodesRoundTrip(m: Mode)
    ensures ModeOfBackupCode(BackupCode(m)) == Some(m)
    ensures ModeOfRestoreOpsCode(RestoreOpsCode(m)) == Some(m)
  {
  }

  /** No mode has the same number under the two orderings. */
  lemma OrderingsDisagree(m: Mode)
    ensures BackupCode(m) != RestoreOpsCode(m)
  {
  }

  predicate IsYes(c: char) {
    c == 'y' || c == 'Y'
  }

  /** `handle_file_conflict` of src/main.c: 1 to go ahead, 0 to skip.
      `answer` is the character `scanf(" %c")` reads, None when it reads
      nothing. */
  function HandleConflictMain(code: int, answer: Option<char>): (r: int)
    ensures r == 0 || r == 1
    ensures ModeOfBackupCode(code) == Some(Skip) ==> r == 0
    ensures ModeOfBackupCode(code) == Some(Overwrite) || ModeOfBackupCode(code) == Some(Rename) ==> r == 1
    ensures ModeOfBackupCode(code) == Some(Ask) ==> (r == 1 <==> answer.Some? && IsYes(answer.value))
    ensures ModeOfBackupCode(code).None? ==> r == 0
  {
    if code == BackupCode(Overwrite) then 1
    else if code == BackupCode(Skip) then 0
    else if code == BackupCode(Rename) then 1
    else if code == BackupCode(Ask) then
      match answer
      case Some(c) => if IsYes(c) then 1 else 0
      case None => 0
    else 0
  }

  /** `handle_file_conflict` of restore_ops.c and src/restore_ops.c: 0 to go
      ahead, -1 to skip.  The `scanf` result is not checked, so the answer
      is always some character.  The second file has no RENAME case; its
      default answers the same 0. */
  function HandleConflictRestoreOps(code: int, response: char): (r: int)
    ensures r == 0 || r == -1
    ensures ModeOfRestoreOpsCode(code) == Some(Skip) ==> r == -1
    ensures ModeOfRestoreOpsCode(code) == Some(Overwrite) || ModeOfRestoreOpsCode(code) == Some(Rename) ==> r == 0
    ensures ModeOfRestoreOpsCode(code) == Some(Ask) ==> (r == 0 <==> IsYes(response))
    ensures ModeOfRestoreOpsCode(code).None? ==> r == 0
  {
    if code == RestoreOpsCode(Overwrite) then 0
    else if code == RestoreOpsCode(Skip) then -1
    else if code == RestoreOpsCode(Ask) then (if IsYes(response) then 0 else -1)
    else 0
  }

  /** For every mode and every answer, the two conventions agree on the
      decision once each is read in its own encoding. */
  lemma ConventionsAgree(m: Mode, c: char)
    ensures HandleConflictMain(BackupCode(m), Some(c)) == 1 <==> HandleConflictRestoreOps(RestoreOpsCode(m), c) == 0
  {
  }

  /** ... but an out-of-range mode means "skip" to src/main.c and
      "proceed" to the restore_ops files. */
  lemma UnknownModeDisagrees(code: int, c: char)
    requires code < 0 || code >= 4
    ensures HandleConflictMain(code, Some(c)) == 0 && HandleConflictRestoreOps(code, c) == 0
  {
  }

  /** The N-th rename candidate: `snprintf("%s.%d", base, N)` followed by
      the extension. */
  function Candidate(base: Path, n: nat, ext: string): Path {
    base + "." + NatToString(n) + ext
  }

  const RENAME_LIMIT: nat := 1000

  /** The counter the rename loop settles on, searching from `n`: the
      first candidate that does not exist, or 999 when every candidate up
      to it does. */
  function RenameIndex(fs: FS, base: Path, ext: string, n: nat): (r: nat)
    requires 1 <= n < RENAME_LIMIT
    ensures n <= r < RENAME_LIMIT
    ensures forall m :: n <= m < r ==> Exists(fs, Candidate(base, m, ext))
    ensures r < RENAME_LIMIT - 1 ==> !Exists(fs, Candidate(base, r, ext))
    decreases RENAME_LIMIT - n
  {
    if n == RENAME_LIMIT - 1 || !Exists(fs, Candidate(base, n, ext)) then n
    else RenameIndex(fs, base, ext, n + 1)
  }

  /** The loop of src/backup.c (with `ext` the compression extension) and
      src/restore.c (with `ext` empty), entered when `start` exists. */
  method RenameLoop(fs: FS, start: Path, base: Path, ext: string) returns (finalDest: Path)
    requires Exists(fs, start)
    ensures finalDest == Candidate(base, RenameIndex(fs, base, ext, 1), ext)
  {
    finalDest := start;
    var counter := 1;
    while Exists(fs, finalDest) && counter < RENAME_LIMIT
      invariant 1 <= counter <= RENAME_LIMIT
      invariant counter == 1 ==> finalDest == start
      invariant counter > 1 ==> finalDest == Candidate(base, counter - 1, ext)
      invariant counter > 1 ==> RenameIndex(fs, base, ext, 1) == RenameIndex(fs, base, ext, counter - 1)
      decreases RENAME_LIMIT - counter
    {
      if counter > 1 {
        RenameIndexStep(fs, base, ext, counter - 1);
      }
      finalDest := Candidate(base, counter, ext);
      counter := counter + 1;
    }
  }

  /** An existing candidate below the limit sends the search on to the
      next one. */
  lemma RenameIndexStep(fs: FS, base: Path, ext: string, n: nat)
    requires 1 <= n < RENAME_LIMIT - 1
    requires Exists(fs, Candidate(base, n, ext))
    ensures RenameIndex(fs, base, ext, n) == RenameIndex(fs, base, ext, n + 1)
  {
  }

  /** The candidate chosen is the first free one: no free candidate comes
      before it, and it is free whenever any candidate is. */
  lemma RenameTakesFirstFree(fs: FS, base: Path, ext: string, m: nat)
    requires 1 <= m < RENAME_LIMIT
    requires !Exists(fs, Candidate(base, m, ext))
    ensures RenameIndex(fs, base, ext, 1) <= m
    ensures !Exists(fs, Candidate(base, RenameIndex(fs, base, ext, 1), ext))
  {
    var r := RenameIndex(fs, base, ext, 1);
    assert m < r ==> Exists(fs, Candidate(base, m, ext));
    assert r == RENAME_LIMIT - 1 ==> r == m;
  }
}

=== FILE: engine.dfy ===
/** The per-file steps of the main program (src/backup.c and
    src/restore.c): the tree being read, the run statistics, the
    conflict decision, `backup_file` and `restore_file`.

    The tree being read is an immutable snapshot (`Node`); the tree being
    written is the file system map.  The two never overlap here. */
module Engine {
  import opened Base
  import opened Paths
  import opened FileSystem
  import opened Compression
  import opened Conflict
  import opened Cli

  /** An entry of the tree being read, as `stat` and `readdir` see it:
      a regular file, a directory (which `opendir` may refuse), another
      kind of file, or a name whose `stat` fails. */
  datatype Node =
    | Reg(src: Source)
    | Folder(readable: bool, mtime: int, children: seq<Child>)
    | Other(mtime: int)
    | Dangling

  /** A directory entry other than "." and "..". */
  datatype Child = Child(name: string, node: Node)

  /** `st_size`. */
  function NodeSize(n: Node): nat {
    match n
    case Reg(s) => |s.data|
    case Folder(_, _, _) => DIR_SIZE
    case Other(_) => 0
    case Dangling => 0
  }

  /** `st_mtime`. */
  function NodeMtime(n: Node): int {
    match n
    case Reg(s) => s.mtime
    case Folder(_, m, _) => m
    case Other(m) => m
    case Dangling => 0
  }

  /** What `fopen` and `fread` make of a node: a directory opens but
      cannot be read; a missing node cannot be opened, and neither, in
      this model, can a special file (a simplification of what a device
      or a FIFO does). */
  function ReadSource(n: Node): (r: Source)
    ensures n.Reg? ==> r == n.src
    ensures !n.Reg? ==> r.data == [] && r.fault in {SrcOpenFails, ReadFails(0)}
  {
    match n
    case Reg(s) => s
    case Folder(_, m, _) => Source([], m, ReadFails(0))
    case Other(m) => Source([], m, SrcOpenFails)
    case Dangling => Source([], 0, SrcOpenFails)
  }

  /** What a copy from `source` reads once `target` is open for writing:
      when the two are one path, opening the target ("wb") has truncated
      the file before the first read. */
  function ReadAt(n: Node, source: Path, target: Path): (r: Source)
    ensures r.fault == ReadSource(n).fault && r.mtime == ReadSource(n).mtime
    ensures n.Reg? ==> r.data == Payload(n, source, target)
    ensures !n.Reg? ==> r.data == []
  {
    var s := ReadSource(n);
    if source == target then s.(data := []) else s
  }

  /** The bytes a regular file yields to a copy onto `target`: its own,
      or none when it is copied onto itself. */
  function Payload(n: Node, source: Path, target: Path): Bytes
    requires n.Reg?
  {
    if source == target then [] else n.src.data
  }

  /** `backup_stats_t` without the times and the ratio.  The counters are
      C `long`s; here they do not overflow. */
  datatype Stats = Stats(
    filesProcessed: nat,
    filesSkipped: nat,
    filesFailed: nat,
    dirsProcessed: nat,
    bytesProcessed: nat,
    bytesCompressed: nat)

  /** `memset(&g_stats, 0, ...)`. */
  const NO_STATS := Stats(0, 0, 0, 0, 0, 0)

  /** What the engines change: the file system and the global counters. */
  datatype State = State(fs: FS, stats: Stats)

  /** What the engines consult but do not decide: `should_include_file`
      (declared in src/backup.h, defined in no file of this model), the
      operator's answer to a conflict prompt about a path (None when
      reading it fails), and the clock. */
  datatype Env = Env(included: Path -> bool, answer: Path -> Option<char>, now: int)

  /** No counter goes down. */
  predicate Grows(a: Stats, b: Stats) {
    a.filesProcessed <= b.filesProcessed && a.filesSkipped <= b.filesSkipped
    && a.filesFailed <= b.filesFailed && a.dirsProcessed <= b.dirsProcessed
    && a.bytesProcessed <= b.bytesProcessed && a.bytesCompressed <= b.bytesCompressed
  }

  /** Exactly one of the three per-file counters went up, by one, and no
      directory was counted. */
  predicate CountedOnce(a: Stats, b: Stats) {
    Grows(a, b) && b.dirsProcessed == a.dirsProcessed
    && b.filesProcessed + b.filesSkipped + b.filesFailed
       == a.filesProcessed + a.filesSkipped + a.filesFailed + 1
  }

  /** The outcome of the conflict step: write to `target`, or count the
      file as skipped. */
  datatype Decision = Proceed(target: Path) | Decline

  /** The conflict step of `backup_file` and `restore_file` for the path
      `dest` about to be written; `base` and `ext` build the rename
      candidates. */
  function Resolve(fs: FS, dest: Path, base: Path, ext: string, mode: Mode, answer: Option<char>): (r: Decision)
    ensures !Exists(fs, dest) ==> r == Proceed(dest)
    ensures r.Decline? <==> Exists(fs, dest) && (mode == Skip || (mode == Ask && !(answer.Some? && IsYes(answer.value))))
    ensures r.Proceed? && mode != Rename ==> r.target == dest
    ensures r.Proceed? && mode == Rename && Exists(fs, dest) ==> r.target == Candidate(base, RenameIndex(fs, base, ext, 1), ext)
  {
    CodesRoundTrip(mode);
    if !Exists(fs, dest) then Proceed(dest)
    else match mode
      case Skip => Decline
      case Rename => Proceed(Candidate(base, RenameIndex(fs, base, ext, 1), ext))
      case _ => if HandleConflictMain(BackupCode(mode), answer) == 0 then Decline else Proceed(dest)
  }

  /** The path `backup_file` writes before any conflict: `dest` with the
      compression extension unless it already ends with it. */
  function BackupTarget(fs: FS, dest: Path, o: BackupOptions, env: Env): Decision {
    var final := AppendExtension(dest, o.compression);
    Resolve(fs, final, dest, Extension(o.compression), o.conflict, env.answer(final))
  }

  /** The path `restore_file` writes: renames carry no extension. */
  function RestoreTarget(fs: FS, dest: Path, o: BackupOptions, env: Env): Decision {
    Resolve(fs, dest, dest, "", o.conflict, env.answer(dest))
  }

  /** `copy_file_metadata` when either preserve option is set. */
  function KeepMetadata(fs: FS, target: Path, node: Node, o: BackupOptions): (r: FS)
    ensures r.Keys == fs.Keys && r - {target} == fs - {target}
    ensures target in fs && fs[target].File? ==> r[target].File? && r[target].data == fs[target].data
    ensures !(o.preservePermissions || o.preserveTimestamps) ==> r == fs
  {
    if o.preservePermissions || o.preserveTimestamps then SetMtime(fs, target, NodeMtime(node)) else fs
  }

  /** `st_size` of a path, or 0 when `stat` fails. */
  function SizeAt(fs: FS, p: Path): nat {
    match Stat(fs, p)
    case Some(e) => Size(e)
    case None => 0
  }

  /** The copy or codec step of `backup_file` once `target` is chosen,
      then the metadata and the counters. */
  function BackupWrite(st: State, node: Node, source: Path, target: Path, o: BackupOptions, env: Env)
    : (r: (ErrorCode, State))
    requires !node.Dangling?
    ensures r.0 in {Success, FileOpenError, FileReadError, FileWriteError, CompressionError}
    ensures CountedOnce(st.stats, r.1.stats) && r.1.stats.filesSkipped == st.stats.filesSkipped
    ensures r.0 != Success <==> r.1.stats.filesFailed > st.stats.filesFailed
    ensures r.1.fs == st.fs || (r.1.fs - {target} == st.fs - {target} && Writable(st.fs, target))
    ensures KeepsDirs(st.fs, r.1.fs)
    ensures r.0 == Success ==>
              node.Reg? && r.1.stats.bytesProcessed == st.stats.bytesProcessed + NodeSize(node)
              && target in r.1.fs && r.1.fs[target].File?
              && r.1.fs[target].data == Encode(o.compression, Payload(node, source, target))
              && (source != target ==>
                    r.1.stats.bytesCompressed == st.stats.bytesCompressed + |Encode(o.compression, node.src.data)|)
              && (o.compression == NoCompression ==>
                    r.1.stats.bytesCompressed == st.stats.bytesCompressed + |node.src.data|)
  {
    var s := st.stats;
    var k := o.compression;
    var (code, fs1) :=
      if k != NoCompression then CompressFile(ReadAt(node, source, target), target, k, st.fs, env.now)
      else CopyFileSimple(Some(ReadAt(node, source, target)), Some(target), st.fs, env.now);
    if code != Success then (code, State(fs1, s.(filesFailed := s.filesFailed + 1)))
    else
      var fs2 := KeepMetadata(fs1, target, node, o);
      var out := if k != NoCompression then SizeAt(fs2, target) else NodeSize(node);
      (Success, State(fs2, s.(filesProcessed := s.filesProcessed + 1,
                              bytesProcessed := s.bytesProcessed + NodeSize(node),
                              bytesCompressed := s.bytesCompressed + out)))
  }

  /** `backup_file` (src/backup.c) after the conflict step decided `d`:
      count a skip, or the dry run, or write. */
  function BackupDecided(st: State, node: Node, source: Path, d: Decision, o: BackupOptions, env: Env)
    : (r: (ErrorCode, State))
    requires !node.Dangling?
    ensures CountedOnce(st.stats, r.1.stats)
    ensures r.0 != Success <==> r.1.stats.filesFailed > st.stats.filesFailed
    ensures r.0 in {Success, FileOpenError, FileReadError, FileWriteError, CompressionError}
    ensures d.Decline? ==> r.0 == Success && r.1.fs == st.fs && r.1.stats.filesSkipped > st.stats.filesSkipped
    ensures o.dryRun ==> r.1.fs == st.fs
    ensures r.1.fs == st.fs || (d.Proceed? && r.1.fs - {d.target} == st.fs - {d.target} && Writable(st.fs, d.target))
    ensures KeepsDirs(st.fs, r.1.fs)
    ensures d.Decline? || !Exists(st.fs, d.target) ==> Preserves(st.fs, r.1.fs)
    ensures r.1.stats.filesProcessed > st.stats.filesProcessed ==>
              r.0 == Success && r.1.stats.bytesProcessed == st.stats.bytesProcessed + NodeSize(node)
    ensures r.1.stats.filesProcessed > st.stats.filesProcessed && !o.dryRun ==>
              node.Reg? && d.Proceed?
              && d.target in r.1.fs && r.1.fs[d.target].File?
              && r.1.fs[d.target].data == Encode(o.compression, Payload(node, source, d.target))
              && (source != d.target ==>
                    r.1.stats.bytesCompressed == st.stats.bytesCompressed + |Encode(o.compression, node.src.data)|)
              && (o.compression == NoCompression ==>
                    r.1.stats.bytesCompressed == st.stats.bytesCompressed + |node.src.data|)
  {
    var s := st.stats;
    match d
    case Decline => (Success, st.(stats := s.(filesSkipped := s.filesSkipped + 1)))
    case Proceed(target) =>
      if o.dryRun then
        (Success, st.(stats := s.(filesProcessed := s.filesProcessed + 1,
                                  bytesProcessed := s.bytesProcessed + NodeSize(node))))
      else BackupWrite(st, node, source, target, o, env)
  }

  /** `backup_file` (src/backup.c): exclusion, extension, conflict, dry
      run, copy or compress, metadata, counters. */
  function BackupFile(st: State, node: Node, source: Path, dest: Path, o: BackupOptions, env: Env): (r: (ErrorCode, State))
    ensures node.Dangling? ==> r == (FileOpenError, st)
    ensures !node.Dangling? ==> CountedOnce(st.stats, r.1.stats)
    ensures !node.Dangling? ==> (r.0 != Success <==> r.1.stats.filesFailed > st.stats.filesFailed)
    ensures r.0 in {Success, FileOpenError, FileReadError, FileWriteError, CompressionError}
    ensures !node.Dangling? && !env.included(source) ==>
              r.0 == Success && r.1.fs == st.fs && r.1.stats.filesSkipped > st.stats.filesSkipped
    ensures o.dryRun ==> r.1.fs == st.fs
    ensures r.1.fs == st.fs ||
            (BackupTarget(st.fs, dest, o, env).Proceed? && var t := BackupTarget(st.fs, dest, o, env).target;
             r.1.fs - {t} == st.fs - {t} && Writable(st.fs, t))
    ensures KeepsDirs(st.fs, r.1.fs)
    ensures o.conflict == Skip ==> Preserves(st.fs, r.1.fs)
    ensures r.1.stats.filesProcessed > st.stats.filesProcessed ==>
              r.0 == Success && r.1.stats.bytesProcessed == st.stats.bytesProcessed + NodeSize(node)
    ensures r.1.stats.filesProcessed > st.stats.filesProcessed && !o.dryRun ==>
              node.Reg? && BackupTarget(st.fs, dest, o, env).Proceed?
              && var t := BackupTarget(st.fs, dest, o, env).target;
                 t in r.1.fs && r.1.fs[t].File? && r.1.fs[t].data == Encode(o.compression, Payload(node, source, t))
                 && (source != t ==>
                       r.1.stats.bytesCompressed == st.stats.bytesCompressed + |Encode(o.compression, node.src.data)|)
                 && (o.compression == NoCompression ==>
                       r.1.stats.bytesCompressed == st.stats.bytesCompressed + |node.src.data|)
  {
    var s := st.stats;
    if node.Dangling? then (FileOpenError, st)
    else if !env.included(source) then (Success, st.(stats := s.(filesSkipped := s.filesSkipped + 1)))
    else BackupDecided(st, node, source, BackupTarget(st.fs, dest, o, env), o, env)
  }

  /** The copy or decode step of `restore_file` once `target` is chosen,
      then the metadata and the counters. */
  function RestoreWrite(st: State, node: Node, source: Path, target: Path, o: BackupOptions, env: Env)
    : (r: (ErrorCode, State))
    requires !node.Dangling?
    ensures r.0 in {Success, FileOpenError, FileReadError, FileWriteError, CompressionError}
    ensures CountedOnce(st.stats, r.1.stats) && r.1.stats.filesSkipped == st.stats.filesSkipped
    ensures r.0 != Success <==> r.1.stats.filesFailed > st.stats.filesFailed
    ensures r.1.fs == st.fs || (r.1.fs - {target} == st.fs - {target} && Writable(st.fs, target))
    ensures KeepsDirs(st.fs, r.1.fs)
    ensures r.0 == Success ==>
              node.Reg? && r.1.stats.bytesProcessed == st.stats.bytesProcessed + NodeSize(node)
              && Decode(DetectKind(source), Payload(node, source, target)).Some?
              && var d := Decode(DetectKind(source), Payload(node, source, target)).value;
                 target in r.1.fs && r.1.fs[target].File? && r.1.fs[target].data == d
                 && r.1.stats.bytesCompressed == st.stats.bytesCompressed + |d|
  {
    var s := st.stats;
    var k := DetectKind(source);
    var (code, fs1) :=
      if k != NoCompression then DecompressFile(ReadAt(node, source, target), target, k, st.fs, env.now)
      else CopyFileSimple(Some(ReadAt(node, source, target)), Some(target), st.fs, env.now);
    if code != Success then (code, State(fs1, s.(filesFailed := s.filesFailed + 1)))
    else
      var fs2 := KeepMetadata(fs1, target, node, o);
      (Success, State(fs2, s.(filesProcessed := s.filesProcessed + 1,
                              bytesProcessed := s.bytesProcessed + NodeSize(node),
                              bytesCompressed := s.bytesCompressed + SizeAt(fs2, target))))
  }

  /** `restore_file` (src/restore.c) after the conflict step decided `d`. */
  function RestoreDecided(st: State, node: Node, source: Path, d: Decision, o: BackupOptions, env: Env)
    : (r: (ErrorCode, State))
    requires !node.Dangling?
    ensures CountedOnce(st.stats, r.1.stats)
    ensures r.0 != Success <==> r.1.stats.filesFailed > st.stats.filesFailed
    ensures r.0 in {Success, FileOpenError, FileReadError, FileWriteError, CompressionError}
    ensures d.Decline? ==> r.0 == Success && r.1.fs == st.fs && r.1.stats.filesSkipped > st.stats.filesSkipped
    ensures o.dryRun ==> r.1.fs == st.fs
    ensures r.1.fs == st.fs || (d.Proceed? && r.1.fs - {d.target} == st.fs - {d.target} && Writable(st.fs, d.target))
    ensures KeepsDirs(st.fs, r.1.fs)
    ensures d.Decline? || !Exists(st.fs, d.target) ==> Preserves(st.fs, r.1.fs)
    ensures r.1.stats.filesProcessed > st.stats.filesProcessed ==>
              r.0 == Success && r.1.stats.bytesProcessed == st.stats.bytesProcessed + NodeSize(node)
    ensures r.1.stats.filesProcessed > st.stats.filesProcessed && !o.dryRun ==>
              node.Reg? && d.Proceed?
              && Decode(DetectKind(source), Payload(node, source, d.target)).Some?
              && var v := Decode(DetectKind(source), Payload(node, source, d.target)).value;
                 d.target in r.1.fs && r.1.fs[d.target].File? && r.1.fs[d.target].data == v
                 && r.1.stats.bytesCompressed == st.stats.bytesCompressed + |v|
  {
    var s := st.stats;
    match d
    case Decline => (Success, st.(stats := s.(filesSkipped := s.filesSkipped + 1)))
    case Proceed(target) =>
      if o.dryRun then
        (Success, st.(stats := s.(filesProcessed := s.filesProcessed + 1,
                                  bytesProcessed := s.bytesProcessed + NodeSize(node))))
      else RestoreWrite(st, node, source, target, o, env)
  }

  /** `restore_file` (src/restore.c): the codec is chosen from the
      source's name, there is no exclusion, and renames carry no
      extension. */
  function RestoreFile(st: State, node: Node, source: Path, dest: Path, o: BackupOptions, env: Env): (r: (ErrorCode, State))
    ensures node.Dangling? ==> r == (FileOpenError, st)
    ensures !node.Dangling? ==> CountedOnce(st.stats, r.1.stats)
    ensures !node.Dangling? ==> (r.0 != Success <==> r.1.stats.filesFailed > st.stats.filesFailed)
    ensures r.0 in {Success, FileOpenError, FileReadError, FileWriteError, CompressionError}
    ensures o.dryRun ==> r.1.fs == st.fs
    ensures r.1.fs == st.fs ||
            (RestoreTarget(st.fs, dest, o, env).Proceed? && var t := RestoreTarget(st.fs, dest, o, env).target;
             r.1.fs - {t} == st.fs - {t} && Writable(st.fs, t))
    ensures KeepsDirs(st.fs, r.1.fs)
    ensures o.conflict == Skip ==> Preserves(st.fs, r.1.fs)
    ensures r.1.stats.filesProcessed > st.stats.filesProcessed ==>
              r.0 == Success && r.1.stats.bytesProcessed == st.stats.bytesProcessed + NodeSize(node)
    ensures r.1.stats.filesProcessed > st.stats.filesProcessed && !o.dryRun ==>
              node.Reg? && RestoreTarget(st.fs, dest, o, env).Proceed?
              && var t := RestoreTarget(st.fs, dest, o, env).target;
                 Decode(DetectKind(source), Payload(node, source, t)).Some?
                 && var d := Decode(DetectKind(source), Payload(node, source, t)).value;
                 t in r.1.fs && r.1.fs[t].File? && r.1.fs[t].data == d
                 && r.1.stats.bytesCompressed == st.stats.bytesCompressed + |d|
  {
    if node.Dangling? then (FileOpenError, st)
    else RestoreDecided(st, node, source, RestoreTarget(st.fs, dest, o, env), o, env)
  }
}

=== FILE: file_utils.dfy ===
/** The file helpers of file_utils.c and src/file_utils.c.  The two copies
    differ only in logging, in `chown` (the root copy tries it, ownership
    is not modelled) and in how the `dirname` scratch copy is allocated:
    src/file_utils.c checks `malloc` and fails, which `allocFails` stands
    for; the root copy passes false. */
module FileUtils {
  import opened Base
  import opened Paths
  import opened FileSystem

  /** Going up from `p` by `dirname`, every path is a directory in `fs'`
      until one that already was a directory in `fs`, or "." or "/". */
  predicate ChainMade(fs: FS, fs': FS, p: Path)
    decreases |p|
  {
    IsDir(fs', p)
    && (IsDir(fs, p) || var q := DirName(p); q == "." || q == "/" || ChainMade(fs, fs', q))
  }

  /** A chain stays made while entries are kept and only directories are
      added. */
  lemma {:induction false} ChainMadeGrows(fs: FS, a: FS, b: FS, p: Path)
    requires ChainMade(fs, a, p) && Preserves(a, b) && AddsOnlyDirs(a, b)
    ensures ChainMade(fs, b, p)
    decreases |p|
  {
    var q := DirName(p);
    if !IsDir(fs, p) && q != "." && q != "/" {
      ChainMadeGrows(fs, a, b, q);
    }
  }

  /** `create_directory`: succeed at once for an existing directory,
      otherwise create the parent chain first (stopping at "." and "/"),
      then `mkdir` the path itself. */
  function CreateDirectory(fs: FS, path: Path, now: int, allocFails: bool): (r: (int, FS))
    ensures r.0 == 0 || r.0 == -1
    ensures IsDir(fs, path) ==> r == (0, fs)
    ensures r.0 == 0 ==> ChainMade(fs, r.1, path)
    ensures Preserves(fs, r.1) && AddsOnlyDirs(fs, r.1)
    ensures Exists(fs, path) && !IsDir(fs, path) ==> r.0 == -1
    ensures allocFails && !IsDir(fs, path) ==> r == (-1, fs)
    decreases |path|
  {
    if IsDir(fs, path) then (0, fs)
    else if allocFails then (-1, fs)
    else
      var parent := DirName(path);
      var (pr, fs1) := if parent != "." && parent != "/" then CreateDirectory(fs, parent, now, allocFails) else (0, fs);
      if pr != 0 then (-1, fs1)
      else
        var (m, fs2) := Mkdir(fs1, path, now);
        if m == Created then
          assert IsDir(fs2, path);
          if parent != "." && parent != "/" then
            ChainMadeGrows(fs, fs1, fs2, parent);
            (0, fs2)
          else (0, fs2)
        else (-1, fs2)
  }

  /** A successful `create_directory` leaves the path and its parent
      directories. */
  lemma CreateDirectoryMakesParent(fs: FS, path: Path, now: int, allocFails: bool)
    requires CreateDirectory(fs, path, now, allocFails).0 == 0
    ensures var fs' := CreateDirectory(fs, path, now, allocFails).1;
            IsDir(fs', path) && (IsDir(fs, path) || IsDir(fs', DirName(path)))
  {
    var fs' := CreateDirectory(fs, path, now, allocFails).1;
    var q := DirName(path);
    if !IsDir(fs, path) && q != "." && q != "/" {
      assert ChainMade(fs, fs', q);
    }
  }

  /** `copy_file`: open the source, create/truncate the destination,
      copy; a failure after the destination was created leaves whatever
      had been written.  Copying a file onto itself truncates it before
      the first read, so it succeeds with an empty file. */
  function CopyFile(fs: FS, source: Path, destination: Path, fault: Fault, now: int): (r: (int, FS))
    ensures r.0 == 0 || r.0 == -1
    ensures r.1 - {destination} == fs - {destination}
    ensures r.0 == 0 ==> IsFile(fs, source)
                         && r.1 == fs[destination := File(if source == destination then [] else fs[source].data, now)]
    ensures r.0 == 0 <==> IsFile(fs, source) && Writable(fs, destination)
                          && Harmless(fault, |CopyPayload(fs, source, destination)|, false)
    ensures r.0 == -1 && r.1 != fs ==> destination in r.1 && r.1[destination].File?
  {
    var src := OpenForCopy(fs, source, destination, fault);
    var (t, fs') := Transfer(src, src.data, false, destination, fs, now, KeepOnFailure);
    (if t == Done then 0 else -1, fs')
  }

  /** A file copied onto itself ends up empty. */
  lemma SelfCopyEmpties(fs: FS, p: Path, now: int)
    requires IsFile(fs, p) && Writable(fs, p)
    ensures CopyFile(fs, p, p, NoFault, now) == (0, fs[p := File([], now)])
  {
  }

  /** `copy_file_with_metadata`: copy, then give the copy the source's
      modification time as `stat` reports it after the copy.  Permission
      bits and ownership are not modelled, and the outcome of
      `chmod`/`utime`/`chown` is ignored by the source. */
  function CopyFileWithMetadata(fs: FS, source: Path, destination: Path, fault: Fault, now: int): (r: (int, FS))
    ensures r.0 == 0 || r.0 == -1
    ensures r.1 - {destination} == fs - {destination}
    ensures r.0 == 0 ==> IsFile(fs, source) && destination in r.1 && r.1[destination].File?
                         && r.1[destination].data == (if source == destination then [] else fs[source].data)
    ensures r.0 == 0 && source != destination ==> r.1[destination] == File(fs[source].data, fs[source].mtime)
    ensures r.0 == 0 <==> CopyFile(fs, source, destination, fault, now).0 == 0
  {
    var (c, fs1) := CopyFile(fs, source, destination, fault, now);
    if c != 0 then (-1, fs1)
    else match Stat(fs1, source)
      case None => (-1, fs1)
      case Some(e) => (0, SetMtime(fs1, destination, e.mtime))
  }

  /** `compare_file_times`: 1 when the first is newer, -1 when older or
      when either `stat` fails, 0 when equal. */
  function CompareFileTimes(fs: FS, file1: Path, file2: Path): (r: int)
    ensures r == 1 || r == 0 || r == -1
    ensures !Exists(fs, file1) || !Exists(fs, file2) ==> r == -1
    ensures Exists(fs, file1) && Exists(fs, file2) ==>
              (r == 1 <==> Stat(fs, file1).value.mtime > Stat(fs, file2).value.mtime)
              && (r == 0 <==> Stat(fs, file1).value.mtime == Stat(fs, file2).value.mtime)
  {
    match (Stat(fs, file1), Stat(fs, file2))
    case (Some(a), Some(b)) => if a.mtime > b.mtime then 1 else if a.mtime < b.mtime then -1 else 0
    case _ => -1
  }

  /** `get_file_size`: -1 when `stat` fails. */
  function GetFileSize(fs: FS, path: Path): (r: int)
    ensures r == -1 <==> !Exists(fs, path)
    ensures r >= 0 ==> r == Size(Stat(fs, path).value)
  {
    match Stat(fs, path)
    case None => -1
    case Some(e) => Size(e)
  }

  /** `has_file_changed`: a file that cannot be `stat`ed counts as
      changed. */
  function HasFileChanged(fs: FS, filepath: Path, lastBackupTime: int): (r: bool)
    ensures !Exists(fs, filepath) ==> r
    ensures Exists(fs, filepath) ==> (r <==> Stat(fs, filepath).value.mtime > lastBackupTime)
  {
    match Stat(fs, filepath)
    case None => true
    case Some(e) => e.mtime > lastBackupTime
  }

  /** Between two existing files the comparison is antisymmetric. */
  lemma CompareFileTimesAntisymmetric(fs: FS, a: Path, b: Path)
    requires Exists(fs, a) && Exists(fs, b)
    ensures CompareFileTimes(fs, a, b) == -CompareFileTimes(fs, b, a)
  {
  }

  /** For an existing file, "changed since the time of `b`" is exactly
      "newer than `b`". */
  lemma HasFileChangedMatchesCompare(fs: FS, a: Path, b: Path)
    requires Exists(fs, a) && Exists(fs, b)
    ensures HasFileChanged(fs, a, Stat(fs, b).value.mtime) <==> CompareFileTimes(fs, a, b) == 1
  {
  }

  /** A missing file is reported "older" by `compare_file_times` but
      "changed" by `has_file_changed`. */
  lemma MissingFileAmbiguity(fs: FS, a: Path, b: Path, t: int)
    requires !Exists(fs, a) && Exists(fs, b)
    ensures CompareFileTimes(fs, a, b) == -1 && HasFileChanged(fs, a, t)
  {
  }
}

=== FILE: filesystem.dfy ===
/** The abstract file system every operation reads and writes: a map from
    path strings to entries.  "." and "/" are always directories.  Paths
    are compared as written (the kernel's folding of "a//b" into "a/b" is
    not modelled).  Failures the kernel would report for reasons the map
    cannot express (permissions, full disks, device errors) come in
    through a `Fault` carried by each source. */
module FileSystem {
  import opened Base
  import opened Paths

  datatype Entry =
    | File(data: Bytes, mtime: int)
    | Dir(mtime: int)
    | Special(mtime: int)

  /** The `st_size` a directory reports. */
  const DIR_SIZE: nat := 4096

  /** `st_size`. */
  function Size(e: Entry): nat {
    match e
    case File(d, _) => |d|
    case Dir(_) => DIR_SIZE
    case Special(_) => 0
  }

  type FS = map<Path, Entry>

  predicate IsRoot(p: Path) {
    p == "." || p == "/"
  }

  /** `stat`: the entry at `p`, or None when `stat` fails. */
  function Stat(fs: FS, p: Path): Option<Entry> {
    if p in fs then Some(fs[p])
    else if IsRoot(p) then Some(Dir(0))
    else None
  }

  /** `file_exists`. */
  predicate Exists(fs: FS, p: Path) {
    Stat(fs, p).Some?
  }

  /** `is_directory`. */
  predicate IsDir(fs: FS, p: Path) {
    Stat(fs, p).Some? && Stat(fs, p).value.Dir?
  }

  /** `is_regular_file`. */
  predicate IsFile(fs: FS, p: Path) {
    Stat(fs, p).Some? && Stat(fs, p).value.File?
  }

  /** A path `open(O_WRONLY | O_CREAT | O_TRUNC)` can open: not a
      directory, and its parent is one.  A special file counts as
      writable and is replaced by the regular file written, a
      simplification: a device keeps its kind and drops the bytes. */
  predicate Writable(fs: FS, p: Path) {
    p != "" && !IsDir(fs, p) && IsDir(fs, DirName(p))
  }

  datatype MkdirResult = Created | AlreadyExists | NoParent

  /** `mkdir`: EEXIST when anything is at the path, ENOENT/ENOTDIR when the
      parent is not a directory. */
  function Mkdir(fs: FS, p: Path, now: int): (r: (MkdirResult, FS))
    ensures r.0 == Created ==> !Exists(fs, p) && r.1 == fs[p := Dir(now)]
    ensures r.0 != Created ==> r.1 == fs
    ensures r.0 == AlreadyExists <==> Exists(fs, p)
  {
    if Exists(fs, p) then (AlreadyExists, fs)
    else if p == "" || !IsDir(fs, DirName(p)) then (NoParent, fs)
    else (Created, fs[p := Dir(now)])
  }

  /** `unlink` of a path that may or may not exist. */
  function Unlink(fs: FS, p: Path): FS {
    fs - {p}
  }

  /** `utime` with the source's modification time. */
  function SetMtime(fs: FS, p: Path, mtime: int): (r: FS)
    ensures r.Keys == fs.Keys
    ensures r - {p} == fs - {p}
    ensures p in fs && fs[p].File? ==> r[p] == File(fs[p].data, mtime)
  {
    if p in fs then fs[p := fs[p].(mtime := mtime)] else fs
  }

  /** What the environment does while one file is streamed:
      the source cannot be opened, the destination cannot be opened,
      a write comes up short after `done` bytes, a read fails after
      `done` bytes, or the codec reports an internal error. */
  datatype Fault =
    | NoFault
    | SrcOpenFails
    | DstOpenFails
    | WriteFails(done: nat)
    | ReadFails(done: nat)
    | CodecFails

  /** A file about to be read: its bytes, its mtime, and the fault the
      environment injects while it is read. */
  datatype Source = Source(data: Bytes, mtime: int, fault: Fault)

  /** The source seen by opening path `p` for reading.  A missing path
      cannot be opened; a directory opens but every read fails.  A special
      file is taken as one that cannot be opened, a simplification: a
      character device opens and reads nothing, a FIFO blocks. */
  function OpenSource(fs: FS, p: Path, fault: Fault): Source {
    match Stat(fs, p)
    case None => Source([], 0, SrcOpenFails)
    case Some(File(d, m)) => Source(d, m, fault)
    case Some(Dir(m)) => Source([], m, if fault == SrcOpenFails then fault else ReadFails(0))
    case Some(Special(m)) => Source([], m, SrcOpenFails)
  }

  /** What a copy loop reads from `p` once it has opened `dst` with
      `O_TRUNC`: when the two name the same file, the truncation has
      emptied it before the first read. */
  function OpenForCopy(fs: FS, p: Path, dst: Path, fault: Fault): (r: Source)
    ensures r.fault == OpenSource(fs, p, fault).fault && r.mtime == OpenSource(fs, p, fault).mtime
    ensures r.data == if p == dst then [] else OpenSource(fs, p, fault).data
  {
    var s := OpenSource(fs, p, fault);
    if p == dst then s.(data := []) else s
  }

  /** The bytes a copy from `p` to `dst` writes: the regular file's
      bytes, or nothing when both paths name that file. */
  function CopyPayload(fs: FS, p: Path, dst: Path): Bytes
    requires IsFile(fs, p)
  {
    if p == dst then [] else fs[p].data
  }

  /** Entries present in `fs` are present, unchanged, in `fs'`. */
  predicate Preserves(fs: FS, fs': FS) {
    forall p :: p in fs ==> p in fs' && fs'[p] == fs[p]
  }

  /** Every entry `fs'` has and `fs` has not is a directory. */
  predicate AddsOnlyDirs(fs: FS, fs': FS) {
    forall p :: p in fs' && p !in fs ==> fs'[p].Dir?
  }

  /** Directories are never removed or replaced. */
  predicate KeepsDirs(fs: FS, fs': FS) {
    forall p :: p in fs && fs[p].Dir? ==> p in fs' && fs'[p].Dir?
  }

  /** A fault that does not stop a transfer of `n` bytes: none at all, a
      write fault when nothing is written, a codec fault outside a codec. */
  predicate Harmless(f: Fault, n: nat, codec: bool) {
    f == NoFault || (f.WriteFails? && n == 0) || (f == CodecFails && !codec)
  }

  datatype Cleanup = RemoveOnFailure | KeepOnFailure

  datatype Transferred = Done | SrcOpenFailed | DstOpenFailed | WriteFailed | ReadFailed | CodecFailed

  /** The byte-streaming loop shared by every copy and codec in the
      utility: open the source, then create/truncate the destination,
      then write `payload` (the source bytes, or their encoding) block by
      block.  On a failure after the destination was opened it is either
      unlinked or left holding what had been written. */
  function Transfer(src: Source, payload: Bytes, codec: bool, dst: Path, fs: FS, now: int, cleanup: Cleanup)
    : (r: (Transferred, FS))
    ensures r.1 - {dst} == fs - {dst}
    ensures r.1 != fs ==> Writable(fs, dst)
    ensures r.0 == SrcOpenFailed <==> src.fault == SrcOpenFails
    ensures r.0 == DstOpenFailed ==> src.fault == DstOpenFails || !Writable(fs, dst)
    ensures r.0 == SrcOpenFailed || r.0 == DstOpenFailed ==> r.1 == fs
    ensures r.0 == Done <==> Writable(fs, dst) && Harmless(src.fault, |payload|, codec)
    ensures r.0 == Done ==> r.1 == fs[dst := File(payload, now)]
    ensures r.0 == CodecFailed ==> codec
    ensures r.0 !in {Done, SrcOpenFailed, DstOpenFailed} && cleanup == RemoveOnFailure ==> r.1 == fs - {dst}
    ensures r.0 !in {Done, SrcOpenFailed, DstOpenFailed} && cleanup == KeepOnFailure ==>
              dst in r.1 && r.1[dst].File? && r.1[dst].data <= payload && |r.1[dst].data| < |payload| + 1
  {
    if src.fault == SrcOpenFails then (SrcOpenFailed, fs)
    else if src.fault == DstOpenFails || !Writable(fs, dst) then (DstOpenFailed, fs)
    else
      var failed := (status: Transferred, written: Bytes) =>
        (status, if cleanup == RemoveOnFailure then fs - {dst} else fs[dst := File(written, now)]);
      match src.fault
      case WriteFails(k) =>
        if |payload| > 0 then failed(WriteFailed, payload[..Min(k, |payload| - 1)])
        else (Done, fs[dst := File(payload, now)])
      case ReadFails(k) => failed(ReadFailed, payload[..Min(k, |payload|)])
      case CodecFails =>
        if codec then failed(CodecFailed, []) else (Done, fs[dst := File(payload, now)])
      case _ => (Done, fs[dst := File(payload, now)])
  }
}

=== FILE: legacy.dfy ===
/** The earlier single-file program, src/backup_old_backup.c: a copy
    with metadata that cleans up after itself, a byte-by-byte backup
    check, a directory walk that counts errors, a hand-written argument
    scanner, and its `backup` and `restore` commands. */
module Legacy {
  import opened Base
  import opened Strings
  import opened Paths
  import opened FileSystem
  import opened MakeDirs
  import opened Engine
  import opened Traversal

  /** `BackupOptions` of the old program. */
  datatype OldOptions = OldOptions(
    verbose: bool,
    recursive: bool,
    preserveMetadata: bool,
    verifyBackup: bool,
    incremental: bool,
    logFile: string)

  /** The copy loop of `copy_file_with_metadata` once the source was
      `stat`ed (`src` None when that failed): open, create, copy; a
      failed read or write unlinks the destination; with `-m` the
      destination gets the source's time, and a failure to set it is
      only logged. */
  function CopyCore(fs: FS, src: Option<Source>, destination: Path, preserve: bool, now: int): (r: (int, FS))
    ensures r.0 == 0 || r.0 == -1
    ensures r.1 - {destination} == fs - {destination}
    ensures r.1 != fs ==> Writable(fs, destination)
    ensures r.0 == 0 <==> src.Some? && Writable(fs, destination) && Harmless(src.value.fault, |src.value.data|, false)
    ensures r.0 == 0 ==> destination in r.1 && r.1[destination].File? && r.1[destination].data == src.value.data
    ensures r.0 == 0 && preserve ==> r.1[destination].mtime == src.value.mtime
    ensures r.0 != 0 ==> r.1 == fs || r.1 == fs - {destination}
  {
    if src.None? then (-1, fs)
    else
      var (t, fs1) := Transfer(src.value, src.value.data, false, destination, fs, now, RemoveOnFailure);
      if t != Done then (-1, fs1)
      else (0, if preserve then SetMtime(fs1, destination, src.value.mtime) else fs1)
  }

  /** `copy_file_with_metadata` between two paths of one file system.
      The source is `stat`ed before the destination is truncated, so a
      file copied onto itself ends up empty but keeps its time under
      `-m`. */
  function CopyFileWithMetadata(fs: FS, source: Path, destination: Path, fault: Fault, preserve: bool, now: int)
    : (r: (int, FS))
    ensures r.0 == 0 || r.0 == -1
    ensures !Exists(fs, source) ==> r == (-1, fs)
    ensures r.0 == 0 <==> IsFile(fs, source) && Writable(fs, destination)
                          && Harmless(fault, |CopyPayload(fs, source, destination)|, false)
    ensures r.0 == 0 ==>
              destination in r.1 && r.1[destination].File?
              && r.1[destination].data == (if source == destination then [] else fs[source].data)
              && (preserve ==> r.1[destination].mtime == fs[source].mtime)
    ensures r.0 != 0 ==> r.1 == fs || r.1 == fs - {destination}
  {
    var src := if Exists(fs, source) then Some(OpenForCopy(fs, source, destination, fault)) else None;
    CopyCore(fs, src, destination, preserve, now)
  }

  /** What `verify_backup` compares, given what `stat` said about the
      source and the backup: both must exist with equal sizes; then the
      source is read chunk by chunk against the backup.  A directory
      reads as empty, and a file of another kind cannot be opened. */
  function VerifyEntries(src: Option<Entry>, bak: Option<Entry>): (r: int)
    ensures r == 0 || r == -1
    ensures r == 0 ==> src.Some? && bak.Some? && Size(src.value) == Size(bak.value)
    ensures r == 0 && src.value.File? ==> bak.value.File? && bak.value.data == src.value.data
    ensures src.Some? && bak.Some? && src.value.File? && bak.value.File? ==>
              (r == 0 <==> src.value.data == bak.value.data)
  {
    if src.None? || bak.None? then -1
    else if Size(src.value) != Size(bak.value) then -1
    else if src.value.Special? || bak.value.Special? then -1
    else match src.value
      case Dir(_) => 0
      case File(d, _) =>
        if bak.value.File? && bak.value.data == d then 0 else -1
      case Special(_) => -1
  }

  /** `verify_backup` between two paths. */
  function VerifyBackup(fs: FS, source: Path, backup: Path): (r: int)
    ensures r == 0 || r == -1
    ensures !Exists(fs, source) || !Exists(fs, backup) ==> r == -1
    ensures IsFile(fs, source) && IsFile(fs, backup) ==> (r == 0 <==> fs[source].data == fs[backup].data)
  {
    VerifyEntries(Stat(fs, source), Stat(fs, backup))
  }

  /** A copy that succeeded always passes the check, a copy onto itself
      included: the emptied file is compared with itself. */
  lemma CopyThenVerify(fs: FS, source: Path, destination: Path, fault: Fault, preserve: bool, now: int)
    requires CopyFileWithMetadata(fs, source, destination, fault, preserve, now).0 == 0
    ensures var fs1 := CopyFileWithMetadata(fs, source, destination, fault, preserve, now).1;
            VerifyBackup(fs1, source, destination) == 0
  {
    var fs1 := CopyFileWithMetadata(fs, source, destination, fault, preserve, now).1;
    if source != destination {
      assert fs1[source] == (fs1 - {destination})[source] == fs[source];
    }
  }

  /** What `stat` says about a node. */
  function NodeEntry(n: Node): (r: Option<Entry>)
    ensures r.None? <==> n.Dangling?
    ensures n.Reg? ==> r == Some(File(n.src.data, n.src.mtime))
  {
    match n
    case Reg(s) => Some(File(s.data, s.mtime))
    case Folder(_, m, _) => Some(Dir(m))
    case Other(m) => Some(Special(m))
    case Dangling => None
  }

  /** One regular file of the old walk: copy it, check it when `-c` is
      set; true when neither failed. */
  function BackupFileOld(fs: FS, node: Node, dest: Path, o: OldOptions, now: int): (r: (bool, FS))
    requires node.Reg?
    ensures r.1 - {dest} == fs - {dest}
    ensures r.1 != fs ==> Writable(fs, dest)
    ensures r.0 <==> Writable(fs, dest) && Harmless(node.src.fault, |node.src.data|, false)
    ensures r.0 ==> dest in r.1 && r.1[dest].File? && r.1[dest].data == node.src.data
  {
    var (c, fs1) := CopyCore(fs, Some(node.src), dest, o.preserveMetadata, now);
    if c != 0 then (false, fs1)
    else if o.verifyBackup && VerifyEntries(NodeEntry(node), Stat(fs1, dest)) != 0 then (false, fs1)
    else (true, fs1)
  }

  /** The old walk's result: 0 or -1, the file system after it, and one
      flag per entry that counted (a subdirectory or a regular file):
      whether it went without error. */
  datatype OldVisit = OldVisit(code: int, fs: FS, oks: seq<bool>)

  /** `error_count`: the entries that failed. */
  function ErrorCount(oks: seq<bool>): (r: nat)
    ensures r <= |oks|
  {
    if |oks| == 0 then 0 else ErrorCount(oks[..|oks| - 1]) + if oks[|oks| - 1] then 0 else 1
  }

  lemma {:induction false} ErrorCountZero(oks: seq<bool>)
    ensures ErrorCount(oks) == 0 <==> forall i :: 0 <= i < |oks| ==> oks[i]
  {
    if |oks| > 0 {
      var init := oks[..|oks| - 1];
      ErrorCountZero(init);
      assert forall i :: 0 <= i < |init| ==> init[i] == oks[i];
    }
  }

  /** Changes confined to `root` in two steps are confined in one. */
  lemma ConfinedTrans(a: FS, b: FS, c: FS, root: Path)
    requires Confined(a, b, root) && Confined(b, c, root)
    ensures Confined(a, c, root)
  {
    forall p | !Unchanged(a, c, p)
      ensures p <= root || root <= p
    {
      assert !Unchanged(a, b, p) || !Unchanged(b, c, p);
    }
  }

  /** `create_directory_recursive` only adds directories on the way to
      its path. */
  lemma MakeDirsConfined(fs: FS, dest: Path, now: int)
    ensures Confined(fs, CreateDirectoryRecursive(fs, dest, now).1, dest)
  {
    var fs1 := CreateDirectoryRecursive(fs, dest, now).1;
    forall p | !Unchanged(fs, fs1, p)
      ensures p <= dest || dest <= p
    {
      assert p in fs1 && p !in fs;
    }
  }

  /** `backup_directory_recursive` of the old program: the source is
      opened before the destination is created, every entry is visited
      whatever happened to the ones before it, and the result is -1
      exactly when some entry failed.  Directories stay directories, and
      nothing changes away from the destination. */
  function WalkOld(fs: FS, node: Node, dest: Path, o: OldOptions, now: int): (r: OldVisit)
    requires node.Folder?
    ensures r.code == 0 || r.code == -1
    ensures KeepsDirs(fs, r.fs) && Confined(fs, r.fs, dest)
    ensures !node.readable ==> r == OldVisit(-1, fs, [])
    ensures node.readable && CreateDirectoryRecursive(fs, dest, now).0 != 0 ==>
              r == OldVisit(-1, CreateDirectoryRecursive(fs, dest, now).1, [])
    ensures node.readable && CreateDirectoryRecursive(fs, dest, now).0 == 0 ==>
              (r.code == 0 <==> forall i :: 0 <= i < |r.oks| ==> r.oks[i])
    decreases node, 1
  {
    if !node.readable then OldVisit(-1, fs, [])
    else
      var (c, fs1) := CreateDirectoryRecursive(fs, dest, now);
      MakeDirsConfined(fs, dest, now);
      if c != 0 then OldVisit(-1, fs1, [])
      else
        var v := WalkOldKids(fs1, node, 0, dest, o, now, []);
        ErrorCountZero(v.oks);
        ConfinedTrans(fs, fs1, v.fs, dest);
        OldVisit(if ErrorCount(v.oks) > 0 then -1 else 0, v.fs, v.oks)
  }

  /** The entries the old walk counts: subdirectories and regular files,
      in `readdir` order. */
  function Counted(cs: seq<Child>): (r: seq<Child>)
    ensures |r| <= |cs|
    ensures forall k :: 0 <= k < |r| ==> r[k].node.Folder? || r[k].node.Reg?
  {
    if |cs| == 0 then []
    else (if cs[0].node.Folder? || cs[0].node.Reg? then [cs[0]] else []) + Counted(cs[1..])
  }

  /** One counted entry of the old walk: a subdirectory is walked, a
      regular file copied (and checked); whether it went without error,
      and the file system after it. */
  function OldStep(fs: FS, ch: Child, dest: Path, o: OldOptions, now: int): (r: (bool, FS))
    requires ch.node.Folder? || ch.node.Reg?
    ensures KeepsDirs(fs, r.1) && Confined(fs, r.1, dest)
    decreases ch.node, 2
  {
    var dp := Join(dest, ch.name);
    assert dest <= dp by { assert (dest + "/" + ch.name)[..|dest|] == dest; }
    if ch.node.Folder? then
      var v := WalkOld(fs, ch.node, dp, o, now);
      ConfinedWiden(fs, v.fs, dp, dest);
      (v.code == 0, v.fs)
    else
      var (ok, fs1) := BackupFileOld(fs, ch.node, dp, o, now);
      OneChangeConfined(fs, fs1, dp, dest);
      (ok, fs1)
  }

  /** The `readdir` loop of the old walk from entry `i` on: one flag per
      subdirectory or regular file, in order; other entries add none. */
  function WalkOldKids(fs: FS, parent: Node, i: nat, dest: Path, o: OldOptions, now: int, oks: seq<bool>): (r: OldVisit)
    requires parent.Folder? && i <= |parent.children|
    ensures oks <= r.oks && |r.oks| <= |oks| + |parent.children| - i
    ensures KeepsDirs(fs, r.fs) && Confined(fs, r.fs, dest)
    decreases parent, 0, |parent.children| - i
  {
    if i == |parent.children| then OldVisit(0, fs, oks)
    else
      var ch := parent.children[i];
      if ch.node.Folder? || ch.node.Reg? then
        var (ok, fs1) := OldStep(fs, ch, dest, o, now);
        var w := WalkOldKids(fs1, parent, i + 1, dest, o, now, oks + [ok]);
        ConfinedTrans(fs, fs1, w.fs, dest);
        w
      else WalkOldKids(fs, parent, i + 1, dest, o, now, oks)
  }

  /** The old loop's reference: step through the counted entries `vis` in
      order, each from the file system the one before it left; the flags
      and the final file system. */
  function OldSteps(fs: FS, vis: seq<Child>, dest: Path, o: OldOptions, now: int): (r: (seq<bool>, FS))
    requires forall k :: 0 <= k < |vis| ==> vis[k].node.Folder? || vis[k].node.Reg?
    ensures |r.0| == |vis|
    decreases |vis|
  {
    if |vis| == 0 then ([], fs)
    else
      var (ok, fs1) := OldStep(fs, vis[0], dest, o, now);
      var (oks, fs2) := OldSteps(fs1, vis[1..], dest, o, now);
      ([ok] + oks, fs2)
  }

  /** `Counted` seen from its first entry. */
  lemma CountedFront(cs: seq<Child>)
    requires |cs| > 0
    ensures !(cs[0].node.Folder? || cs[0].node.Reg?) ==> Counted(cs) == Counted(cs[1..])
    ensures cs[0].node.Folder? || cs[0].node.Reg? ==>
              |Counted(cs)| > 0 && Counted(cs)[0] == cs[0] && Counted(cs)[1..] == Counted(cs[1..])
  {
    if cs[0].node.Folder? || cs[0].node.Reg? {
      assert Counted(cs) == [cs[0]] + Counted(cs[1..]);
    }
  }

  /** The reference takes its first entry's step, then the rest from there. */
  lemma OldStepsFront(fs: FS, vis: seq<Child>, ch: Child, rest: seq<Child>, dest: Path, o: OldOptions, now: int)
    requires |vis| > 0 && vis[0] == ch && vis[1..] == rest
    requires forall k :: 0 <= k < |vis| ==> vis[k].node.Folder? || vis[k].node.Reg?
    ensures var t := OldStep(fs, ch, dest, o, now);
            var s := OldSteps(t.1, rest, dest, o, now);
            OldSteps(fs, vis, dest, o, now) == ([t.0] + s.0, s.1)
  {
  }

  /** The old loop visits exactly the subdirectories and regular files,
      in order, each from the file system the one before it left: it
      appends the reference's flags, one per counted entry, and ends in
      the reference's file system. */
  lemma {:induction false} WalkOldKidsSteps(fs: FS, parent: Node, i: nat, dest: Path, o: OldOptions, now: int,
                                            oks: seq<bool>)
    requires parent.Folder? && i <= |parent.children|
    ensures var r := WalkOldKids(fs, parent, i, dest, o, now, oks);
            var s := OldSteps(fs, Counted(parent.children[i..]), dest, o, now);
            r.code == 0 && r.oks == oks + s.0 && r.fs == s.1
    decreases |parent.children| - i
  {
    var cs := parent.children[i..];
    if i < |parent.children| {
      var ch := parent.children[i];
      assert cs[0] == ch && cs[1..] == parent.children[i + 1..];
      CountedFront(cs);
      if ch.node.Folder? || ch.node.Reg? {
        var t := OldStep(fs, ch, dest, o, now);
        WalkOldKidsSteps(t.1, parent, i + 1, dest, o, now, oks + [t.0]);
        assert WalkOldKids(fs, parent, i, dest, o, now, oks) == WalkOldKids(t.1, parent, i + 1, dest, o, now, oks + [t.0]);
        var rest := Counted(parent.children[i + 1..]);
        OldStepsFront(fs, Counted(cs), ch, rest, dest, o, now);
        var s := OldSteps(t.1, rest, dest, o, now);
        assert OldSteps(fs, Counted(cs), dest, o, now) == ([t.0] + s.0, s.1);
        AppendAssoc(oks, [t.0], s.0);
      } else {
        WalkOldKidsSteps(fs, parent, i + 1, dest, o, now, oks);
      }
    } else {
      assert cs == [];
    }
  }

  /** The flags of the entries the old walk counts, by the reference,
      once the destination was made. */
  function OldFlags(fs: FS, node: Node, dest: Path, o: OldOptions, now: int): (r: seq<bool>)
    requires node.Folder?
    ensures |r| == |Counted(node.children)|
  {
    OldSteps(CreateDirectoryRecursive(fs, dest, now).1, Counted(node.children), dest, o, now).0
  }

  /** The old walk returns 0 exactly when it could open the source, make
      the destination, and every subdirectory and regular file went
      without error; it then holds one flag per such entry, and ends where
      the reference does. */
  lemma WalkOldSuccess(fs: FS, node: Node, dest: Path, o: OldOptions, now: int)
    requires node.Folder?
    ensures var v := WalkOld(fs, node, dest, o, now);
            var flags := OldFlags(fs, node, dest, o, now);
            v.code == 0 <==>
              node.readable && CreateDirectoryRecursive(fs, dest, now).0 == 0
              && forall k :: 0 <= k < |flags| ==> flags[k]
    ensures var v := WalkOld(fs, node, dest, o, now);
            node.readable && CreateDirectoryRecursive(fs, dest, now).0 == 0 ==>
              v.oks == OldFlags(fs, node, dest, o, now)
              && v.fs == OldSteps(CreateDirectoryRecursive(fs, dest, now).1, Counted(node.children), dest, o, now).1
  {
    if node.readable && CreateDirectoryRecursive(fs, dest, now).0 == 0 {
      var fs1 := CreateDirectoryRecursive(fs, dest, now).1;
      assert node.children[0..] == node.children;
      WalkOldKidsSteps(fs1, node, 0, dest, o, now, []);
      var w := WalkOldKids(fs1, node, 0, dest, o, now, []);
      var s := OldSteps(fs1, Counted(node.children), dest, o, now);
      assert w.oks == [] + s.0;
      assert [] + s.0 == s.0;
      var v := WalkOld(fs, node, dest, o, now);
      assert v.oks == w.oks && v.fs == w.fs;
      assert v.oks == OldFlags(fs, node, dest, o, now);
    }
  }

  /** Entries the old walk does not count change nothing: a run of them
      anywhere in the directory is passed over as if it were not there. */
  lemma {:induction false} OnlyIgnoredEntries(fs: FS, parent: Node, i: nat, j: nat, dest: Path, o: OldOptions, now: int,
                                              oks: seq<bool>)
    requires parent.Folder? && i <= j <= |parent.children|
    requires forall k :: i <= k < j ==> parent.children[k].node.Dangling? || parent.children[k].node.Other?
    ensures WalkOldKids(fs, parent, i, dest, o, now, oks) == WalkOldKids(fs, parent, j, dest, o, now, oks)
    decreases j - i
  {
    if i < j {
      OnlyIgnoredEntries(fs, parent, i + 1, j, dest, o, now, oks);
    }
  }

  /** The flags the old scanner recognises without an argument. */
  predicate IsSimpleFlag(a: string) {
    a in {"-v", "--verbose", "-r", "--recursive", "-m", "--metadata", "-c", "--verify"}
  }

  predicate IsLogFlag(a: string) {
    a == "-l" || a == "--log"
  }

  /** The room `strncpy` leaves in the log-file buffer. */
  const LOG_FILE_WIDTH: nat := 4095

  /** The scan of `parse_options` from index `i`: the options so far and
      the index of the first operand (2 unless an unrecognised argument
      is met), or None when `-l` has no argument. */
  function ScanOld(args: seq<string>, i: nat, o: OldOptions, start: nat): (r: Option<(OldOptions, nat)>)
    ensures r.Some? ==> r.value.1 == start || (i <= r.value.1 < |args| && !IsSimpleFlag(args[r.value.1]) && !IsLogFlag(args[r.value.1]))
    ensures r.Some? ==> |r.value.0.logFile| <= LOG_FILE_WIDTH || r.value.0.logFile == o.logFile
    decreases |args| - i
  {
    if i >= |args| then Some((o, start))
    else
      var a := args[i];
      if a == "-v" || a == "--verbose" then ScanOld(args, i + 1, o.(verbose := true), start)
      else if a == "-r" || a == "--recursive" then ScanOld(args, i + 1, o.(recursive := true), start)
      else if a == "-m" || a == "--metadata" then ScanOld(args, i + 1, o.(preserveMetadata := true), start)
      else if a == "-c" || a == "--verify" then ScanOld(args, i + 1, o.(verifyBackup := true), start)
      else if IsLogFlag(a) then
        if i + 1 < |args| then ScanOld(args, i + 2, o.(logFile := Take(args[i + 1], LOG_FILE_WIDTH)), start)
        else None
      else Some((o, i))
  }

  /** `parse_options` of the old program on the whole `argv` (program
      name and command first). */
  function ParseOptionsOld(args: seq<string>): (r: Option<(OldOptions, nat)>)
    ensures r.Some? ==> r.value.1 == 2 || (2 <= r.value.1 < |args| && !IsSimpleFlag(args[r.value.1]) && !IsLogFlag(args[r.value.1]))
  {
    ScanOld(args, 2, OldOptions(false, false, false, false, false, ""), 2)
  }

  /** Flags up to the first operand are all read, and the operand's
      index is recorded. */
  lemma {:induction false} ScanOldStopsAtOperand(args: seq<string>, i: nat, k: nat, o: OldOptions, start: nat)
    requires i <= k < |args|
    requires forall j :: i <= j < k ==> IsSimpleFlag(args[j])
    requires !IsSimpleFlag(args[k]) && !IsLogFlag(args[k])
    ensures ScanOld(args, i, o, start).Some? && ScanOld(args, i, o, start).value.1 == k
    ensures ScanOld(args, i, o, start).value.0.recursive <==> o.recursive || exists j :: i <= j < k && args[j] in {"-r", "--recursive"}
    decreases k - i
  {
    if i < k {
      var a := args[i];
      var o' := if a == "-v" || a == "--verbose" then o.(verbose := true)
                else if a == "-r" || a == "--recursive" then o.(recursive := true)
                else if a == "-m" || a == "--metadata" then o.(preserveMetadata := true)
                else o.(verifyBackup := true);
      assert ScanOld(args, i, o, start) == ScanOld(args, i + 1, o', start);
      ScanOldStopsAtOperand(args, i + 1, k, o', start);
    }
  }

  /** When every argument after the command is a flag, the operand index
      stays 2, so the command would take its last two flags as source
      and destination. */
  lemma {:induction false} ScanOldAllFlags(args: seq<string>, i: nat, o: OldOptions, start: nat)
    requires forall j :: i <= j < |args| ==> IsSimpleFlag(args[j])
    ensures ScanOld(args, i, o, start).Some? && ScanOld(args, i, o, start).value.1 == start
    decreases |args| - i
  {
    if i < |args| {
      var a := args[i];
      var o' := if a == "-v" || a == "--verbose" then o.(verbose := true)
                else if a == "-r" || a == "--recursive" then o.(recursive := true)
                else if a == "-m" || a == "--metadata" then o.(preserveMetadata := true)
                else o.(verifyBackup := true);
      assert ScanOld(args, i, o, start) == ScanOld(args, i + 1, o', start);
      ScanOldAllFlags(args, i + 1, o', start);
    }
  }

  /** The two operands of `backup` and `restore`: the last two
      arguments, provided at least two arguments start at the operand
      index. */
  function OldOperands(args: seq<string>, start: nat): (r: Option<(string, string)>)
    ensures r.Some? <==> start + 2 <= |args|
    ensures r.Some? ==> r.value.0 == args[|args| - 2] && r.value.1 == args[|args| - 1]
  {
    if |args| < start + 2 then None else Some((args[|args| - 2], args[|args| - 1]))
  }

  /** `backup -v -r` parses, and its two flags become the source and
      the destination. */
  lemma FlagsTakenAsOperands()
    ensures var args := ["backup", "backup", "-v", "-r"];
            ParseOptionsOld(args).Some?
            && ParseOptionsOld(args).value.0.recursive
            && OldOperands(args, ParseOptionsOld(args).value.1) == Some(("-v", "-r"))
  {
    var args := ["backup", "backup", "-v", "-r"];
    ScanOldAllFlags(args, 2, OldOptions(false, false, false, false, false, ""), 2);
  }

  /** The `backup` command of the old program once the source was looked
      up: 0 or 1 (`EXIT_SUCCESS`/`EXIT_FAILURE`).  A regular file is
      copied by `copy_file_with_metadata`, whose `O_TRUNC` open empties
      it first when `destination` is `source` itself; the check under
      `-c` then looks at `source` as the copy left it. */
  function MainBackupOld(fs: FS, node: Node, source: Path, destination: Path, o: OldOptions, now: int): (r: (int, FS))
    ensures r.0 == 0 || r.0 == 1
    ensures node.Dangling? || node.Other? || (node.Folder? && !o.recursive) ==> r == (1, fs)
    ensures r.0 == 0 && node.Reg? ==>
              destination in r.1 && r.1[destination].File?
              && r.1[destination].data == (if source == destination then [] else node.src.data)
    ensures node.Reg? ==>
              (r.0 == 0 <==> Writable(fs, destination)
                             && Harmless(node.src.fault, if source == destination then 0 else |node.src.data|, false))
  {
    if node.Dangling? then (1, fs)
    else if node.Folder? && o.recursive then
      var v := WalkOld(fs, node, destination, o, now);
      (if v.code != 0 then 1 else 0, v.fs)
    else if node.Reg? then
      var src := if source == destination then node.src.(data := []) else node.src;
      var (c, fs1) := CopyCore(fs, Some(src), destination, o.preserveMetadata, now);
      var seen := if source == destination then Stat(fs1, source) else NodeEntry(node);
      if c != 0 then (1, fs1)
      else if o.verifyBackup && VerifyEntries(seen, Stat(fs1, destination)) != 0 then (1, fs1)
      else (0, fs1)
    else (1, fs)
  }

  /** `backup a a` with the old program: the copy empties `a`, the check
      compares the emptied file with itself, and the command succeeds. */
  lemma OldSelfBackupEmpties(fs: FS, data: Bytes, m: int, source: Path, o: OldOptions, now: int)
    requires Writable(fs, source)
    ensures var r := MainBackupOld(fs, Reg(Source(data, m, NoFault)), source, source, o, now);
            r.0 == 0 && source in r.1 && r.1[source].File? && r.1[source].data == []
  {
  }

  /** The `restore` command of the old program: a plain copy back. */
  function MainRestoreOld(fs: FS, backup: Path, destination: Path, fault: Fault, o: OldOptions, now: int): (r: (int, FS))
    ensures r.0 == 0 || r.0 == 1
    ensures !Exists(fs, backup) ==> r == (1, fs)
    ensures r.0 == 0 <==> CopyFileWithMetadata(fs, backup, destination, fault, o.preserveMetadata, now).0 == 0
    ensures r.0 == 0 ==> destination in r.1 && r.1[destination].File?
                         && r.1[destination].data == (if backup == destination then [] else fs[backup].data)
  {
    if !Exists(fs, backup) then (1, fs)
    else
      var (c, fs1) := CopyFileWithMetadata(fs, backup, destination, fault, o.preserveMetadata, now);
      (if c != 0 then 1 else 0, fs1)
  }

  /** The check inside the old walk never fails after a successful copy:
      the copy put the node's bytes at the destination. */
  lemma VerifyAfterCopyOld(fs: FS, node: Node, dest: Path, preserve: bool, now: int)
    requires node.Reg?
    requires CopyCore(fs, Some(node.src), dest, preserve, now).0 == 0
    ensures VerifyEntries(NodeEntry(node), Stat(CopyCore(fs, Some(node.src), dest, preserve, now).1, dest)) == 0
  {
  }
}

=== FILE: makedirs.dfy ===
/** `create_directory_recursive` of src/backup_old_backup.c, which
    src/backup.c and src/restore.c also call: drop one trailing '/', make
    every prefix that ends just before a later '/', then the whole path.
    An existing entry (EEXIST) is not an error. */
module MakeDirs {
  import opened Base
  import opened Paths
  import opened FileSystem

  /** The path with one trailing '/' removed. */
  function TrimOneSlash(path: Path): (r: Path)
    ensures r <= path
  {
    if |path| > 0 && path[|path| - 1] == '/' then path[..|path| - 1] else path
  }

  /** The `mkdir` calls for the '/'s at positions `j` and beyond. */
  function MkdirPrefixes(fs: FS, t: Path, j: nat, now: int): (r: (int, FS))
    ensures r.0 == 0 || r.0 == -1
    ensures Preserves(fs, r.1) && AddsOnlyDirs(fs, r.1)
    ensures forall p :: p in r.1 && p !in fs ==> p < t
    ensures r.0 == 0 ==> forall k :: j <= k < |t| && t[k] == '/' ==> Exists(r.1, t[..k])
    decreases |t| - j
  {
    if j >= |t| then (0, fs)
    else if t[j] == '/' then
      var (m, fs1) := Mkdir(fs, t[..j], now);
      if m == NoParent then (-1, fs1)
      else
        var r := MkdirPrefixes(fs1, t, j + 1, now);
        ExistsPreserved(fs1, r.1, t[..j]);
        r
    else MkdirPrefixes(fs, t, j + 1, now)
  }

  lemma ExistsPreserved(fs: FS, fs': FS, p: Path)
    requires Preserves(fs, fs') && Exists(fs, p)
    ensures Exists(fs', p)
  {
  }

  /** `create_directory_recursive`.  An empty path reads before the start
      of the buffer in the source; here its `mkdir("")` fails. */
  function CreateDirectoryRecursive(fs: FS, path: Path, now: int): (r: (int, FS))
    ensures r.0 == 0 || r.0 == -1
    ensures Preserves(fs, r.1) && AddsOnlyDirs(fs, r.1)
    ensures forall p :: p in r.1 && p !in fs ==> p <= path
    ensures r.0 == 0 ==> Exists(r.1, TrimOneSlash(path))
    ensures r.0 == 0 ==> forall k :: 1 <= k < |TrimOneSlash(path)| && path[k] == '/' ==> Exists(r.1, path[..k])
    ensures path == "" ==> r.0 == -1
  {
    if path == "" then (-1, fs)
    else
      var t := TrimOneSlash(path);
      var (c, fs1) := MkdirPrefixes(fs, t, 1, now);
      if c != 0 then (-1, fs1)
      else
        var (m, fs2) := Mkdir(fs1, t, now);
        assert forall k :: 1 <= k < |t| ==> t[..k] == path[..k];
        forall k | 1 <= k < |t| && t[k] == '/'
          ensures Exists(fs2, path[..k])
        {
          ExistsPreserved(fs1, fs2, t[..k]);
        }
        if m == NoParent then (-1, fs2) else (0, fs2)
  }

  /** Once every prefix exists, the remaining `mkdir` calls all meet
      EEXIST and change nothing. */
  lemma {:induction false} MkdirPrefixesIdle(fs: FS, t: Path, j: nat, now: int)
    requires forall k :: j <= k < |t| && t[k] == '/' ==> Exists(fs, t[..k])
    ensures MkdirPrefixes(fs, t, j, now) == (0, fs)
    decreases |t| - j
  {
    if j < |t| {
      MkdirPrefixesIdle(fs, t, j + 1, now);
    }
  }

  /** Creating a directory tree twice is the same as creating it once. */
  lemma CreateDirectoryRecursiveIdempotent(fs: FS, path: Path, now: int, later: int)
    requires CreateDirectoryRecursive(fs, path, now).0 == 0
    ensures var fs1 := CreateDirectoryRecursive(fs, path, now).1;
            CreateDirectoryRecursive(fs1, path, later) == (0, fs1)
  {
    var fs1 := CreateDirectoryRecursive(fs, path, now).1;
    var t := TrimOneSlash(path);
    assert forall k :: 1 <= k < |t| ==> t[..k] == path[..k];
    MkdirPrefixesIdle(fs1, t, 1, later);
  }
}

=== FILE: paths.dfy ===
/** Path strings: `snprintf("%s/%s")` joining, the POSIX `dirname` that
    file_utils.c recurses on, and the "text after the last '/'" that
    src/restore.c uses as a file name. */
module Paths {
  import opened Base
  import opened Strings

  type Path = string

  /** `snprintf(buf, "%s/%s", dir, name)`. */
  function Join(dir: Path, name: string): Path {
    dir + "/" + name
  }

  function StripTrailingSlashes(s: string): (r: string)
    ensures r <= s
    ensures |r| > 0 ==> r[|r| - 1] != '/'
  {
    if |s| > 0 && s[|s| - 1] == '/' then StripTrailingSlashes(s[..|s| - 1]) else s
  }

  /** POSIX `dirname`: "." for a path without '/', "/" for one whose only
      '/'s lead it, otherwise everything before the last component with
      its trailing '/'s removed. */
  function DirName(p: Path): (r: Path)
    ensures r != "." && r != "/" ==> |r| < |p| && r <= p
  {
    if |p| == 0 then "."
    else
      var t := StripTrailingSlashes(p);
      if |t| == 0 then "/"
      else match LastIndexOf(t, '/')
        case None => "."
        case Some(i) =>
          var h := StripTrailingSlashes(t[..i]);
          if |h| == 0 then "/" else h
  }

  /** A path without '/' names an entry of the working directory. */
  lemma DirNameOfPlainName(p: Path)
    requires |p| > 0 && forall i :: 0 <= i < |p| ==> p[i] != '/'
    ensures DirName(p) == "."
  {
    assert StripTrailingSlashes(p) == p;
  }

  /** The text after the last '/', or the whole path when it has none. */
  function AfterLastSlash(p: Path): (r: string)
    ensures forall i :: 0 <= i < |r| ==> r[i] != '/'
    ensures EndsWith(p, r)
  {
    match LastIndexOf(p, '/')
    case None => p
    case Some(i) => p[i + 1..]
  }

  /** A single path component: no '/'. */
  predicate IsName(n: string) {
    forall i :: 0 <= i < |n| ==> n[i] != '/'
  }

  /** Joining a directory (without a trailing '/') and a non-empty name
      gives a path whose `dirname` is that directory. */
  lemma DirNameOfJoin(dir: Path, name: string)
    requires |dir| > 0 && dir[|dir| - 1] != '/'
    requires |name| > 0 && IsName(name)
    ensures DirName(Join(dir, name)) == dir
  {
    var p := Join(dir, name);
    assert p[|p| - 1] == name[|name| - 1];
    assert StripTrailingSlashes(p) == p;
    assert p[|dir|] == '/';
    var i := |dir|;
    assert forall j :: i < j < |p| ==> p[j] == name[j - i - 1];
    assert LastIndexOf(p, '/') == Some(i);
    assert p[..i] == dir;
  }

  /** The name part of a joined path is the name. */
  lemma AfterLastSlashOfJoin(dir: Path, name: string)
    requires IsName(name)
    ensures AfterLastSlash(Join(dir, name)) == name
  {
    var p := Join(dir, name);
    var i := |dir|;
    assert p[i] == '/';
    assert forall j :: i < j < |p| ==> p[j] == name[j - i - 1];
    assert LastIndexOf(p, '/') == Some(i);
    assert p[i + 1..] == name;
  }
}

=== FILE: restore_ops.dfy ===
/** The simpler restore front end of restore_ops.c and its copy
    src/restore_ops.c: defaults, a single-file restore with its conflict
    check, a single-directory restore, the status record and the
    size-only check.  The copies differ in logging, in the RENAME case of
    `handle_file_conflict` (answered the same way) and in the check after
    a restore, which only the root copy makes and which only logs. */
module RestoreOps {
  import opened Base
  import opened Paths
  import opened FileSystem
  import opened Conflict
  import opened FileUtils

  /** `RestoreOptions` of restore_ops.h; the conflict field holds the raw
      enumeration value, which may be out of range. */
  datatype RestoreOptions = RestoreOptions(
    conflictResolution: int,
    restoreMetadata: bool,
    recursive: bool,
    verifyAfterRestore: bool,
    verbose: bool,
    restoreTime: int)

  /** `RestoreStatus` of restore_ops.h. */
  datatype RestoreStatus = RestoreStatus(
    totalFiles: int,
    restoredFiles: int,
    skippedFiles: int,
    errorFiles: int,
    totalSize: int,
    restoredSize: int,
    startTime: int,
    endTime: int)

  /** `init_restore_options`: ask on conflicts, restore metadata, latest
      backup, nothing else. */
  function InitRestoreOptions(): (r: RestoreOptions)
    ensures ModeOfRestoreOpsCode(r.conflictResolution) == Some(Ask)
    ensures r.restoreMetadata && !r.recursive && !r.verifyAfterRestore && !r.verbose
    ensures r.restoreTime == 0
  {
    CodesRoundTrip(Ask);
    RestoreOptions(RestoreOpsCode(Ask), true, false, false, false, 0)
  }

  /** `verify_restored_file`: only the sizes `get_file_size` reports are
      compared, so two missing files agree. */
  function VerifyRestoredFile(fs: FS, original: Path, restored: Path): (r: int)
    ensures r == 0 || r == -1
    ensures r == 0 <==> GetFileSize(fs, original) == GetFileSize(fs, restored)
    ensures !Exists(fs, original) && !Exists(fs, restored) ==> r == 0
    ensures Exists(fs, original) != Exists(fs, restored) ==> r == -1
  {
    if GetFileSize(fs, original) != GetFileSize(fs, restored) then -1 else 0
  }

  /** What `restore_file` returns and leaves behind: 0 restored, 1
      skipped at a conflict, -1 failed; `warned` tells whether the check
      after the restore logged a mismatch (root copy only). */
  datatype FileOutcome = FileOutcome(code: int, fs: FS, warned: bool)

  /** `restore_file`.  `response` is the character the prompt would read;
      `checks` tells whether this is the root copy, which checks the
      result when asked to. */
  function RestoreFile(fs: FS, backupPath: Path, destination: Path, o: RestoreOptions, response: char,
                       fault: Fault, now: int, checks: bool): (r: FileOutcome)
    ensures r.code in {0, 1, -1}
    ensures !Exists(fs, backupPath) ==> r == FileOutcome(-1, fs, false)
    ensures r.code == 1 <==> Exists(fs, backupPath) && Exists(fs, destination)
                             && HandleConflictRestoreOps(o.conflictResolution, response) != 0
    ensures r.code == 1 ==> r.fs == fs
    ensures r.fs - {destination} == fs - {destination}
    ensures r.code == 0 ==> IsFile(fs, backupPath) && destination in r.fs && r.fs[destination].File?
                            && r.fs[destination].data == (if backupPath == destination then [] else fs[backupPath].data)
    ensures r.code == 0 && backupPath != destination && o.restoreMetadata ==>
              r.fs[destination].mtime == fs[backupPath].mtime
    ensures r.warned ==> checks && o.verifyAfterRestore && r.code == 0
  {
    if !Exists(fs, backupPath) then FileOutcome(-1, fs, false)
    else if Exists(fs, destination) && HandleConflictRestoreOps(o.conflictResolution, response) != 0 then
      FileOutcome(1, fs, false)
    else
      var (c, fs1) := if o.restoreMetadata then CopyFileWithMetadata(fs, backupPath, destination, fault, now)
                      else CopyFile(fs, backupPath, destination, fault, now);
      var warned := checks && c == 0 && o.verifyAfterRestore && VerifyRestoredFile(fs1, backupPath, destination) != 0;
      FileOutcome(c, fs1, warned)
  }

  /** The check after a restore never complains: a successful copy has
      the size of its source.  So the result and the files do not depend
      on whether it is made. */
  lemma RestoreNeverWarns(fs: FS, backupPath: Path, destination: Path, o: RestoreOptions, response: char,
                          fault: Fault, now: int, checks: bool)
    ensures !RestoreFile(fs, backupPath, destination, o, response, fault, now, checks).warned
    ensures var a := RestoreFile(fs, backupPath, destination, o, response, fault, now, checks);
            var b := RestoreFile(fs, backupPath, destination, o, response, fault, now, !checks);
            a.code == b.code && a.fs == b.fs
  {
    var r := RestoreFile(fs, backupPath, destination, o, response, fault, now, checks);
    if r.code == 0 {
      assert IsFile(r.fs, destination);
      if backupPath != destination {
        assert r.fs[backupPath] == (r.fs - {destination})[backupPath] == fs[backupPath];
      }
    }
  }

  /** `restore_directory`: only the destination directory is made. */
  function RestoreDirectory(fs: FS, destinationDir: Path, now: int, allocFails: bool): (r: (int, FS))
    ensures r.0 == 0 || r.0 == -1
    ensures r.0 == 0 ==> IsDir(r.1, destinationDir)
    ensures Preserves(fs, r.1) && AddsOnlyDirs(fs, r.1)
    ensures IsDir(fs, destinationDir) ==> r == (0, fs)
  {
    CreateDirectory(fs, destinationDir, now, allocFails)
  }

  function Cleared(prev: RestoreStatus, start: int): RestoreStatus {
    prev.(totalFiles := 0, restoredFiles := 0, skippedFiles := 0, errorFiles := 0,
          totalSize := 0, restoredSize := 0, startTime := start)
  }

  /** `perform_restore`: clear the counters, then restore a directory
      (only with `recursive`, counting nothing) or one file, which is
      counted as restored, skipped or failed by its result. */
  function PerformRestore(fs: FS, backupPath: Path, destination: Path, o: RestoreOptions, prev: RestoreStatus,
                          response: char, fault: Fault, allocFails: bool, checks: bool, start: int, end: int)
    : (r: (int, RestoreStatus, FS))
    ensures r.1.startTime == start
    ensures IsDir(fs, backupPath) ==>
              r.1.totalFiles == 0 && r.1.restoredFiles == 0 && r.1.skippedFiles == 0 && r.1.errorFiles == 0
              && r.1.totalSize == 0 && r.1.restoredSize == 0
    ensures IsDir(fs, backupPath) && !o.recursive ==> r.0 == -1 && r.2 == fs && r.1.endTime == prev.endTime
    ensures IsDir(fs, backupPath) && o.recursive ==>
              r.1.endTime == end && (r.0 == 0 || r.0 == -1) && Preserves(fs, r.2)
              && (r.0 == 0 ==> IsDir(r.2, destination))
    ensures !IsDir(fs, backupPath) ==>
              r.1.endTime == end && r.1.totalFiles == 1
              && r.1.restoredFiles + r.1.skippedFiles + r.1.errorFiles == 1
              && (r.1.restoredFiles == 1 <==> r.0 == 0)
              && (r.1.skippedFiles == 1 <==> r.0 == 1)
    ensures !IsDir(fs, backupPath) && r.0 == 0 ==>
              IsFile(fs, backupPath) && destination in r.2 && r.2[destination].File?
              && r.2[destination].data == (if backupPath == destination then [] else fs[backupPath].data)
              && r.1.totalSize == r.1.restoredSize == |r.2[destination].data|
    ensures !IsDir(fs, backupPath) && r.0 != 0 ==> r.1.totalSize == 0 && r.1.restoredSize == 0
  {
    var s := Cleared(prev, start);
    if IsDir(fs, backupPath) then
      if !o.recursive then (-1, s, fs)
      else
        var (c, fs1) := RestoreDirectory(fs, destination, start, allocFails);
        (c, s.(endTime := end), fs1)
    else
      var f := RestoreFile(fs, backupPath, destination, o, response, fault, start, checks);
      var s1 := s.(totalFiles := 1, endTime := end);
      if f.code == 0 then
        var size := GetFileSize(f.fs, backupPath);
        (0, s1.(restoredFiles := 1, totalSize := size, restoredSize := size), f.fs)
      else if f.code == 1 then (1, s1.(skippedFiles := 1), f.fs)
      else (f.code, s1.(errorFiles := 1), f.fs)
  }

  /** With SKIP an existing destination is never touched, whatever the
      prompt would have read. */
  lemma SkipKeepsDestination(fs: FS, backupPath: Path, destination: Path, o: RestoreOptions, prev: RestoreStatus,
                             response: char, fault: Fault, allocFails: bool, checks: bool, start: int, end: int)
    requires ModeOfRestoreOpsCode(o.conflictResolution) == Some(Skip)
    requires IsFile(fs, backupPath) && Exists(fs, destination)
    ensures var r := PerformRestore(fs, backupPath, destination, o, prev, response, fault, allocFails, checks, start, end);
            r.0 == 1 && r.2 == fs && r.1.skippedFiles == 1
  {
  }
}

=== FILE: strings.dfy ===
/** The C string primitives the utility relies on (`strrchr`, suffix
    comparison, `atoi`/`atol`, `%d`/`%ld` printing, line splitting),
    stated over `string`. */
module Strings {
  import opened Base

  predicate StartsWith(s: string, p: string) {
    |p| <= |s| && s[..|p|] == p
  }

  predicate EndsWith(s: string, x: string) {
    |x| <= |s| && s[|s| - |x|..] == x
  }

  /** `strrchr`: the index of the last occurrence of `c`. */
  function LastIndexOf(s: string, c: char): (r: Option<nat>)
    ensures r.Some? ==> r.value < |s| && s[r.value] == c
    ensures r.Some? ==> forall j :: r.value < j < |s| ==> s[j] != c
    ensures r.None? ==> forall j :: 0 <= j < |s| ==> s[j] != c
  {
    if |s| == 0 then None
    else if s[|s| - 1] == c then Some(|s| - 1)
    else LastIndexOf(s[..|s| - 1], c)
  }

  /** `strchr`: the index of the first occurrence of `c`. */
  function IndexOf(s: string, c: char): (r: Option<nat>)
    ensures r.Some? ==> r.value < |s| && s[r.value] == c
    ensures r.Some? ==> forall j :: 0 <= j < r.value ==> s[j] != c
    ensures r.None? ==> forall j :: 0 <= j < |s| ==> s[j] != c
  {
    if |s| == 0 then None
    else if s[0] == c then Some(0)
    else match IndexOf(s[1..], c)
      case None => None
      case Some(i) => Some(i + 1)
  }

  /** The text from the last `c` to the end (the pointer `strrchr` returns). */
  function SuffixFromLast(s: string, c: char): Option<string>
  {
    match LastIndexOf(s, c)
    case None => None
    case Some(i) => Some(s[i..])
  }

  predicate IsDigit(c: char) { '0' <= c <= '9' }

  /** The characters `isspace` accepts in the C locale. */
  predicate IsSpace(c: char) {
    c == ' ' || c == '\t' || c == '\n' || c == '\r' || c == '\U{B}' || c == '\U{C}'
  }

  function DigitChar(d: nat): char
    requires d < 10
  {
    "0123456789"[d]
  }

  function DigitValue(c: char): nat
    requires IsDigit(c)
  {
    (c as int - '0' as int) as nat
  }

  /** Decimal text of a natural number, as `printf("%d")` writes it. */
  function NatToString(n: nat): (r: string)
    ensures |r| >= 1
    ensures forall i :: 0 <= i < |r| ==> IsDigit(r[i])
  {
    if n < 10 then [DigitChar(n)]
    else NatToString(n / 10) + [DigitChar(n % 10)]
  }

  /** Decimal text of an integer, as `printf("%ld")` writes it. */
  function IntToString(n: int): string
  {
    if n < 0 then "-" + NatToString(-n) else NatToString(n)
  }

  /** Length of the run of digits at the front of `s`. */
  function DigitRun(s: string): (r: nat)
    ensures r <= |s|
    ensures forall i :: 0 <= i < r ==> IsDigit(s[i])
    ensures r < |s| ==> !IsDigit(s[r])
  {
    if |s| > 0 && IsDigit(s[0]) then 1 + DigitRun(s[1..]) else 0
  }

  /** The value of a string of decimal digits, most significant first. */
  function DigitsValue(d: string): nat
    requires forall i :: 0 <= i < |d| ==> IsDigit(d[i])
  {
    if |d| == 0 then 0
    else DigitsValue(d[..|d| - 1]) * 10 + DigitValue(d[|d| - 1])
  }

  function SkipSpaces(s: string): (r: string)
    ensures |r| <= |s|
    ensures |r| > 0 ==> !IsSpace(r[0])
  {
    if |s| > 0 && IsSpace(s[0]) then SkipSpaces(s[1..]) else s
  }

  /** The value of the run of digits at the front of `s`. */
  function LeadingValue(s: string): nat
  {
    DigitsValue(s[..DigitRun(s)])
  }

  /** `atol` (and `atoi`): leading white space, an optional sign, then the
      longest run of digits; 0 when there are none.  C leaves overflow
      undefined; here the value is unbounded. */
  function Atol(s: string): int
  {
    var t := SkipSpaces(s);
    if |t| > 0 && t[0] == '-' then -(LeadingValue(t[1..]) as int)
    else if |t| > 0 && t[0] == '+' then LeadingValue(t[1..])
    else LeadingValue(t)
  }

  lemma {:induction false} DigitsValueOfNatToString(n: nat)
    ensures DigitsValue(NatToString(n)) == n
  {
    if n >= 10 {
      var s := NatToString(n);
      assert s[..|s| - 1] == NatToString(n / 10);
      DigitsValueOfNatToString(n / 10);
    }
  }

  lemma {:induction false} DigitRunOfDigitsThen(d: string, rest: string)
    requires forall i :: 0 <= i < |d| ==> IsDigit(d[i])
    requires |rest| == 0 || !IsDigit(rest[0])
    ensures DigitRun(d + rest) == |d|
  {
    if |d| > 0 {
      assert (d + rest)[1..] == d[1..] + rest;
      DigitRunOfDigitsThen(d[1..], rest);
    }
  }

  lemma LeadingValueOfDigitsThen(d: string, rest: string)
    requires forall i :: 0 <= i < |d| ==> IsDigit(d[i])
    requires |rest| == 0 || !IsDigit(rest[0])
    ensures LeadingValue(d + rest) == DigitsValue(d)
  {
    DigitRunOfDigitsThen(d, rest);
    assert (d + rest)[..|d|] == d;
  }

  /** `atol` reads back what `%ld` printed, whatever follows the number
      (as long as it does not start with a digit). */
  lemma AtolOfIntToString(n: int, rest: string)
    requires |rest| == 0 || !IsDigit(rest[0])
    ensures Atol(IntToString(n) + rest) == n
  {
    if n < 0 {
      AtolOfNegative(n, rest);
    } else {
      var d := NatToString(n);
      assert IsDigit(d[0]);
      assert (d + rest)[0] == d[0];
      assert SkipSpaces(d + rest) == d + rest;
      LeadingValueOfDigitsThen(d, rest);
      DigitsValueOfNatToString(n);
    }
  }

  lemma AtolOfNegative(n: int, rest: string)
    requires n < 0
    requires |rest| == 0 || !IsDigit(rest[0])
    ensures Atol(IntToString(n) + rest) == n
  {
    var m: nat := -n;
    var d := NatToString(m);
    var t := "-" + (d + rest);
    assert IntToString(n) + rest == t by {
      assert IntToString(n) == "-" + d;
    }
    AtolOfMinusDigits(d, rest);
    DigitsValueOfNatToString(m);
    assert DigitsValue(d) == m;
  }

  lemma AtolOfMinusDigits(d: string, rest: string)
    requires forall i :: 0 <= i < |d| ==> IsDigit(d[i])
    requires |rest| == 0 || !IsDigit(rest[0])
    ensures Atol("-" + (d + rest)) == -(DigitsValue(d) as int)
  {
    var s := "-" + (d + rest);
    assert s[1..] == d + rest;
    AtolOfMinus(s);
    LeadingValueOfDigitsThen(d, rest);
  }

  lemma AtolOfMinus(s: string)
    requires |s| > 0 && s[0] == '-'
    ensures Atol(s) == -(LeadingValue(s[1..]) as int)
  {
    assert !IsSpace(s[0]);
    assert SkipSpaces(s) == s;
  }

  /** Bytes of an ASCII/Latin-1 text, one byte per character. */
  predicate IsByteText(s: string) {
    forall i :: 0 <= i < |s| ==> s[i] as int < 256
  }

  function TextToBytes(s: string): (r: Bytes)
    requires IsByteText(s)
    ensures |r| == |s|
  {
    seq(|s|, i requires 0 <= i < |s| => s[i] as int as byte)
  }

  function BytesToText(b: Bytes): (r: string)
    ensures |r| == |b|
  {
    seq(|b|, i requires 0 <= i < |b| => b[i] as int as char)
  }

  lemma TextRoundTrip(s: string)
    requires IsByteText(s)
    ensures BytesToText(TextToBytes(s)) == s
  {
  }

  /** The lines `fgets` returns, each with its trailing newline. */
  function Lines(s: string): seq<string>
    decreases |s|
  {
    if |s| == 0 then []
    else match IndexOf(s, '\n')
      case None => [s]
      case Some(i) => [s[..i + 1]] + Lines(s[i + 1..])
  }

  /** A text whose first line has no newline splits there. */
  lemma LinesOfFirstLine(a: string, rest: string)
    requires forall i :: 0 <= i < |a| ==> a[i] != '\n'
    ensures Lines(a + "\n" + rest) == [a + "\n"] + Lines(rest)
  {
    var s := a + "\n" + rest;
    assert s[|a|] == '\n';
    assert IndexOf(s, '\n') == Some(|a|) by {
      var r := IndexOf(s, '\n');
      assert r.Some?;
      assert forall j :: 0 <= j < |a| ==> s[j] != '\n';
    }
    assert s[..|a| + 1] == a + "\n";
    assert s[|a| + 1..] == rest;
  }
}

=== FILE: traversal.dfy ===
/** The directory walks of the main program: `backup_directory`,
    `backup_directory_recursive` (src/backup.c), `restore_directory` and
    `restore_directory_recursive` (src/restore.c).  The two walks differ
    only in the exclusion check, the destination name of an entry, the
    per-file step and the metadata of a restored directory, so one walk
    with a `Direction` models both. */
module Traversal {
  import opened Base
  import opened Paths
  import opened FileSystem
  import opened Compression
  import opened Conflict
  import opened Cli
  import opened MakeDirs
  import opened Engine

  datatype Direction = Backup | Restore

  /** The destination of the entry `name`: restore drops a recognised
      compression extension. */
  function ChildDest(d: Direction, dest: Path, name: string): (r: Path)
    ensures dest <= r
  {
    var n := if d == Backup then name else StripExtension(name);
    assert (dest + "/" + n)[..|dest|] == dest;
    Join(dest, n)
  }

  /** The path `p` has the same entry (or the same absence) in both. */
  predicate Unchanged(fs: FS, fs': FS, p: Path) {
    (p in fs <==> p in fs') && (p in fs ==> fs[p] == fs'[p])
  }

  /** Every change lies on the way to `root` or below it. */
  ghost predicate Confined(fs: FS, fs': FS, root: Path) {
    forall p :: !Unchanged(fs, fs', p) ==> p <= root || root <= p
  }

  /** Regular files keep their contents (their mtime may change). */
  predicate KeepsFileData(fs: FS, fs': FS) {
    forall p :: p in fs && fs[p].File? ==> p in fs' && fs'[p].File? && fs'[p].data == fs[p].data
  }

  /** What every step of a walk rooted at `dest` keeps: counters never go
      down, directories stay, changes stay on the way to or under `dest`;
      a dry run adds only directories, keeps file contents and fails no
      file; a backup that skips conflicts, or a backup dry run, touches
      no existing entry. */
  ghost predicate Sound(d: Direction, st: State, st': State, dest: Path, o: BackupOptions) {
    Grows(st.stats, st'.stats) && KeepsDirs(st.fs, st'.fs) && Confined(st.fs, st'.fs, dest)
    && (o.dryRun ==> AddsOnlyDirs(st.fs, st'.fs) && KeepsFileData(st.fs, st'.fs)
                     && st'.stats.filesFailed == st.stats.filesFailed)
    && (d == Backup && (o.dryRun || o.conflict == Skip) ==> Preserves(st.fs, st'.fs))
  }

  lemma PrefixesComparable(a: Path, b: Path, c: Path)
    requires a <= c && b <= c
    ensures a <= b || b <= a
  {
    if |a| <= |b| {
      assert a == c[..|a|] && b[..|a|] == c[..|a|];
    } else {
      assert b == c[..|b|] && a[..|b|] == c[..|b|];
    }
  }

  lemma PrefixTrans(a: Path, b: Path, c: Path)
    requires a <= b && b <= c
    ensures a <= c
  {
    assert c[..|a|] == b[..|a|];
  }

  /** A walk confined to a sub-destination is confined to its parent. */
  lemma ConfinedWiden(fs: FS, fs': FS, inner: Path, outer: Path)
    requires outer <= inner && Confined(fs, fs', inner)
    ensures Confined(fs, fs', outer)
  {
    forall p | !Unchanged(fs, fs', p)
      ensures p <= outer || outer <= p
    {
      if inner <= p {
        PrefixTrans(outer, inner, p);
      } else {
        PrefixesComparable(p, outer, inner);
      }
    }
  }

  lemma SoundTrans(d: Direction, a: State, b: State, c: State, dest: Path, o: BackupOptions)
    requires Sound(d, a, b, dest, o) && Sound(d, b, c, dest, o)
    ensures Sound(d, a, c, dest, o)
  {
    forall p | !Unchanged(a.fs, c.fs, p)
      ensures p <= dest || dest <= p
    {
      assert !Unchanged(a.fs, b.fs, p) || !Unchanged(b.fs, c.fs, p);
    }
  }

  lemma SoundWiden(d: Direction, a: State, b: State, inner: Path, outer: Path, o: BackupOptions)
    requires outer <= inner && Sound(d, a, b, inner, o)
    ensures Sound(d, a, b, outer, o)
  {
    ConfinedWiden(a.fs, b.fs, inner, outer);
  }

  /** `backup_directory` / `restore_directory`: create `dest` unless
      something is already there, set a restored directory's time, count
      the directory. */
  function PrepareDir(d: Direction, st: State, node: Node, dest: Path, o: BackupOptions, now: int): (r: (ErrorCode, State))
    ensures r.0 == Success || r.0 == FileWriteError
    ensures r.0 == Success <==> Exists(st.fs, dest) || CreateDirectoryRecursive(st.fs, dest, now).0 == 0
    ensures r.0 == Success ==> (Exists(r.1.fs, dest) || Exists(r.1.fs, TrimOneSlash(dest)))
    ensures r.0 == Success ==> r.1.stats == st.stats.(dirsProcessed := st.stats.dirsProcessed + 1)
    ensures r.0 != Success ==> r.1.stats == st.stats
    ensures d == Backup ==> Preserves(st.fs, r.1.fs)
    ensures AddsOnlyDirs(st.fs, r.1.fs) && KeepsFileData(st.fs, r.1.fs)
    ensures Sound(d, st, r.1, dest, o)
  {
    var s := st.stats;
    var (c, fs1) := if !Exists(st.fs, dest) then CreateDirectoryRecursive(st.fs, dest, now) else (0, st.fs);
    if c != 0 then (FileWriteError, st.(fs := fs1))
    else
      var fs2 := if d == Restore && (o.preservePermissions || o.preserveTimestamps)
                 then SetMtime(fs1, dest, NodeMtime(node)) else fs1;
      assert forall p :: !Unchanged(fs1, fs2, p) ==> p == dest;
      (Success, State(fs2, s.(dirsProcessed := s.dirsProcessed + 1)))
  }

  /** The per-file step of a walk; only regular files reach it. */
  function FileStep(d: Direction, st: State, node: Node, source: Path, dest: Path, o: BackupOptions, env: Env)
    : (r: (ErrorCode, State))
    requires node.Reg?
    ensures CountedOnce(st.stats, r.1.stats)
    ensures r.0 != Success <==> r.1.stats.filesFailed > st.stats.filesFailed
    ensures o.dryRun ==> r.1.fs == st.fs
    ensures Sound(d, st, r.1, dest, o)
  {
    if d == Backup then
      BackupFileSound(st, node, source, dest, o, env);
      BackupFile(st, node, source, dest, o, env)
    else
      RestoreFileSound(st, node, source, dest, o, env);
      RestoreFile(st, node, source, dest, o, env)
  }

  /** A change confined to one path under `dest` is confined to `dest`. */
  lemma OneChangeConfined(fs: FS, fs': FS, t: Path, dest: Path)
    requires fs' - {t} == fs - {t} && dest <= t
    ensures Confined(fs, fs', dest)
  {
    forall p | p != t
      ensures Unchanged(fs, fs', p)
    {
      assert p in fs <==> p in fs - {t};
      assert p in fs' <==> p in fs' - {t};
      if p in fs {
        assert fs[p] == (fs - {t})[p] == (fs' - {t})[p] == fs'[p];
      }
    }
  }

  lemma BackupFileSound(st: State, node: Node, source: Path, dest: Path, o: BackupOptions, env: Env)
    requires node.Reg?
    ensures Sound(Backup, st, BackupFile(st, node, source, dest, o, env).1, dest, o)
  {
    var r := BackupFile(st, node, source, dest, o, env);
    var t := BackupTarget(st.fs, dest, o, env);
    if r.1.fs != st.fs {
      TargetUnder(Backup, st.fs, dest, o, env);
      OneChangeConfined(st.fs, r.1.fs, t.target, dest);
    }
  }

  lemma RestoreFileSound(st: State, node: Node, source: Path, dest: Path, o: BackupOptions, env: Env)
    requires node.Reg?
    ensures Sound(Restore, st, RestoreFile(st, node, source, dest, o, env).1, dest, o)
  {
    var r := RestoreFile(st, node, source, dest, o, env);
    var t := RestoreTarget(st.fs, dest, o, env);
    if r.1.fs != st.fs {
      TargetUnder(Restore, st.fs, dest, o, env);
      OneChangeConfined(st.fs, r.1.fs, t.target, dest);
    }
  }

  /** Whatever name the conflict step settles on starts with `dest`. */
  lemma TargetUnder(d: Direction, fs: FS, dest: Path, o: BackupOptions, env: Env)
    ensures d == Backup && BackupTarget(fs, dest, o, env).Proceed? ==> dest <= BackupTarget(fs, dest, o, env).target
    ensures d == Restore && RestoreTarget(fs, dest, o, env).Proceed? ==> dest <= RestoreTarget(fs, dest, o, env).target
  {
    var final := AppendExtension(dest, o.compression);
    assert final[..|dest|] == dest;
    forall n: nat, ext: string
      ensures dest <= Candidate(dest, n, ext)
    {
      assert Candidate(dest, n, ext)[..|dest|] == dest;
    }
  }

  /** Entries a walk passes over without a result: names excluded from a
      backup, names `stat` fails on, and files that are neither regular
      files nor directories. */
  predicate Ignored(d: Direction, source: Path, ch: Child, env: Env) {
    (d == Backup && !env.included(Join(source, ch.name))) || ch.node.Dangling? || ch.node.Other?
  }

  /** The code a directory reports: that of its last failing entry, or
      success when none failed. */
  function LastFailure(codes: seq<ErrorCode>): ErrorCode {
    if |codes| == 0 then Success
    else if codes[|codes| - 1] != Success then codes[|codes| - 1]
    else LastFailure(codes[..|codes| - 1])
  }

  /** The entries of `cs` the loop does not pass over, in order. */
  function Visited(d: Direction, source: Path, cs: seq<Child>, env: Env): (r: seq<Child>)
    ensures |r| <= |cs|
    ensures forall k :: 0 <= k < |r| ==> !Ignored(d, source, r[k], env) && (r[k].node.Folder? || r[k].node.Reg?)
  {
    if |cs| == 0 then []
    else (if Ignored(d, source, cs[0], env) then [] else [cs[0]]) + Visited(d, source, cs[1..], env)
  }

  /** A walk's result: its code, the state after it, and the codes of the
      entries it visited, in `readdir` order. */
  datatype Visit = Visit(code: ErrorCode, st: State, codes: seq<ErrorCode>)

  /** `backup_directory_recursive` / `restore_directory_recursive`. */
  function Walk(d: Direction, st: State, node: Node, source: Path, dest: Path, o: BackupOptions, env: Env): (r: Visit)
    requires node.Folder?
    ensures Sound(d, st, r.st, dest, o)
    ensures PrepareDir(d, st, node, dest, o, env.now).0 != Success ==>
              r == Visit(FileWriteError, PrepareDir(d, st, node, dest, o, env.now).1, [])
    ensures PrepareDir(d, st, node, dest, o, env.now).0 == Success && !node.readable ==>
              r == Visit(FileOpenError, PrepareDir(d, st, node, dest, o, env.now).1, [])
    ensures PrepareDir(d, st, node, dest, o, env.now).0 == Success && node.readable ==>
              r.code == LastFailure(r.codes) && r.st.stats.dirsProcessed > st.stats.dirsProcessed
    decreases node, 1
  {
    var (c, st1) := PrepareDir(d, st, node, dest, o, env.now);
    if c != Success then Visit(FileWriteError, st1, [])
    else if !node.readable then Visit(FileOpenError, st1, [])
    else
      var r := WalkKids(d, st1, node, 0, source, dest, o, env, Success, []);
      SoundTrans(d, st, st1, r.st, dest, o);
      r
  }

  /** One entry the loop visits: a subdirectory is walked, a regular
      file goes through the per-file step. */
  function ChildStep(d: Direction, st: State, ch: Child, source: Path, dest: Path, o: BackupOptions, env: Env)
    : (r: (ErrorCode, State))
    requires ch.node.Folder? || ch.node.Reg?
    ensures Sound(d, st, r.1, dest, o)
    ensures ch.node.Reg? ==> CountedOnce(st.stats, r.1.stats)
    decreases ch.node, 2
  {
    var sp := Join(source, ch.name);
    var dp := ChildDest(d, dest, ch.name);
    var (c, st1) :=
      if ch.node.Folder? then var v := Walk(d, st, ch.node, sp, dp, o, env); (v.code, v.st)
      else FileStep(d, st, ch.node, sp, dp, o, env);
    SoundWiden(d, st, st1, dp, dest, o);
    (c, st1)
  }

  /** The `readdir` loop from entry `i` on, with the result and the codes
      so far. */
  function WalkKids(d: Direction, st: State, parent: Node, i: nat, source: Path, dest: Path, o: BackupOptions,
                    env: Env, result: ErrorCode, codes: seq<ErrorCode>): (r: Visit)
    requires parent.Folder? && i <= |parent.children|
    requires result == LastFailure(codes)
    ensures Sound(d, st, r.st, dest, o)
    ensures codes <= r.codes && r.code == LastFailure(r.codes)
    ensures r.st.stats.dirsProcessed >= st.stats.dirsProcessed
    decreases parent, 0, |parent.children| - i
  {
    if i == |parent.children| then Visit(result, st, codes)
    else
      var ch := parent.children[i];
      if Ignored(d, source, ch, env) then
        WalkKids(d, st, parent, i + 1, source, dest, o, env, result, codes)
      else
        var (c, st1) := ChildStep(d, st, ch, source, dest, o, env);
        LastFailureAppend(codes, c);
        var r := WalkKids(d, st1, parent, i + 1, source, dest, o, env, if c != Success then c else result,
                          codes + [c]);
        SoundTrans(d, st, st1, r.st, dest, o);
        r
  }

  /** The loop's reference: step through the entries `vis` in order,
      each from the state the one before it left, collecting their codes;
      the codes and the final state. */
  function Steps(d: Direction, st: State, vis: seq<Child>, source: Path, dest: Path, o: BackupOptions, env: Env)
    : (r: (seq<ErrorCode>, State))
    requires forall k :: 0 <= k < |vis| ==> vis[k].node.Folder? || vis[k].node.Reg?
    ensures |r.0| == |vis|
    decreases |vis|
  {
    if |vis| == 0 then ([], st)
    else
      var (c, st1) := ChildStep(d, st, vis[0], source, dest, o, env);
      var (cs, st2) := Steps(d, st1, vis[1..], source, dest, o, env);
      ([c] + cs, st2)
  }

  /** `Visited` seen from its first entry. */
  lemma VisitedFront(d: Direction, source: Path, cs: seq<Child>, env: Env)
    requires |cs| > 0
    ensures Ignored(d, source, cs[0], env) ==> Visited(d, source, cs, env) == Visited(d, source, cs[1..], env)
    ensures !Ignored(d, source, cs[0], env) ==>
              |Visited(d, source, cs, env)| > 0 && Visited(d, source, cs, env)[0] == cs[0]
              && Visited(d, source, cs, env)[1..] == Visited(d, source, cs[1..], env)
  {
    if !Ignored(d, source, cs[0], env) {
      assert Visited(d, source, cs, env) == [cs[0]] + Visited(d, source, cs[1..], env);
    }
  }

  /** The reference takes its first entry's step, then the rest from there. */
  lemma StepsFront(d: Direction, st: State, vis: seq<Child>, ch: Child, rest: seq<Child>,
                    source: Path, dest: Path, o: BackupOptions, env: Env)
    requires |vis| > 0 && vis[0] == ch && vis[1..] == rest
    requires forall k :: 0 <= k < |vis| ==> vis[k].node.Folder? || vis[k].node.Reg?
    ensures var t := ChildStep(d, st, ch, source, dest, o, env);
            var s := Steps(d, t.1, rest, source, dest, o, env);
            Steps(d, st, vis, source, dest, o, env) == ([t.0] + s.0, s.1)
  {
  }

  /** The loop visits exactly the entries it does not pass over, in
      order, each from the state the one before it left: it appends the
      reference's codes and ends in the reference's state. */
  lemma {:induction false} WalkKidsSteps(d: Direction, st: State, parent: Node, i: nat, source: Path, dest: Path,
                                         o: BackupOptions, env: Env, result: ErrorCode, codes: seq<ErrorCode>)
    requires parent.Folder? && i <= |parent.children|
    requires result == LastFailure(codes)
    ensures var r := WalkKids(d, st, parent, i, source, dest, o, env, result, codes);
            var s := Steps(d, st, Visited(d, source, parent.children[i..], env), source, dest, o, env);
            r.codes == codes + s.0 && r.st == s.1
    decreases |parent.children| - i
  {
    var cs := parent.children[i..];
    if i < |parent.children| {
      var ch := parent.children[i];
      assert cs[0] == ch && cs[1..] == parent.children[i + 1..];
      VisitedFront(d, source, cs, env);
      if Ignored(d, source, ch, env) {
        WalkKidsSteps(d, st, parent, i + 1, source, dest, o, env, result, codes);
      } else {
        var t := ChildStep(d, st, ch, source, dest, o, env);
        var result' := if t.0 != Success then t.0 else result;
        LastFailureAppend(codes, t.0);
        WalkKidsSteps(d, t.1, parent, i + 1, source, dest, o, env, result', codes + [t.0]);
        assert WalkKids(d, st, parent, i, source, dest, o, env, result, codes)
               == WalkKids(d, t.1, parent, i + 1, source, dest, o, env, result', codes + [t.0]);
        var rest := Visited(d, source, parent.children[i + 1..], env);
        StepsFront(d, st, Visited(d, source, cs, env), ch, rest, source, dest, o, env);
        var s := Steps(d, t.1, rest, source, dest, o, env);
        assert Steps(d, st, Visited(d, source, cs, env), source, dest, o, env) == ([t.0] + s.0, s.1);
        AppendAssoc(codes, [t.0], s.0);
      }
    } else {
      assert cs == [];
    }
  }

  lemma LastFailureAppend(codes: seq<ErrorCode>, c: ErrorCode)
    ensures LastFailure(codes + [c]) == if c != Success then c else LastFailure(codes)
  {
    assert (codes + [c])[..|codes|] == codes;
  }

  /** A directory reports success exactly when every entry it visited
      did. */
  lemma {:induction false} LastFailureIsSuccess(codes: seq<ErrorCode>)
    ensures LastFailure(codes) == Success <==> forall i :: 0 <= i < |codes| ==> codes[i] == Success
  {
    if |codes| > 0 {
      var init := codes[..|codes| - 1];
      LastFailureIsSuccess(init);
      assert forall i :: 0 <= i < |init| ==> init[i] == codes[i];
    }
  }

  /** A failing directory reports its last failing entry's code: every
      entry after it succeeded. */
  lemma {:induction false} LastFailureIsAFailure(codes: seq<ErrorCode>)
    requires LastFailure(codes) != Success
    ensures exists i :: 0 <= i < |codes| && codes[i] == LastFailure(codes)
                        && forall j :: i < j < |codes| ==> codes[j] == Success
  {
    var n := |codes| - 1;
    if codes[n] == Success {
      var init := codes[..n];
      LastFailureIsAFailure(init);
      var i :| 0 <= i < n && init[i] == LastFailure(codes) && forall j :: i < j < n ==> init[j] == Success;
      assert codes[i] == LastFailure(codes);
      forall j | i < j < |codes|
        ensures codes[j] == Success
      {
        if j < n {
          assert codes[j] == init[j];
        }
      }
    } else {
      assert codes[n] == LastFailure(codes);
    }
  }

  /** Ignored entries change nothing: a run of them anywhere in the
      directory is passed over as if it were not there. */
  lemma {:induction false} IgnoredEntriesChangeNothing(d: Direction, st: State, parent: Node, i: nat, j: nat,
                                                       source: Path, dest: Path, o: BackupOptions, env: Env,
                                                       result: ErrorCode, codes: seq<ErrorCode>)
    requires parent.Folder? && i <= j <= |parent.children|
    requires result == LastFailure(codes)
    requires forall k :: i <= k < j ==> Ignored(d, source, parent.children[k], env)
    ensures WalkKids(d, st, parent, i, source, dest, o, env, result, codes)
            == WalkKids(d, st, parent, j, source, dest, o, env, result, codes)
    decreases j - i
  {
    if i < j {
      IgnoredEntriesChangeNothing(d, st, parent, i + 1, j, source, dest, o, env, result, codes);
      IgnoredEntrySkipped(d, st, parent, i, source, dest, o, env, result, codes);
    }
  }

  /** One ignored entry: the loop moves to the next one with nothing
      changed. */
  lemma IgnoredEntrySkipped(d: Direction, st: State, parent: Node, i: nat, source: Path, dest: Path,
                            o: BackupOptions, env: Env, result: ErrorCode, codes: seq<ErrorCode>)
    requires parent.Folder? && i < |parent.children|
    requires result == LastFailure(codes)
    requires Ignored(d, source, parent.children[i], env)
    ensures WalkKids(d, st, parent, i, source, dest, o, env, result, codes)
            == WalkKids(d, st, parent, i + 1, source, dest, o, env, result, codes)
  {
  }

  /** A walk that prepared and opened its directory does what the
      reference does from the prepared state over the entries it does
      not pass over, and reports the code of the last failing one. */
  lemma WalkSteps(d: Direction, st: State, node: Node, source: Path, dest: Path, o: BackupOptions, env: Env)
    requires node.Folder?
    requires PrepareDir(d, st, node, dest, o, env.now).0 == Success && node.readable
    ensures var v := Walk(d, st, node, source, dest, o, env);
            var s := Steps(d, PrepareDir(d, st, node, dest, o, env.now).1, Visited(d, source, node.children, env),
                           source, dest, o, env);
            v.codes == s.0 && v.st == s.1 && v.code == LastFailure(s.0)
  {
    var st1 := PrepareDir(d, st, node, dest, o, env.now).1;
    assert node.children[0..] == node.children;
    WalkKidsSteps(d, st1, node, 0, source, dest, o, env, Success, []);
  }

  /** The codes of the entries a walk visits, by the reference. */
  function EntryCodes(d: Direction, st: State, node: Node, source: Path, dest: Path, o: BackupOptions, env: Env)
    : (r: seq<ErrorCode>)
    requires node.Folder?
    ensures |r| == |Visited(d, source, node.children, env)|
  {
    Steps(d, PrepareDir(d, st, node, dest, o, env.now).1, Visited(d, source, node.children, env), source, dest, o, env).0
  }

  /** A walk succeeds exactly when the destination could be prepared,
      the source opened, and every entry not passed over succeeded. */
  lemma WalkSuccess(d: Direction, st: State, node: Node, source: Path, dest: Path, o: BackupOptions, env: Env)
    requires node.Folder?
    ensures var v := Walk(d, st, node, source, dest, o, env);
            var cs := EntryCodes(d, st, node, source, dest, o, env);
            v.code == Success <==>
              PrepareDir(d, st, node, dest, o, env.now).0 == Success && node.readable
              && forall k :: 0 <= k < |cs| ==> cs[k] == Success
  {
    if PrepareDir(d, st, node, dest, o, env.now).0 == Success && node.readable {
      WalkSteps(d, st, node, source, dest, o, env);
      LastFailureIsSuccess(EntryCodes(d, st, node, source, dest, o, env));
    }
  }

  /** A failing walk that opened its directory reports the code of its
      last failing entry: every entry after it succeeded. */
  lemma WalkLastFailure(d: Direction, st: State, node: Node, source: Path, dest: Path, o: BackupOptions, env: Env)
    requires node.Folder?
    requires PrepareDir(d, st, node, dest, o, env.now).0 == Success && node.readable
    requires Walk(d, st, node, source, dest, o, env).code != Success
    ensures var v := Walk(d, st, node, source, dest, o, env);
            var cs := EntryCodes(d, st, node, source, dest, o, env);
            exists k :: 0 <= k < |cs| && cs[k] == v.code && forall j :: k < j < |cs| ==> cs[j] == Success
  {
    WalkSteps(d, st, node, source, dest, o, env);
    LastFailureIsAFailure(EntryCodes(d, st, node, source, dest, o, env));
  }

  /** `backup_directory_recursive`: success exactly when the destination
      could be prepared, the source opened, and every entry not passed
      over succeeded. */
  function BackupDirectoryRecursive(st: State, node: Node, source: Path, dest: Path, o: BackupOptions, env: Env)
    : (r: (ErrorCode, State))
    requires node.Folder?
    ensures Sound(Backup, st, r.1, dest, o)
    ensures r.0 == Success <==>
              PrepareDir(Backup, st, node, dest, o, env.now).0 == Success && node.readable
              && forall k :: 0 <= k < |EntryCodes(Backup, st, node, source, dest, o, env)| ==>
                   EntryCodes(Backup, st, node, source, dest, o, env)[k] == Success
  {
    WalkSuccess(Backup, st, node, source, dest, o, env);
    var v := Walk(Backup, st, node, source, dest, o, env);
    (v.code, v.st)
  }

  /** `restore_directory_recursive`, with the same promise. */
  function RestoreDirectoryRecursive(st: State, node: Node, source: Path, dest: Path, o: BackupOptions, env: Env)
    : (r: (ErrorCode, State))
    requires node.Folder?
    ensures Sound(Restore, st, r.1, dest, o)
    ensures r.0 == Success <==>
              PrepareDir(Restore, st, node, dest, o, env.now).0 == Success && node.readable
              && forall k :: 0 <= k < |EntryCodes(Restore, st, node, source, dest, o, env)| ==>
                   EntryCodes(Restore, st, node, source, dest, o, env)[k] == Success
  {
    WalkSuccess(Restore, st, node, source, dest, o, env);
    var v := Walk(Restore, st, node, source, dest, o, env);
    (v.code, v.st)
  }
}
